=== FILE: README.md ===
# Event Finder: a Dafny model of the event API's core

Event Finder lets people publish local events and browse them. This project models the part of the repository that holds its logic:

- the backend's in-memory event store;
- the list, create and get-by-id handlers;
- the request validation middleware;
- the seed data;
- the serverless copy of the API in `api/index.js`, which follows different rules;
- the client's capacity, geocoding and date-layout helpers;
- the client's create-event form checks.

Everything is pure functions over immutable datatypes.

- **The store.** It is a JavaScript `Map` from id to event, modelled as `JsMap.OrderedMap`: a key list in insertion order plus a finite map. `values()` therefore lists events in the order their ids were first set.
- **Dates and ids.** The environment is passed in as parameters:
  - `parseDate: string -> Option<int>` stands for `new Date(s).getTime()`, with `None` for NaN;
  - `now` is the current time in milliseconds;
  - `addDays`, the `uuidv4()` ids and the `toISOString()` stamps are sequences or functions supplied by the caller.
- **JSON bodies.** A body is a record of `JsValues.Value` fields: undefined, null, boolean, number, string, or a plain object with no properties the routes read. This lets both validators be modelled on ill-typed fields as well as well-typed ones. Arrays, and objects with a `length` property, are not modelled (see "Left out").
- **JavaScript semantics.** Several JavaScript operations are written out once in `JsValues` and `Text`:
  - truthiness and `<` on mixed values;
  - `Number(s)` and `parseInt`;
  - the decimal text of an integer and `padStart`;
  - `trim`, `toLowerCase` (ASCII letters only), `includes` and `startsWith`.

Modules:

| module | file | models |
|---|---|---|
| `Wrappers` | wrappers.dfy | `Option`, and `Result` with `Fault` for a thrown exception |
| `Text` | text.dfy | whitespace, `trim`, ASCII `toLowerCase`, `includes`, `startsWith` |
| `Seqs` | seqs.dfy | `Array.prototype.filter`; `sort` with a numeric-key comparator as a stable insertion sort |
| `JsMap` | jsmap.dfy | the insertion-ordered `Map` |
| `JsValues` | jsvalues.dfy | JSON values, numbers with NaN and infinities, `Number()`, `parseInt`, the decimal text of integers |
| `Events` | events.dfy | `Event`, `CreateEventDTO`, query parameters, partial updates, the response envelope |
| `EventStorage` | event_storage.dfy | `backend/src/storage/eventStorage.ts` |
| `Validation` | validation.dfy | `backend/src/middleware/validation.ts` |
| `EventController` | event_controller.dfy | `backend/src/controllers/eventController.ts` |
| `Seed` | seed.dfy | `backend/src/storage/seed.ts` |
| `ApiVariant` | api_variant.dfy | `api/index.js` |
| `Helpers` | helpers.dfy | `frontend/src/utils/helpers.ts` |
| `CreateEventForm` | create_event_form.dfy | `frontend/src/pages/CreateEvent/CreateEvent.tsx` |
| `Divergence` | divergence.dfy | the inputs on which the two deployments, and the form and the server, disagree |

The same route handled by the two deployments behaves differently in several ways. `Divergence` states each difference as a lemma with the inputs that show it.

- **Validation.** The backend collects every validation error. The serverless copy returns the first one.
- **Text fields.**
  - The backend rejects blank text and titles over 200 characters.
  - The serverless copy wants lengths of at least 3, 10 and 3 characters, and has no upper bound.
  - It accepts a three-space title, and it accepts a number as a title.
- **Date filter.**
  - The backend compares UTC calendar days, and an unparseable date makes the whole request fail with 500.
  - The serverless copy tests whether the date string starts with the query text.
- **Attendance.** The backend keeps the `currentParticipants` a client sent. The serverless copy always stores 0.
- **Query values.** A whitespace-only query value is ignored by the backend but applied by the serverless copy.

## Model

| member | source | states |
|---|---|---|
| JsMap.Set | backend/src/storage/eventStorage.ts:9 | `Map.set` stores the value under its key, leaves every other key's value alone, and grows the map only for a new key |
| JsMap.Delete | backend/src/storage/eventStorage.ts:35 | `Map.delete` answers whether the key was present, after which the key is gone and the others are untouched |
| JsMap.Values | backend/src/storage/eventStorage.ts:15 | `values()` has one entry per key: every stored value is listed, and everything listed is stored under some key |
| JsMap.SetFreshValues | backend/src/storage/eventStorage.ts:9 | setting a new key appends its value at the end of `values()` |
| JsMap.SetExistingValues | backend/src/storage/eventStorage.ts:9 | setting an existing key replaces its value in place, keeping its position |
| JsMap.SetAllFreshValues | api/index.js:95 | setting distinct new keys one by one appends their values in that order |
| JsMap.SetAllEmptyValues | api/index.js:95 | filling an empty map with distinct keys lists exactly the given values |
| EventStorage.NewStore | backend/src/storage/eventStorage.ts:5 | a new store lists no events |
| EventStorage.Create | backend/src/storage/eventStorage.ts:8-11 | after `create(e)`, `getById(e.id)` is `e`; every other id maps to what it mapped to before; the count grows only for a new id |
| EventStorage.CreateFreshAppends | backend/src/storage/eventStorage.ts:8-16 | creating an event with a new id appends it to `getAll()` |
| EventStorage.CreateExistingReplaces | backend/src/storage/eventStorage.ts:9 | creating with a present id overwrites that entry in place and the count does not grow |
| EventStorage.Update | backend/src/storage/eventStorage.ts:24-31 | an absent id gives `undefined` and an unchanged store; a present id gives the merged record, stored under that id, with other ids untouched |
| EventStorage.UpdateOverridesFields | backend/src/storage/eventStorage.ts:28-30 | each field given in the partial record overrides the stored one, and each absent field keeps its old value |
| Events.Merge | backend/src/storage/eventStorage.ts:28 | the spread `{ ...event, ...updatedEvent }`; UpdateOverridesFields states its effect field by field |
| EventStorage.Delete | backend/src/storage/eventStorage.ts:34-36 | `delete` returns true exactly when the id was present; afterwards `getById` is undefined and the other ids are untouched |
| EventStorage.Clear | backend/src/storage/eventStorage.ts:55-57 | after `clear()`, `getAll()` is empty and no id is found |
| EventStorage.FilterByLocation | backend/src/storage/eventStorage.ts:39-43 | keeps exactly the stored events whose lower-cased location contains the lower-cased query, each as often as it was stored |
| EventStorage.Search | backend/src/storage/eventStorage.ts:46-52 | keeps exactly the events whose lower-cased title or description contains the lower-cased query |
| EventStorage.FilterByLocationCreateFresh | backend/src/storage/eventStorage.ts:39-43 | the location filter keeps store order: an event created under a new id comes after every earlier match, and only when it matches |
| EventStorage.SearchCreateFresh | backend/src/storage/eventStorage.ts:46-52 | the search keeps store order: an event created under a new id comes after every earlier match, and only when it matches |
| EventStorage.GetAll | backend/src/storage/eventStorage.ts:14-16 | `getAll()` is `Array.from(values())`; its order is stated by CreateFreshAppends and CreateExistingReplaces |
| EventStorage.GetById | backend/src/storage/eventStorage.ts:19-21 | `getById` is `Map.get`; GetByIdInGetAll relates it to `getAll` |
| EventStorage.Count | backend/src/storage/eventStorage.ts:5 | the number of entries in the map, which is the length of `getAll()` |
| EventStorage.GetByIdInGetAll | backend/src/storage/eventStorage.ts:14-21 | what `getById` finds is listed by `getAll`, and everything listed is found under some id |
| EventStorage.CreateThenDelete | backend/src/storage/eventStorage.ts:8-36 | creating an event under a new id and then deleting that id gives back a store that answers every lookup as before |
| Text.TrimStart | backend/src/controllers/eventController.ts:13 | the text kept is a suffix of the input that starts with a non-whitespace character |
| Text.TrimStartDropsBlank | backend/src/controllers/eventController.ts:13 | what is dropped at the start is all whitespace |
| Text.TrimEnd | backend/src/controllers/eventController.ts:13 | the text kept is a prefix of the input that ends with a non-whitespace character |
| Text.TrimEndDropsBlank | backend/src/controllers/eventController.ts:13 | what is dropped at the end is all whitespace |
| Text.Trim | backend/src/controllers/eventController.ts:13-15 | the trimmed text is no longer than the input and neither starts nor ends with whitespace |
| Text.TrimSlice | backend/src/controllers/eventController.ts:13-15 | the trimmed text is a slice of the input with only whitespace cut away on either side |
| Text.TrimEmptyIffBlank | backend/src/middleware/validation.ts:15 | `s.trim().length === 0` holds exactly when `s` is empty or all whitespace |
| Text.TrimIdempotent | backend/src/controllers/eventController.ts:13-15 | trimming twice is trimming once |
| Text.Contains | backend/src/storage/eventStorage.ts:41 | `includes`, tried at each start position; ContainsIffOccurs gives its meaning |
| Text.ToLower | backend/src/storage/eventStorage.ts:41 | lower-casing keeps the length and maps each character on its own |
| Text.ToLowerIdempotent | backend/src/storage/eventStorage.ts:41 | lower-cased text contains no capital, and lower-casing it again changes nothing |
| Text.ContainsIffOccurs | backend/src/storage/eventStorage.ts:41 | `includes` holds exactly when the needle occurs at some position of the text |
| Text.ContainsEmpty | backend/src/controllers/eventController.ts:50 | every text contains the empty string |
| Text.StartsWithContains | api/index.js:152 | a text that starts with `p` contains `p` |
| Text.ContainsTransitive | frontend/src/utils/helpers.ts:85 | a text containing a needle contains every part of that needle |
| Seqs.Filter | backend/src/controllers/eventController.ts:49-51 | the output is no longer than the input and holds only input elements that pass the predicate |
| Seqs.FilterMembership | backend/src/controllers/eventController.ts:49-51 | an element is kept exactly when it is in the input and passes |
| Seqs.FilterConcat | backend/src/controllers/eventController.ts:49-51 | filtering distributes over concatenation, so relative order is kept |
| Seqs.FilterMultiset | backend/src/controllers/eventController.ts:49-51 | each passing element is kept as often as it occurs, and each failing one not at all |
| Seqs.FilterFilter | backend/src/controllers/eventController.ts:47-70 | two filters in a row keep exactly what their conjunction keeps |
| Seqs.FilterAll | backend/src/controllers/eventController.ts:48 | a filter every element passes changes nothing |
| Seqs.FilterCongruent | backend/src/controllers/eventController.ts:47-70 | two predicates that agree on the input filter it identically |
| Seqs.Insert | backend/src/controllers/eventController.ts:73 | insertion adds exactly one copy of the element |
| Seqs.SortByKey | backend/src/controllers/eventController.ts:73 | the sort's output is a permutation of its input |
| Seqs.InsertSorted | backend/src/controllers/eventController.ts:73 | inserting into a sorted sequence keeps it sorted |
| Seqs.SortByKeySorted | backend/src/controllers/eventController.ts:73 | the output never lists an element after one with a strictly larger time |
| Seqs.InsertStable | backend/src/controllers/eventController.ts:73 | an inserted element lands after every element that has the same key |
| Seqs.SortByKeyStable | backend/src/controllers/eventController.ts:73 | the sort is stable: for every key, the elements with that key keep their input order |
| Seqs.SortedUnique | backend/src/controllers/eventController.ts:73 | two sorted permutations of the same elements are equal when distinct elements have distinct keys |
| JsValues.NatToString | frontend/src/utils/helpers.ts:110 | the decimal text of `n` is a non-empty run of decimal digits with no leading zero |
| JsValues.NatToStringValue | frontend/src/utils/helpers.ts:110 | the decimal text of `n` reads back as `n` |
| JsValues.IntToStringShape | frontend/src/utils/helpers.ts:109 | the decimal text of `n` is the digits of `abs(n)`, preceded by a minus sign exactly when `n` is negative |
| JsValues.ParseIntOfIntToString | frontend/src/pages/CreateEvent/CreateEvent.tsx:31 | `parseInt` of the decimal text of any integer `n` is `n` |
| JsValues.StringToNumberOfIntToString | api/index.js:183 | `Number` of the decimal text of any integer `n` is `n` |
| JsValues.ParseIntNoDigits | frontend/src/pages/CreateEvent/CreateEvent.tsx:31 | text with no decimal digit parses to NaN |
| JsValues.PadTwo | frontend/src/utils/helpers.ts:110 | the decimal text of `n`, padded with `padStart(2, '0')`, has at least two characters; below 100 it is exactly two digits that read back as `n` |
| JsValues.ParseInt | frontend/src/pages/CreateEvent/CreateEvent.tsx:31 | `parseInt` with no radix; ParseIntOfIntToString and ParseIntNoDigits state its behaviour |
| JsValues.StringToNumber | api/index.js:183 | `Number(s)` on a trimmed StringNumericLiteral; StringToNumberOfIntToString states the round trip |
| Validation.TextFieldError | backend/src/middleware/validation.ts:15-31 | a text field passes exactly when it is a non-blank string within its limit; otherwise the message is "required" for missing, blank or non-string values and "too long" for the rest |
| Validation.DateError | backend/src/middleware/validation.ts:34-43 | the date passes exactly when it is a non-empty string that parses to `now` or later; missing, unparseable and past dates each get their own message |
| Validation.MaxParticipantsError | backend/src/middleware/validation.ts:46-54 | capacity passes exactly when it is an integer from 1 to 10000; missing, non-integer, too small and too large each get their own message |
| Validation.CurrentParticipantsError | backend/src/middleware/validation.ts:57-66 | an absent attendance always passes; with an integer capacity, a present one passes exactly when it is an integer from 0 to the capacity; against any capacity, a non-negative integer attendance gets "cannot exceed" exactly when JavaScript's `>` finds it above the capacity (so 3 against 2.5 is refused) |
| Validation.FieldErrors | backend/src/middleware/validation.ts:12-66 | the middleware runs exactly six checks, one per field |
| Validation.Present | backend/src/middleware/validation.ts:12-66 | the collected list is empty exactly when no check failed, and it holds exactly the failed checks' messages |
| Validation.ValidateCreateEvent | backend/src/middleware/validation.ts:68-77 | the request goes on exactly when all six checks pass; otherwise the answer is 400 "Validation failed" |
| Validation.FieldErrorsTagged | backend/src/middleware/validation.ts:12-66 | every message a check reports belongs to that check's field |
| Validation.PresentOrdered | backend/src/middleware/validation.ts:12-66 | messages from checks on increasing fields come out with strictly increasing fields |
| Validation.ErrorsOnePerField | backend/src/middleware/validation.ts:12-66 | the error list has at most one message per field, so at most six, in field order |
| Validation.TitleBoundary | backend/src/middleware/validation.ts:15-19 | for a non-blank title, 200 characters pass and 201 fail with "too long", whatever the message wording suggests |
| Validation.CapacityBoundaries | backend/src/middleware/validation.ts:46-66 | 1 and 10000 pass; 0, 10001, 2.5 and "10" fail; attendance equal to capacity passes and one more fails; against a capacity of 2.5, an attendance of 2 passes and 3 is refused as too large |
| Validation.ValidateEventId | backend/src/middleware/validation.ts:88-94 | an id is refused with 400 "Invalid event ID" exactly when it is blank |
| EventController.ValidatedIsWellTyped | backend/src/controllers/eventController.ts:9 | a body that passed validation has the field types the handler reads |
| EventController.NewEvent | backend/src/controllers/eventController.ts:11-20 | the record stores the trimmed title, description and location, copies date and capacity verbatim, and gives attendance its value or 0 when absent |
| EventController.CreateEvent | backend/src/controllers/eventController.ts:22-30 | the handler stores the record under its new id, leaves other ids alone, and answers 201 "Event created successfully" with that record |
| EventController.PostEvent | backend/src/middleware/validation.ts:68-77 | a body with errors gives 400 with the full list and an unchanged store; a valid body gives 201 with success set, the "Event created successfully" message and the record built from the trimmed body; that record is stored under the new id and is well-formed, every other id keeps its record, and the count grows by one when the id is new |
| EventController.TrimKeepsNonBlank | backend/src/controllers/eventController.ts:13-15 | trimming keeps a non-blank text non-blank |
| EventController.CreatedIsWellFormed | backend/src/controllers/eventController.ts:11-20 | validation followed by construction yields non-blank text within bounds, a future date, a capacity from 1 to 10000 and an attendance within it |
| EventController.GetAllEvents | backend/src/controllers/eventController.ts:75-88 | the route answers 200 with the pipeline's list exactly when the pipeline succeeds, with the message "Found N event(s)" for the N records returned, and otherwise 500 "Failed to fetch events" |
| EventController.ListEvents | backend/src/controllers/eventController.ts:47-73 | the list pipeline: location, search, then date filter, then the stable sort by date; the ListEvents lemmas state its properties |
| EventController.ListEventsFails | backend/src/controllers/eventController.ts:64-70 | the pipeline fails exactly when a date filter is supplied and either it or the date of an event left by the text filters does not parse |
| EventController.TextFilteredConjunction | backend/src/controllers/eventController.ts:47-61 | the location filter followed by the search filter is one filter by their conjunction |
| EventController.ListEventsIsConjunction | backend/src/controllers/eventController.ts:47-73 | on success, the output is a permutation of the stored events that pass every supplied filter |
| EventController.ListEventsMembership | backend/src/controllers/eventController.ts:47-70 | an event is listed exactly when it is stored and passes every supplied filter |
| EventController.ListEventsSorted | backend/src/controllers/eventController.ts:73 | among events whose dates parse, the listing never puts an event after one with a strictly later date |
| EventController.ListEventsStable | backend/src/controllers/eventController.ts:73 | events with the same time keep their store order |
| EventController.BlankFiltersIgnored | backend/src/controllers/eventController.ts:48-64 | empty or whitespace-only filters leave the whole store, sorted by date |
| EventController.DateFilterSameDay | backend/src/controllers/eventController.ts:64-70 | with a parseable filter, an event survives exactly when its date parses and falls on the filter's UTC day |
| EventController.UtcDayWindow | backend/src/controllers/eventController.ts:65-67 | two instants on one UTC day are less than a day apart, and adding a day moves to the next UTC day |
| EventController.GetEventById | backend/src/controllers/eventController.ts:96-111 | an unknown id gives 404 "Event not found" and never a record; a known id gives 200 with its event |
| EventController.GetEventRoute | backend/src/middleware/validation.ts:88-96 | a blank id is refused with 400 before any lookup, and any other id goes to the lookup |
| EventController.PostThenGet | backend/src/controllers/eventController.ts:22-30 | what a valid `POST` stores, `GET /:id` returns |
| Seed.SeedEvent | backend/src/storage/seed.ts:89-91 | each seeded event gets its id, date `addDays(days)`, the seed's title, description, location and numbers, and the `createdAt` stamped when it is inserted |
| Seed.SeedRecords | backend/src/storage/seed.ts:16-92 | the seven records follow the seed table in order |
| Seed.CreateAll | backend/src/storage/seed.ts:89-92 | creating a non-empty batch leaves a non-empty store |
| Seed.CreateAllFresh | backend/src/storage/seed.ts:89-92 | creating events with fresh, pairwise distinct ids appends them in order |
| Seed.SeedEvents | backend/src/storage/seed.ts:13-14 | a store that lists any event is returned unchanged, and an empty one is left non-empty |
| Seed.SeedIdempotent | backend/src/storage/seed.ts:14 | seeding twice is seeding once |
| Seed.SeedFillsEmptyStore | backend/src/storage/seed.ts:16-92 | with distinct ids, seeding an empty store lists exactly the seven seed records in table order |
| Seed.SeedsWithinLimits | backend/src/storage/seed.ts:16-87 | every seed has non-blank text within the validation bounds, a capacity from 1 to 10000 and an attendance from 0 to the capacity |
| Seed.SeededListingOrder | backend/src/storage/seed.ts:5-11 | with chronological dates, the unfiltered listing of a freshly seeded store is Hyderabad, Mumbai, Delhi, Kolkata, Bengaluru, Pune, Chennai |
| Seed.SeedKeysIncrease | backend/src/storage/seed.ts:23-83 | the day offsets 5, 7, 10, 12, 14, 17, 21 put the seed dates in that order |
| Seed.SortFollowsByDate | backend/src/controllers/eventController.ts:73 | seven records whose keys increase in that order sort into it |
| ApiVariant.FirstError | api/index.js:171-185 | the body is accepted exactly when no rule fails; otherwise the answer is the message of the first rule, in checking order, that fails |
| ApiVariant.StringLengthRule | api/index.js:171-179 | on strings, the text rules are minimum lengths with no upper bound |
| ApiVariant.LeadingDigit | api/index.js:193 | a digit, non-zero for a positive number, and the first character of the decimal text of `n` |
| ApiVariant.ParseIntValue | api/index.js:193 | `parseInt` reads a string as `parseInt` of its text; a number from 1 up is read as its integer part below 10^21 and as its leading digit from 10^21 on, where `String` switches to exponent notation; any other value gives NaN |
| ApiVariant.ParseIntValueExact | api/index.js:193 | a whole number below 10^21, and the decimal text of any integer, come back unchanged |
| ApiVariant.NonNumericCapacity | api/index.js:183 | a non-empty text without digits that `Number()` reads as NaN passes the capacity rule and is stored as NaN |
| ApiVariant.NewApiEvent | api/index.js:187-196 | the record copies text and date verbatim, parses the capacity, and sets attendance to 0 |
| ApiVariant.PostApiEvent | api/index.js:166-199 | a failing rule gives 400 with its single message and an unchanged map; otherwise 201 answers with the record built from the body (its text as sent, the parsed capacity, no participants), and that same record is stored under the new id while every other id keeps its entry |
| ApiVariant.RejectionCarriesOneError | api/index.js:171-185 | a rejection carries exactly one message, the first failing rule's |
| ApiVariant.LowerText | api/index.js:140 | `toLowerCase` succeeds exactly on strings and throws on anything else |
| ApiVariant.FilterOrThrowSpec | api/index.js:138-154 | a filter whose predicate may throw succeeds exactly when no element throws, and then keeps what the predicate accepts |
| ApiVariant.TimeClip | api/index.js:157 | a time value exists exactly within ±8.64e15 ms, and it is the number truncated toward zero: the same sign, and less than 1 ms closer to zero |
| ApiVariant.TimeOf | api/index.js:157 | `new Date(v).getTime()` for each kind of value: a string is parsed, a number is clipped, booleans and null convert to numbers, and undefined is NaN |
| ApiVariant.ApplyFilters | api/index.js:138-154 | the three filters in order, each applied only when its query value is truthy; TextFilters and TextStoreListing state their effect |
| ApiVariant.ListApiEvents | api/index.js:134-157 | the filters followed by the sort by time; ListApiSorted and TextStoreListing state its properties |
| ApiVariant.GetApiEvents | api/index.js:159-161 | the route answers 200 with the list exactly when no filter threw, and otherwise 500 |
| ApiVariant.TestsTotalOnText | api/index.js:138-154 | the three filters never throw on an event whose fields are strings |
| ApiVariant.TextStoreListing | api/index.js:132-157 | over string-field events the route never fails, and an event is listed exactly when it passes every given filter |
| ApiVariant.ListApiSorted | api/index.js:157 | the listing never puts an event after one with a strictly later time |
| ApiVariant.DateFilterIsPrefix | api/index.js:150-154 | the date filter keeps an event exactly when its date text starts with the query |
| ApiVariant.EmptyQueryIgnored | api/index.js:138-150 | empty query values are ignored, so the listing is the whole map sorted by date |
| ApiVariant.GetApiEvent | api/index.js:206-215 | an absent id gives 404 "Event not found"; a present one gives 200 with its record |
| ApiVariant.PostThenGetApi | api/index.js:187-208 | a record created through `POST` is what `GET /:id` returns |
| ApiVariant.ApiSeedRecords | api/index.js:22-93 | the seven records follow this deployment's seed table and have string text fields |
| ApiVariant.ApiSeedEvents | api/index.js:12-13 | a non-empty map is returned unchanged, and an empty one is left non-empty |
| ApiVariant.ApiSeedIdempotent | api/index.js:13 | seeding twice is seeding once |
| ApiVariant.ApiSeedFillsEmptyStore | api/index.js:95 | with distinct ids, seeding an empty map lists exactly the seven seed records in table order |
| Helpers.Round | frontend/src/utils/helpers.ts:127 | `Math.round` gives the integer within half a unit, rounding halves up |
| Helpers.IsEventFull | frontend/src/utils/helpers.ts:118-120 | no seat is left; FullShowsHundred and HundredPercentNotFull relate it to the percentage |
| Helpers.AvailabilityPercentage | frontend/src/utils/helpers.ts:123-128 | the result is finite exactly when the capacity is non-zero; it is then the whole number within half a point of the exact percentage, which is `Math.round`'s answer; capacity 0 gives an infinity or NaN by the sign of the attendance |
| Helpers.RatioBounds | frontend/src/utils/helpers.ts:127 | within capacity the exact percentage lies between 0 and 100, and equals 0 at no attendance and 100 at full |
| Helpers.PercentageInRange | frontend/src/utils/helpers.ts:123-128 | within capacity the shown percentage is a whole number from 0 to 100, exactly 0 when empty, exactly 100 when full, and non-decreasing in attendance |
| Helpers.FullShowsHundred | frontend/src/utils/helpers.ts:118-128 | a full event shows at least 100 percent |
| Helpers.HundredPercentNotFull | frontend/src/utils/helpers.ts:118-128 | 199 of 200 shows 100 percent yet is not full |
| Helpers.FirstMatch | frontend/src/utils/helpers.ts:84-88 | the result is the first key in table order that occurs in the text, or none when no key occurs |
| Helpers.GeocodeLocation | frontend/src/utils/helpers.ts:81-90 | a lookup succeeds exactly when some table key occurs in the lower-cased, trimmed input, and then yields the first table key, in table order, that occurs |
| Helpers.FirstMatchAtMost | frontend/src/utils/helpers.ts:84-88 | any key that occurs bounds the position of the first match |
| Helpers.NewDelhiShadowsDelhi | frontend/src/utils/helpers.ts:71-72 | an input naming "new delhi" resolves, and never to the later "delhi" entry |
| Helpers.DelhiOnlyWithoutNewDelhi | frontend/src/utils/helpers.ts:71-72 | resolving to "delhi" means the input does not name "new delhi" |
| Helpers.FormatDateForInput | frontend/src/utils/helpers.ts:107-115 | an empty or missing argument lays out now, a parseable one lays out its own local fields, and an unparseable one gives the NaN text |
| Helpers.Layout | frontend/src/utils/helpers.ts:109-114 | the `YYYY-MM-DDTHH:mm` text is twelve characters longer than the year; LayoutDecodes reads every field back |
| Helpers.LayoutDecodes | frontend/src/utils/helpers.ts:109-114 | the layout reads back: the year before the last twelve characters, then two-digit month (one-based), day, hour and minute at fixed places between '-', '-', 'T' and ':' |
| CreateEventForm.TextCheck | frontend/src/pages/CreateEvent/CreateEvent.tsx:47-61 | blank text gets "required"; non-blank text passes exactly when it is within the limit, and otherwise gets "too long" |
| CreateEventForm.DateCheck | frontend/src/pages/CreateEvent/CreateEvent.tsx:63-67 | an empty date is "required", a parseable past date is "in the past", and anything else, unparseable text included, passes |
| CreateEventForm.MaxCheck | frontend/src/pages/CreateEvent/CreateEvent.tsx:69-73 | capacity passes exactly from 1 to 10000, with a message for each side |
| CreateEventForm.CurrentCheck | frontend/src/pages/CreateEvent/CreateEvent.tsx:75-81 | a defined attendance passes exactly from 0 to the capacity, with a message for each side |
| CreateEventForm.CollectErrors | frontend/src/pages/CreateEvent/CreateEvent.tsx:44-82 | the map has an entry exactly for each failing field, holding that field's one message |
| CreateEventForm.ValidateForm | frontend/src/pages/CreateEvent/CreateEvent.tsx:83-84 | the form is valid exactly when the error map is empty, that is when every field passes |
| CreateEventForm.TextChecksAgree | frontend/src/pages/CreateEvent/CreateEvent.tsx:47-61 | the form accepts title, description and location text exactly when the server does |
| CreateEventForm.TitleCheckAgrees | frontend/src/pages/CreateEvent/CreateEvent.tsx:47-51 | the form accepts a title exactly when the server's title rule does |
| CreateEventForm.DescriptionCheckAgrees | frontend/src/pages/CreateEvent/CreateEvent.tsx:53-57 | the form accepts a description exactly when the server's description rule does |
| CreateEventForm.LocationCheckAgrees | frontend/src/pages/CreateEvent/CreateEvent.tsx:59-61 | the form accepts a location exactly when the server's location rule does |
| CreateEventForm.NumberChecksAgree | frontend/src/pages/CreateEvent/CreateEvent.tsx:69-81 | the form's capacity and attendance bounds accept exactly what the server's do |
| CreateEventForm.DateCheckLooser | frontend/src/pages/CreateEvent/CreateEvent.tsx:63-67 | unparseable text passes the form but not the server; parseable dates are judged alike |
| CreateEventForm.NumericInput | frontend/src/pages/CreateEvent/CreateEvent.tsx:31 | `parseInt(value) \|\| 0` is the parsed integer, or 0 when parsing gives NaN |
| CreateEventForm.NumericInputRoundTrip | frontend/src/pages/CreateEvent/CreateEvent.tsx:30-32 | typing an integer's decimal text stores that integer; text without digits stores 0 |
| CreateEventForm.SetField | frontend/src/pages/CreateEvent/CreateEvent.tsx:28-33 | only the named input changes: the numeric ones are coerced and the others keep the raw text |
| CreateEventForm.HandleChange | frontend/src/pages/CreateEvent/CreateEvent.tsx:24-42 | other fields' messages are untouched, and a shown message for the changed field is removed |
| CreateEventForm.ChangeClearsOnlyItsField | frontend/src/pages/CreateEvent/CreateEvent.tsx:35-41 | on a map that `validateForm` produced, a change removes exactly the changed field's entry |
| Divergence.ShortTitle | api/index.js:171 | a visible title of one or two characters passes the backend but is refused by the serverless copy |
| Divergence.LongTitle | backend/src/middleware/validation.ts:17 | a title over 200 characters is refused by the backend and passes the serverless copy's title rule |
| Divergence.BlankTitle | api/index.js:171 | a title of three or more spaces is "required" for the backend and passes the serverless copy's title rule |
| Divergence.NumericTitle | api/index.js:171 | a non-zero number as title is refused by the backend and passes the serverless copy's title rule |
| Divergence.TextCapacity | api/index.js:183-193 | a capacity text without digits is refused by the backend, but passes the serverless copy and is stored as NaN |
| Divergence.AttendanceKeptOrZeroed | api/index.js:194 | an attendance accepted by both is kept by the backend and replaced by 0 in the serverless copy |
| Divergence.BlankQueryValue | api/index.js:138 | a whitespace-only query value is ignored by the backend and applied by the serverless copy unless it is empty |
| Divergence.DateFilters | api/index.js:150-154 | an event whose date text starts with the query but falls on another UTC day is kept by the serverless copy and dropped by the backend; one on the same UTC day without the prefix is dropped and kept |
| Divergence.UnknownIdAgrees | api/index.js:208-214 | both deployments answer a non-blank unknown id with 404 "Event not found" |

## Left out

- JsValues.IntToString: it is the plain decimal text, which is `String(n)` only for |n| < 10^21. From 10^21 on, JavaScript switches to exponent notation (`"1e+21"`), which this function does not produce. Every integer the event code formats is a year, month, day, hour, minute or count well below that bound. `ApiVariant.ParseIntValue` models the exponent form separately, where `parseInt` reads it.
- HTTP plumbing is not modelled: Express wiring, CORS, logging, the root and health endpoints, and the 404 and global error handlers. A response is modelled as a status and envelope value.
- The backend has no update or delete route. `update` and `delete` are modelled as store operations only.
- The `catch` branch of `createEvent` cannot be reached once validation has passed, so it is not modelled.
- Real date parsing, the clock, local time zones and `uuidv4` are parameters:
  - `parseDate` stands for `new Date(s).getTime()`;
  - `now` is the current time;
  - `addDays` and `localTime` are given as functions;
  - ids and `createdAt` stamps are given as sequences.

  The local-time arithmetic of `addDays` (18:00 local) is therefore not modelled. `Seed.SeededListingOrder` assumes, as its `Chronological` precondition, that the seeds' dates parse and increase with the day count.
- Numbers are exact rationals, not IEEE doubles. The model has no rounding error in `c / m * 100`, no `-0`, and no precision loss above 2^53.
- Strings are sequences of characters, not of UTF-16 code units. Lengths of text containing astral characters are not modelled as JavaScript counts them.
- `toLowerCase` lower-cases the ASCII letters only.
- `Array.prototype.sort` with a comparator that returns NaN has an implementation-defined order. The model sorts with a stable insertion sort in which an event with an unparseable date never goes before another.
- Query parameters are single strings. Express's parsing of repeated or bracketed keys into arrays and objects is not modelled.
- Arrays, and objects carrying properties, are not modelled as body fields. `Value` has a single `Object` case: a truthy value with no `length` whose string form is "[object Object]". The backend refuses arrays and objects in every field, because none is a string or an integer, and so does the model. The serverless copy reads `.length` (api/index.js:171-179), `< 1` (api/index.js:183) and `parseInt` (api/index.js:193) of them, and there the model and the source part ways:
  - `"title": ["abc"]` or `"title": {"length": 1}` is refused by the source as too short, but passes in the model;
  - `"maxParticipants": [5]` is stored as 5 by the source, but as NaN in the model.
- The 500 message of the serverless copy is `error.message` of a `TypeError`. Its text is engine-specific, so the model leaves the error text out.
- These helpers are not modelled:
  - `calculateDistance`, `toRadians` and the coordinates of the city table, which are floating-point trigonometry; `Helpers.GeocodeLocation` returns the matched key instead of coordinates;
  - `getUserLocation` and `formatDate`, which call the browser geolocation and locale APIs.
- The rest of the client is not modelled: React components, hooks, the network client, and the submit path of the create form.
- `backend/src/scripts/checkSeed.ts` is not modelled. It only reports to standard output.
- Helpers.AvailabilityPercentage: capacity and attendance are integers here. The NaN capacity that the serverless copy can store (see `Divergence.TextCapacity`) reaches `isEventFull` and `getAvailabilityPercentage` as `null` once serialised, and that case is not modelled.
- ApiVariant.ParseIntValue: a number below 1 is excluded by its precondition. The route reaches `parseInt` only after `maxParticipants < 1` has been ruled out, so this case cannot occur there.
- Validation.TitleBoundary: the message says "less than 200 characters", but exactly 200 is accepted, as the code does. The model follows the code, and the lemma states both boundaries.

=== FILE: api_variant.dfy ===
/** The serverless deployment of the API: a second, self-contained copy of the
    store, the list filters and the create route, with looser rules. The body
    fields are stored exactly as the client sent them. */
module ApiVariant {
  import opened Wrappers
  import opened Text
  import opened Seqs
  import opened JsMap
  import opened JsValues
  import opened Events
  import Seed

  /** A stored event. Text fields keep whatever JSON value arrived, and
      `maxParticipants` is `parseInt` of the input, `None` for NaN. */
  datatype ApiEvent = ApiEvent(
    id: string,
    title: Value,
    description: Value,
    location: Value,
    date: Value,
    maxParticipants: Option<int>,
    currentParticipants: int,
    createdAt: string)

  type ApiStore = OrderedMap<ApiEvent>

  const TitleTooShort := "Title must be at least 3 characters"
  const DescriptionTooShort := "Description must be at least 10 characters"
  const LocationTooShort := "Location must be at least 3 characters"
  const DateRequired := "Date is required"
  const MaxTooSmall := "Max participants must be at least 1"
  const EventNotFound := "Event not found"

  /** The messages of the five rules, in the order they are checked. */
  const RuleMessages := [TitleTooShort, DescriptionTooShort, LocationTooShort, DateRequired, MaxTooSmall]

  // ---------------------------------------------------------------------------
  // POST /api/events
  // ---------------------------------------------------------------------------

  /** `!v || v.length < min`. Only a string has a length here: for any other
      truthy value `v.length` is undefined and `undefined < min` is false. */
  predicate TooShort(v: Value, min: nat) {
    !Truthy(v) || (v.Str? && |v.s| < min)
  }

  /** `!v || v < 1`, where `<` converts `v` with `Number(v)`. */
  predicate MaxTooLow(v: Value) {
    !Truthy(v) || Less(ToNumber(v), Finite(1.0))
  }

  /** Whether rule `k` (in checking order) rejects the body. */
  predicate RuleFails(b: RequestBody, k: nat)
    requires k < 5
  {
    match k
    case 0 => TooShort(b.title, 3)
    case 1 => TooShort(b.description, 10)
    case 2 => TooShort(b.location, 3)
    case 3 => !Truthy(b.date)
    case _ => MaxTooLow(b.maxParticipants)
  }

  /** The chain of early returns: the message of the first rule that fails. */
  function FirstError(b: RequestBody): (r: Option<string>)
    ensures r.None? <==> forall k :: 0 <= k < 5 ==> !RuleFails(b, k)
    ensures r.Some? ==> exists k :: 0 <= k < 5 && RuleFails(b, k) && r.value == RuleMessages[k]
                                    && forall j :: 0 <= j < k ==> !RuleFails(b, j)
  {
    if TooShort(b.title, 3) then
      assert RuleFails(b, 0);
      Some(TitleTooShort)
    else if TooShort(b.description, 10) then
      assert RuleFails(b, 1) && !RuleFails(b, 0);
      Some(DescriptionTooShort)
    else if TooShort(b.location, 3) then
      assert RuleFails(b, 2) && !RuleFails(b, 0) && !RuleFails(b, 1);
      Some(LocationTooShort)
    else if !Truthy(b.date) then
      assert RuleFails(b, 3) && !RuleFails(b, 0) && !RuleFails(b, 1) && !RuleFails(b, 2);
      Some(DateRequired)
    else if MaxTooLow(b.maxParticipants) then
      assert RuleFails(b, 4) && !RuleFails(b, 0) && !RuleFails(b, 1) && !RuleFails(b, 2) && !RuleFails(b, 3);
      Some(MaxTooSmall)
    else
      assert !RuleFails(b, 0) && !RuleFails(b, 1) && !RuleFails(b, 2) && !RuleFails(b, 3) && !RuleFails(b, 4);
      None
  }

  /** On strings, the length rules are plain lower bounds with no upper bound. */
  lemma StringLengthRule(s: string, min: nat)
    requires min > 0
    ensures TooShort(Str(s), min) <==> |s| < min
  {
  }

  /** The most significant decimal digit of `n`: the first character of `String(n)`. */
  function LeadingDigit(n: nat): (d: nat)
    ensures d < 10
    ensures n > 0 ==> d > 0
    ensures NatToString(n)[0] == DigitChar(d)
  {
    if n < 10 then n
    else
      assert NatToString(n)[0] == NatToString(n / 10)[0];
      LeadingDigit(n / 10)
  }

  /** 10^21, from where `String(x)` switches to exponent notation. */
  const ExponentThreshold: real := 1000000000000000000000.0

  /** `parseInt(v)`, which first converts `v` to a string. A number that passed
      the capacity rule (so at least 1) prints in plain decimal below 10^21,
      giving its integer part, and as "d.ddde+NN" from there on, giving its
      leading digit. "undefined", "null", "true", "false" and "[object Object]"
      hold no leading digit and give NaN. */
  function ParseIntValue(v: Value): (r: Option<int>)
    requires v.Num? ==> v.x >= 1.0
    ensures v.Str? ==> r == ParseInt(v.s)
    ensures v.Num? ==> r.Some? && 1 <= r.value <= v.x.Floor
    ensures v.Num? && v.x < ExponentThreshold ==> r == Some(v.x.Floor)
    ensures v.Num? && v.x >= ExponentThreshold ==> r == Some(LeadingDigit(v.x.Floor))
    ensures !v.Str? && !v.Num? ==> r.None?
  {
    match v
    case Str(s) => ParseInt(s)
    case Num(x) => if x < ExponentThreshold then Some(x.Floor) else Some(LeadingDigit(x.Floor))
    case _ => None
  }

  lemma LeadingDigitBound(n: nat)
    ensures LeadingDigit(n) <= n
  {
  }

  /** A whole number below 10^21 comes back unchanged; so does the decimal
      text of any integer. */
  lemma ParseIntValueExact(x: real, n: int)
    requires 1.0 <= x < ExponentThreshold && x == x.Floor as real
    ensures ParseIntValue(Num(x)) == Some(x.Floor)
    ensures ParseIntValue(Str(IntToString(n))) == Some(n)
  {
    ParseIntOfIntToString(n);
  }

  /** A string without any leading digit passes the capacity rule whenever
      `Number` of it is NaN, and is stored as NaN. */
  lemma NonNumericCapacity(s: string)
    requires s != [] && StringToNumber(s) == NaN
    requires forall i :: 0 <= i < |s| ==> DigitValue(s[i], 10).None?
    ensures !MaxTooLow(Str(s))
    ensures ParseIntValue(Str(s)).None?
  {
    assert Truthy(Str(s)) && ToNumber(Str(s)) == NaN;
    ParseIntNoDigits(s);
  }

  /** The record the route builds: fields copied verbatim, capacity through
      `parseInt`, attendance forced to 0. */
  function NewApiEvent(b: RequestBody, id: string, createdAt: string): (e: ApiEvent)
    requires FirstError(b).None?
    ensures e.id == id && e.createdAt == createdAt
    ensures e.title == b.title && e.description == b.description
    ensures e.location == b.location && e.date == b.date
    ensures e.currentParticipants == 0
    ensures e.maxParticipants == ParseIntValue(b.maxParticipants)
  {
    assert !RuleFails(b, 4);
    ApiEvent(id, b.title, b.description, b.location, b.date, ParseIntValue(b.maxParticipants), 0, createdAt)
  }

  /** `POST /api/events`: the first failing rule answers 400 with its single
      message; otherwise the record is set under its fresh id and returned. */
  function PostApiEvent(s: ApiStore, b: RequestBody, id: string, createdAt: string): (r: (ApiStore, Reply<ApiEvent>))
    requires s.Valid()
    ensures r.0.Valid()
    ensures FirstError(b).Some? ==>
              && r.0 == s && r.1.status == 400 && !r.1.success && r.1.data.None?
              && r.1.error == FirstError(b) && r.1.details == []
    ensures FirstError(b).None? ==>
              && r.1.status == 201 && r.1.success
              && r.1.data == Some(NewApiEvent(b, id, createdAt))
              && Get(r.0, id) == r.1.data
              && r.1.data.value.currentParticipants == 0
              && (forall other :: other != id ==> Get(r.0, other) == Get(s, other))
  {
    match FirstError(b)
    case Some(msg) => (s, ErrorReply(400, msg))
    case None =>
      var e := NewApiEvent(b, id, createdAt);
      (Set(s, id, e), Reply(201, true, Some(e), None, None, []))
  }

  /** What a rejection carries is exactly one message, the first failing rule's. */
  lemma RejectionCarriesOneError(s: ApiStore, b: RequestBody, id: string, createdAt: string)
    requires s.Valid() && FirstError(b).Some?
    ensures var reply := PostApiEvent(s, b, id, createdAt).1;
            reply.error.Some? && reply.error.value in RuleMessages && reply.details == []
  {
  }

  // ---------------------------------------------------------------------------
  // GET /api/events
  // ---------------------------------------------------------------------------

  /** A query value is applied when it is truthy: present and non-empty. */
  predicate Given(q: Option<string>) {
    q.Some? && q.value != []
  }

  /** `v.toLowerCase()`: a TypeError unless `v` is a string. */
  function LowerText(v: Value): (r: Result<string>)
    ensures r.Ok? <==> v.Str?
    ensures r.Ok? ==> r.value == ToLower(v.s)
  {
    if v.Str? then Ok(ToLower(v.s)) else Fault
  }

  function LocationTest(q: string): ApiEvent -> Result<bool> {
    (e: ApiEvent) =>
      match LowerText(e.location)
      case Fault => Fault
      case Ok(l) => Ok(Contains(l, ToLower(q)))
  }

  /** The title is tried first; the description is only looked at when the
      title does not match. */
  function SearchTest(q: string): ApiEvent -> Result<bool> {
    (e: ApiEvent) =>
      match LowerText(e.title)
      case Fault => Fault
      case Ok(t) =>
        if Contains(t, ToLower(q)) then Ok(true)
        else
          match LowerText(e.description)
          case Fault => Fault
          case Ok(d) => Ok(Contains(d, ToLower(q)))
  }

  function DateTest(q: string): ApiEvent -> Result<bool> {
    (e: ApiEvent) => if e.date.Str? then Ok(StartsWith(e.date.s, q)) else Fault
  }

  /** `xs.filter(p)` for a predicate that may throw: the first throw aborts
      the whole filter. */
  function FilterOrThrow<T>(xs: seq<T>, p: T -> Result<bool>): (r: Result<seq<T>>)
    decreases |xs|
  {
    if |xs| == 0 then Ok([])
    else
      match p(xs[0])
      case Fault => Fault
      case Ok(keep) =>
        match FilterOrThrow(xs[1..], p)
        case Fault => Fault
        case Ok(rest) => Ok(if keep then [xs[0]] + rest else rest)
  }

  /** The predicate that answers `true` without throwing. */
  function Holds<T>(p: T -> Result<bool>): T -> bool {
    x => p(x) == Ok(true)
  }

  /** A throwing filter succeeds exactly when no element throws, and then
      keeps what an ordinary filter by `Holds(p)` keeps. */
  lemma {:induction false} FilterOrThrowSpec<T>(xs: seq<T>, p: T -> Result<bool>)
    ensures FilterOrThrow(xs, p).Ok? <==> forall i :: 0 <= i < |xs| ==> p(xs[i]).Ok?
    ensures FilterOrThrow(xs, p).Ok? ==> FilterOrThrow(xs, p).value == Filter(xs, Holds(p))
    decreases |xs|
  {
    if |xs| > 0 {
      FilterOrThrowSpec(xs[1..], p);
      assert forall i :: 1 <= i < |xs| ==> xs[i] == xs[1..][i - 1];
    }
  }

  /** `new Date(v).getTime()`, `None` for NaN: a string is parsed; a number,
      boolean or null converts to a number and goes through TimeClip; an
      object parses as its text "[object Object]"; undefined is NaN. */
  function TimeOf(v: Value, parseDate: string -> Option<int>): Option<int> {
    match v
    case Str(s) => parseDate(s)
    case Num(x) => TimeClip(x)
    case Bool(b) => Some(if b then 1 else 0)
    case Null => Some(0)
    case Undefined => None
    case Object => parseDate("[object Object]")
  }

  /** The largest time value magnitude a `Date` holds, 8.64e15 ms. */
  const MaxTime: real := 8640000000000000.0

  /** TimeClip: out of range is NaN, otherwise truncation toward zero. */
  function TimeClip(x: real): (r: Option<int>)
    ensures r.Some? <==> -MaxTime <= x <= MaxTime
    ensures r.Some? && x >= 0.0 ==> 0 <= r.value && r.value as real <= x < r.value as real + 1.0
    ensures r.Some? && x < 0.0 ==> r.value <= 0 && r.value as real - 1.0 < x <= r.value as real
  {
    if x < -MaxTime || MaxTime < x then None
    else if x >= 0.0 then Some(x.Floor)
    else Some(-((-x).Floor))
  }

  function ApiDateKey(parseDate: string -> Option<int>): ApiEvent -> Option<int> {
    (e: ApiEvent) => TimeOf(e.date, parseDate)
  }

  /** The filters of the list route, in order, each applied only when given. */
  function ApplyFilters(es: seq<ApiEvent>, q: EventQuery): Result<seq<ApiEvent>> {
    var byLocation := if Given(q.location) then FilterOrThrow(es, LocationTest(q.location.value)) else Ok(es);
    match byLocation
    case Fault => Fault
    case Ok(l) =>
      var bySearch := if Given(q.search) then FilterOrThrow(l, SearchTest(q.search.value)) else Ok(l);
      match bySearch
      case Fault => Fault
      case Ok(m) => if Given(q.date) then FilterOrThrow(m, DateTest(q.date.value)) else Ok(m)
  }

  /** `GET /api/events`: filter, then sort by `new Date(date).getTime()`. */
  function ListApiEvents(s: ApiStore, q: EventQuery, parseDate: string -> Option<int>): Result<seq<ApiEvent>>
    requires s.Valid()
  {
    match ApplyFilters(Values(s), q)
    case Fault => Fault
    case Ok(kept) => Ok(SortByKey(kept, ApiDateKey(parseDate)))
  }

  /** The route's reply: 200 with the list, or 500 once a filter threw. */
  function GetApiEvents(s: ApiStore, q: EventQuery, parseDate: string -> Option<int>): (r: Reply<seq<ApiEvent>>)
    requires s.Valid()
    ensures r.status == 200 <==> ListApiEvents(s, q, parseDate).Ok?
    ensures r.status == 200 ==> r.success && r.data == Some(ListApiEvents(s, q, parseDate).value)
    ensures r.status != 200 ==> r.status == 500 && !r.success && r.data.None?
  {
    match ListApiEvents(s, q, parseDate)
    case Fault => Reply(500, false, None, None, None, [])
    case Ok(es) => Reply(200, true, Some(es), None, None, [])
  }

  /** Whether an event passes every given filter, judged on its own; only
      meaningful for events whose fields are strings. */
  predicate PassesApiFilters(e: ApiEvent, q: EventQuery) {
    && (Given(q.location) ==> LocationTest(q.location.value)(e) == Ok(true))
    && (Given(q.search) ==> SearchTest(q.search.value)(e) == Ok(true))
    && (Given(q.date) ==> DateTest(q.date.value)(e) == Ok(true))
  }

  /** Every field a filter reads is a string. */
  predicate TextFields(e: ApiEvent) {
    e.title.Str? && e.description.Str? && e.location.Str? && e.date.Str?
  }

  /** The three tests never throw on an event whose fields are strings. */
  lemma TestsTotalOnText(q: string, x: ApiEvent)
    requires TextFields(x)
    ensures LocationTest(q)(x).Ok? && SearchTest(q)(x).Ok? && DateTest(q)(x).Ok?
  {
  }

  /** One filter stage over string-field events, with a test that never
      throws on those: it succeeds, keeps string-field input events only, and
      keeps an event exactly when the test holds. */
  lemma TextStage(es: seq<ApiEvent>, given: bool, p: ApiEvent -> Result<bool>, e: ApiEvent)
    returns (out: seq<ApiEvent>)
    requires forall i :: 0 <= i < |es| ==> TextFields(es[i])
    requires forall x :: TextFields(x) ==> p(x).Ok?
    ensures (if given then FilterOrThrow(es, p) else Ok(es)) == Ok(out)
    ensures forall i :: 0 <= i < |out| ==> TextFields(out[i])
    ensures e in out <==> e in es && (given ==> p(e) == Ok(true))
  {
    if given {
      assert forall i :: 0 <= i < |es| ==> p(es[i]).Ok?;
      FilterOrThrowSpec(es, p);
      out := Filter(es, Holds(p));
      FilterMembership(es, Holds(p), e);
      forall i | 0 <= i < |out|
        ensures TextFields(out[i])
      {
        assert out[i] in es;
      }
    } else {
      out := es;
    }
  }

  /** A store whose records all carry string fields never makes the list route
      throw, and an event is listed exactly when it is stored and passes every
      given filter. */
  lemma TextStoreListing(s: ApiStore, q: EventQuery, parseDate: string -> Option<int>, e: ApiEvent)
    requires s.Valid()
    requires forall i :: 0 <= i < |Values(s)| ==> TextFields(Values(s)[i])
    ensures ListApiEvents(s, q, parseDate).Ok?
    ensures e in ListApiEvents(s, q, parseDate).value <==> e in Values(s) && PassesApiFilters(e, q)
  {
    var d := TextFilters(Values(s), q, e);
    var sorted := SortByKey(d, ApiDateKey(parseDate));
    assert e in sorted <==> e in multiset(sorted);
  }

  lemma TextFilters(all: seq<ApiEvent>, q: EventQuery, e: ApiEvent) returns (d: seq<ApiEvent>)
    requires forall i :: 0 <= i < |all| ==> TextFields(all[i])
    ensures ApplyFilters(all, q) == Ok(d)
    ensures e in d <==> e in all && PassesApiFilters(e, q)
  {
    var lq := if Given(q.location) then q.location.value else "";
    var sq := if Given(q.search) then q.search.value else "";
    var dq := if Given(q.date) then q.date.value else "";
    forall x | TextFields(x)
      ensures LocationTest(lq)(x).Ok? && SearchTest(sq)(x).Ok? && DateTest(dq)(x).Ok?
    {
      TestsTotalOnText(lq, x);
      TestsTotalOnText(sq, x);
      TestsTotalOnText(dq, x);
    }
    var l := TextStage(all, Given(q.location), LocationTest(lq), e);
    var m := TextStage(l, Given(q.search), SearchTest(sq), e);
    d := TextStage(m, Given(q.date), DateTest(dq), e);
  }

  /** The listing is ordered by date: no event is listed after one whose time
      is strictly later. */
  lemma ListApiSorted(s: ApiStore, q: EventQuery, parseDate: string -> Option<int>)
    requires s.Valid() && ListApiEvents(s, q, parseDate).Ok?
    ensures SortedBy(ListApiEvents(s, q, parseDate).value, ApiDateKey(parseDate))
  {
    SortByKeySorted(ApplyFilters(Values(s), q).value, ApiDateKey(parseDate));
  }

  /** The date filter on string dates is a raw prefix test, not a day test. */
  lemma DateFilterIsPrefix(q: string, e: ApiEvent)
    requires e.date.Str?
    ensures DateTest(q)(e) == Ok(StartsWith(e.date.s, q))
  {
  }

  /** An empty query value is ignored, like a missing one. */
  lemma EmptyQueryIgnored(s: ApiStore, q: EventQuery, parseDate: string -> Option<int>)
    requires s.Valid()
    requires q.location.Some? ==> q.location.value == []
    requires q.search.Some? ==> q.search.value == []
    requires q.date.Some? ==> q.date.value == []
    ensures ListApiEvents(s, q, parseDate) == Ok(SortByKey(Values(s), ApiDateKey(parseDate)))
  {
  }

  // ---------------------------------------------------------------------------
  // GET /api/events/:id
  // ---------------------------------------------------------------------------

  /** `events.get(id)`: 200 with the event, or 404 "Event not found". */
  function GetApiEvent(s: ApiStore, id: string): (r: Reply<ApiEvent>)
    ensures r.status == 404 <==> Get(s, id).None?
    ensures r.status == 404 ==> !r.success && r.data.None? && r.error == Some(EventNotFound)
    ensures r.status != 404 ==> r.status == 200 && r.success && r.data == Get(s, id)
  {
    match Get(s, id)
    case None => ErrorReply(404, EventNotFound)
    case Some(e) => Reply(200, true, Some(e), None, None, [])
  }

  /** A record created through `POST` is found by `GET /:id`. */
  lemma PostThenGetApi(s: ApiStore, b: RequestBody, id: string, createdAt: string)
    requires s.Valid() && FirstError(b).None?
    ensures var (s', reply) := PostApiEvent(s, b, id, createdAt);
            GetApiEvent(s', id).status == 200 && GetApiEvent(s', id).data == reply.data
  {
  }

  // ---------------------------------------------------------------------------
  // seedEvents
  // ---------------------------------------------------------------------------

  /** This deployment's seven seeds: other descriptions, dates 7, 10, 14, 12,
      20, 15 and 18 days ahead, and other attendance figures. */
  const ApiSeeds: seq<Seed.SeedSpec> := [
    Seed.SeedSpec("Mumbai Tech Meetup",
      "Join developers across Mumbai for lightning talks, networking, and chai. All levels welcome.",
      "Mumbai, India", 7, 150, 45),
    Seed.SeedSpec("Delhi Startup Pitch Night",
      "Early-stage founders pitch to mentors and VCs. Feedback, connections, and pizza included.",
      "New Delhi, India", 10, 120, 60),
    Seed.SeedSpec("Bengaluru AI & ML Forum",
      "Hands-on sessions on LLMs, MLOps, and productionizing models. Bring your laptop!",
      "Bengaluru, India", 14, 200, 150),
    Seed.SeedSpec("Hyderabad Cloud Day",
      "AWS, Azure, and GCP experts share real-world cloud architecture patterns.",
      "Hyderabad, India", 12, 180, 90),
    Seed.SeedSpec("Chennai Open Source Summit",
      "Celebrating open-source contributions. Beginners encouraged!",
      "Chennai, India", 20, 250, 120),
    Seed.SeedSpec("Kolkata DevOps Meetup",
      "CI/CD pipelines, Kubernetes, and automation best practices.",
      "Kolkata, India", 15, 100, 55),
    Seed.SeedSpec("Pune Product Management Panel",
      "PMs from top startups discuss roadmaps, user research, and metrics.",
      "Pune, India", 18, 80, 40)
  ]

  /** The seed records: each has string text fields (so the list route's
      filters never throw on them), a capacity and an attendance. */
  function ApiSeedRecords(ids: seq<string>, addDays: int -> string, stamps: seq<string>): (es: seq<ApiEvent>)
    requires |ids| == |ApiSeeds| && |stamps| == |ApiSeeds|
    ensures |es| == |ApiSeeds|
    ensures forall i :: 0 <= i < |es| ==>
              && es[i].id == ids[i] && es[i].createdAt == stamps[i]
              && es[i].title == Str(ApiSeeds[i].title) && es[i].description == Str(ApiSeeds[i].description)
              && es[i].location == Str(ApiSeeds[i].location)
              && es[i].date == Str(addDays(ApiSeeds[i].days))
              && es[i].maxParticipants == Some(ApiSeeds[i].maxParticipants)
              && es[i].currentParticipants == ApiSeeds[i].currentParticipants
  {
    seq(|ApiSeeds|, i requires 0 <= i < |ApiSeeds| =>
      var spec := ApiSeeds[i];
      ApiEvent(ids[i], Str(spec.title), Str(spec.description), Str(spec.location), Str(addDays(spec.days)),
               Some(spec.maxParticipants), spec.currentParticipants, stamps[i]))
  }

  /** `seedEvents()`: returns at once when the map holds anything, otherwise
      sets each seed under its id. */
  function ApiSeedEvents(s: ApiStore, ids: seq<string>, addDays: int -> string, stamps: seq<string>): (r: ApiStore)
    requires s.Valid() && |ids| == |ApiSeeds| && |stamps| == |ApiSeeds|
    ensures r.Valid()
    ensures Size(s) > 0 ==> r == s
    ensures Size(s) == 0 ==> Size(r) > 0
  {
    if Size(s) > 0 then s else SetAll(s, ids, ApiSeedRecords(ids, addDays, stamps))
  }

  /** Seeding twice is seeding once. */
  lemma ApiSeedIdempotent(s: ApiStore, ids: seq<string>, ids': seq<string>, addDays: int -> string,
                          stamps: seq<string>, stamps': seq<string>)
    requires s.Valid() && |ids| == |ApiSeeds| && |stamps| == |ApiSeeds| && |ids'| == |ApiSeeds| && |stamps'| == |ApiSeeds|
    ensures var once := ApiSeedEvents(s, ids, addDays, stamps);
            ApiSeedEvents(once, ids', addDays, stamps') == once
  {
  }

  /** Seeding an empty map with distinct ids lists exactly the seven seed
      records in seed order. */
  lemma ApiSeedFillsEmptyStore(s: ApiStore, ids: seq<string>, addDays: int -> string, stamps: seq<string>)
    requires s.Valid() && Size(s) == 0
    requires |ids| == |ApiSeeds| && |stamps| == |ApiSeeds| && Seed.DistinctIds(ids)
    ensures Values(ApiSeedEvents(s, ids, addDays, stamps)) == ApiSeedRecords(ids, addDays, stamps)
  {
    var es := ApiSeedRecords(ids, addDays, stamps);
    SetAllEmptyValues(s, ids, es);
    assert ApiSeedEvents(s, ids, addDays, stamps) == SetAll(s, ids, es);
  }
}

=== FILE: create_event_form.dfy ===
/** The client-side create form: its per-field validator and the change
    handler that coerces numeric inputs and clears a field's error. */
module CreateEventForm {
  import opened Wrappers
  import opened Text
  import opened JsValues
  import opened Events
  import Validation

  /** The six inputs of the form, named as their `name` attributes. */
  datatype Field = Title | Description | Location | Date | MaxParticipants | CurrentParticipants

  /** `Record<string, string>`: at most one message per field. */
  type FormErrors = map<Field, string>

  const TitleRequired := "Title is required"
  const TitleTooLong := "Title must be less than 200 characters"
  const DescriptionRequired := "Description is required"
  const DescriptionTooLong := "Description must be less than 1000 characters"
  const LocationRequired := "Location is required"
  const DateRequired := "Date is required"
  const DatePast := "Event date cannot be in the past"
  const MaxTooSmall := "Must have at least 1 participant"
  const MaxTooLarge := "Cannot exceed 10,000 participants"
  const CurrentNegative := "Cannot be negative"
  const CurrentTooLarge := "Cannot exceed max participants"

  /** Required, then too long: blankness is judged on the trimmed text and the
      length on the raw text. */
  function TextCheck(s: string, limit: Option<nat>, required: string, tooLong: string): (r: Option<string>)
    ensures IsBlank(s) ==> r == Some(required)
    ensures r.None? <==> !IsBlank(s) && (limit.None? || |s| <= limit.value)
    ensures r.Some? && !IsBlank(s) ==> r == Some(tooLong)
  {
    TrimEmptyIffBlank(s);
    if |Trim(s)| == 0 then Some(required)
    else if limit.Some? && |s| > limit.value then Some(tooLong)
    else None
  }

  /** `new Date(date) < new Date()`: an unparseable date compares false and
      so is not reported. */
  function DateCheck(date: string, now: int, parseDate: string -> Option<int>): (r: Option<string>)
    ensures r == Some(DateRequired) <==> date == []
    ensures r == Some(DatePast) <==> date != [] && parseDate(date).Some? && parseDate(date).value < now
    ensures r.None? <==> date != [] && (parseDate(date).None? || parseDate(date).value >= now)
  {
    if date == [] then Some(DateRequired)
    else if parseDate(date).Some? && parseDate(date).value < now then Some(DatePast)
    else None
  }

  function MaxCheck(m: int): (r: Option<string>)
    ensures r.None? <==> 1 <= m <= Validation.MaxCapacity
    ensures r == Some(MaxTooSmall) <==> m < 1
    ensures r == Some(MaxTooLarge) <==> m > Validation.MaxCapacity
  {
    if m < 1 then Some(MaxTooSmall) else if m > 10000 then Some(MaxTooLarge) else None
  }

  function CurrentCheck(c: Option<int>, m: int): (r: Option<string>)
    ensures r.None? <==> c.None? || 0 <= c.value <= m
    ensures r == Some(CurrentNegative) <==> c.Some? && c.value < 0
    ensures r == Some(CurrentTooLarge) <==> c.Some? && 0 <= c.value && c.value > m
  {
    match c
    case None => None
    case Some(v) => if v < 0 then Some(CurrentNegative) else if v > m then Some(CurrentTooLarge) else None
  }

  /** The check of one field. */
  function Check(form: CreateEventDTO, f: Field, now: int, parseDate: string -> Option<int>): Option<string> {
    match f
    case Title => TextCheck(form.title, Some(Validation.MaxTitleLength), TitleRequired, TitleTooLong)
    case Description => TextCheck(form.description, Some(Validation.MaxDescriptionLength), DescriptionRequired, DescriptionTooLong)
    case Location => TextCheck(form.location, None, LocationRequired, LocationRequired)
    case Date => DateCheck(form.date, now, parseDate)
    case MaxParticipants => MaxCheck(form.maxParticipants)
    case CurrentParticipants => CurrentCheck(form.currentParticipants, form.maxParticipants)
  }

  const AllFields: set<Field> := {Title, Description, Location, Date, MaxParticipants, CurrentParticipants}

  lemma AllFieldsListed()
    ensures forall f: Field :: f in AllFields
  {
    forall f: Field
      ensures f in AllFields
    {
      assert f.Title? || f.Description? || f.Location? || f.Date? || f.MaxParticipants? || f.CurrentParticipants?;
    }
  }

  /** The error map `validateForm` fills: one entry for every field whose
      check produced a message. */
  function CollectErrors(form: CreateEventDTO, now: int, parseDate: string -> Option<int>): (errors: FormErrors)
    ensures forall f :: f in errors <==> Check(form, f, now, parseDate).Some?
    ensures forall f :: f in errors ==> errors[f] == Check(form, f, now, parseDate).value
  {
    AllFieldsListed();
    map f | f in AllFields && Check(form, f, now, parseDate).Some? :: Check(form, f, now, parseDate).value
  }

  /** `validateForm()`: the new error map, and whether it is empty. */
  function ValidateForm(form: CreateEventDTO, now: int, parseDate: string -> Option<int>): (r: (bool, FormErrors))
    ensures r.1 == CollectErrors(form, now, parseDate)
    ensures r.0 <==> r.1 == map[]
    ensures r.0 <==> forall f :: Check(form, f, now, parseDate).None?
    ensures forall f :: f in r.1 ==> r.1[f] != []
  {
    var errors := CollectErrors(form, now, parseDate);
    assert forall f :: f in errors ==> errors[f] != [] by {
      forall f | f in errors
        ensures errors[f] != []
      {
        MessagesNonEmpty(form, f, now, parseDate);
      }
    }
    (|errors| == 0, errors)
  }

  lemma MessagesNonEmpty(form: CreateEventDTO, f: Field, now: int, parseDate: string -> Option<int>)
    requires Check(form, f, now, parseDate).Some?
    ensures Check(form, f, now, parseDate).value != []
  {
  }

  /** The form accepts a field's text exactly when the server would: both
      reject blank text and text over the limit. */
  lemma TextChecksAgree(form: CreateEventDTO, now: int, parseDate: string -> Option<int>)
    ensures Check(form, Title, now, parseDate).None? <==> Validation.TitleError(Str(form.title)).None?
    ensures Check(form, Description, now, parseDate).None? <==> Validation.DescriptionError(Str(form.description)).None?
    ensures Check(form, Location, now, parseDate).None? <==> Validation.LocationError(Str(form.location)).None?
  {
    TitleCheckAgrees(form, now, parseDate);
    DescriptionCheckAgrees(form, now, parseDate);
    LocationCheckAgrees(form, now, parseDate);
  }

  lemma TitleCheckAgrees(form: CreateEventDTO, now: int, parseDate: string -> Option<int>)
    ensures Check(form, Title, now, parseDate).None? <==> Validation.TitleError(Str(form.title)).None?
  {
    TextCheckAgrees(form.title, Some(Validation.MaxTitleLength), TitleRequired, TitleTooLong,
                    Validation.TitleRequired, Validation.TitleTooLong);
  }

  lemma DescriptionCheckAgrees(form: CreateEventDTO, now: int, parseDate: string -> Option<int>)
    ensures Check(form, Description, now, parseDate).None? <==> Validation.DescriptionError(Str(form.description)).None?
  {
    TextCheckAgrees(form.description, Some(Validation.MaxDescriptionLength), DescriptionRequired, DescriptionTooLong,
                    Validation.DescriptionRequired, Validation.DescriptionTooLong);
  }

  lemma LocationCheckAgrees(form: CreateEventDTO, now: int, parseDate: string -> Option<int>)
    ensures Check(form, Location, now, parseDate).None? <==> Validation.LocationError(Str(form.location)).None?
  {
    TextCheckAgrees(form.location, None, LocationRequired, LocationRequired,
                    Validation.LocationRequired, Validation.LocationRequired);
  }

  /** Whatever the messages, the form's text check and the server's accept the same text. */
  lemma TextCheckAgrees(s: string, limit: Option<nat>, required: string, tooLong: string,
                        serverRequired: string, serverTooLong: string)
    ensures TextCheck(s, limit, required, tooLong).None?
            <==> Validation.TextFieldError(Str(s), limit, serverRequired, serverTooLong).None?
  {
  }

  /** The numeric bounds agree with the server's as well. */
  lemma NumberChecksAgree(form: CreateEventDTO, now: int, parseDate: string -> Option<int>)
    ensures (Check(form, MaxParticipants, now, parseDate).None?
             <==> Validation.MaxParticipantsError(Num(form.maxParticipants as real)).None?)
    ensures form.currentParticipants.Some? ==>
              (Check(form, CurrentParticipants, now, parseDate).None?
               <==> Validation.CurrentParticipantsError(Num(form.currentParticipants.value as real),
                                                       Num(form.maxParticipants as real)).None?)
  {
    var m := form.maxParticipants as real;
    assert IsInteger(Num(m));
    if form.currentParticipants.Some? {
      assert IsInteger(Num(form.currentParticipants.value as real));
    }
  }

  /** The date check is looser than the server's: text that does not parse
      passes the form and is refused by the server. With a date that parses,
      the two agree. */
  lemma DateCheckLooser(date: string, now: int, parseDate: string -> Option<int>)
    requires date != []
    ensures parseDate(date).None? ==>
              DateCheck(date, now, parseDate).None?
              && Validation.DateError(Str(date), now, parseDate) == Some(Validation.DateInvalid)
    ensures parseDate(date).Some? ==>
              (DateCheck(date, now, parseDate).None? <==> Validation.DateError(Str(date), now, parseDate).None?)
  {
  }

  // ---------------------------------------------------------------------------
  // handleChange
  // ---------------------------------------------------------------------------

  /** `parseInt(value) || 0`: NaN and zero both become 0. */
  function NumericInput(value: string): (n: int)
    ensures ParseInt(value).None? ==> n == 0
    ensures ParseInt(value).Some? ==> n == ParseInt(value).value
  {
    match ParseInt(value)
    case None => 0
    case Some(v) => v
  }

  /** The form with one input changed: the numeric inputs are coerced, every
      other input stores the raw text. */
  function SetField(form: CreateEventDTO, name: Field, value: string): (r: CreateEventDTO)
    ensures name == Title ==> r == form.(title := value)
    ensures name == Description ==> r == form.(description := value)
    ensures name == Location ==> r == form.(location := value)
    ensures name == Date ==> r == form.(date := value)
    ensures name == MaxParticipants ==> r == form.(maxParticipants := NumericInput(value))
    ensures name == CurrentParticipants ==> r == form.(currentParticipants := Some(NumericInput(value)))
  {
    match name
    case Title => form.(title := value)
    case Description => form.(description := value)
    case Location => form.(location := value)
    case Date => form.(date := value)
    case MaxParticipants => form.(maxParticipants := NumericInput(value))
    case CurrentParticipants => form.(currentParticipants := Some(NumericInput(value)))
  }

  /** `handleChange`: updates the input and, when that field shows a message,
      removes it. */
  function HandleChange(form: CreateEventDTO, errors: FormErrors, name: Field, value: string): (r: (CreateEventDTO, FormErrors))
    ensures r.0 == SetField(form, name, value)
    ensures forall f :: f != name ==> (f in r.1 <==> f in errors) && (f in errors ==> r.1[f] == errors[f])
    ensures name in errors && errors[name] != [] ==> name !in r.1
  {
    var errors' := if name in errors && errors[name] != [] then errors - {name} else errors;
    (SetField(form, name, value), errors')
  }

  /** On an error map that `validateForm` produced, a change clears exactly
      the changed field's message. */
  lemma ChangeClearsOnlyItsField(form: CreateEventDTO, now: int, parseDate: string -> Option<int>,
                                 name: Field, value: string)
    ensures var errors := ValidateForm(form, now, parseDate).1;
            HandleChange(form, errors, name, value).1 == errors - {name}
  {
    var errors := ValidateForm(form, now, parseDate).1;
    ChangeClearsShownMessage(form, errors, name, value);
  }

  /** When every recorded message is non-empty, a change removes exactly the
      changed field's entry. */
  lemma ChangeClearsShownMessage(form: CreateEventDTO, errors: FormErrors, name: Field, value: string)
    requires forall f :: f in errors ==> errors[f] != []
    ensures HandleChange(form, errors, name, value).1 == errors - {name}
  {
    if name !in errors {
      assert errors - {name} == errors;
    }
  }

  /** Typing the decimal text of a non-zero number stores that number; text
      without any digit stores 0. */
  lemma NumericInputRoundTrip(n: int, junk: string)
    requires forall i :: 0 <= i < |junk| ==> DigitValue(junk[i], 10).None?
    ensures NumericInput(IntToString(n)) == n
    ensures NumericInput(junk) == 0
  {
    ParseIntOfIntToString(n);
    ParseIntNoDigits(junk);
  }
}

=== FILE: divergence.dfy ===
/** Where the backend and the serverless variant of the API disagree on the
    same input, and where they agree. */
module Divergence {
  import opened Wrappers
  import opened Text
  import opened JsValues
  import opened Events
  import Validation
  import EventController
  import ApiVariant
  import EventStorage
  import JsMap

  /** A title of one or two visible characters: the backend takes it, the
      variant refuses it with its first message. */
  lemma ShortTitle(b: RequestBody)
    requires b.title.Str? && 0 < |b.title.s| < 3 && !IsBlank(b.title.s)
    ensures Validation.TitleError(b.title).None?
    ensures ApiVariant.FirstError(b) == Some(ApiVariant.TitleTooShort)
  {
  }

  /** A title over 200 characters: the backend refuses it, the variant has no
      upper bound. */
  lemma LongTitle(b: RequestBody)
    requires b.title.Str? && |b.title.s| > Validation.MaxTitleLength && !IsBlank(b.title.s)
    ensures Validation.TitleError(b.title) == Some(Validation.TitleTooLong)
    ensures !ApiVariant.RuleFails(b, 0)
  {
  }

  /** A whitespace-only title: the backend calls it missing, while the variant
      only counts characters, so three spaces pass its title rule. */
  lemma BlankTitle(b: RequestBody)
    requires b.title.Str? && |b.title.s| >= 3 && IsBlank(b.title.s)
    ensures Validation.TitleError(b.title) == Some(Validation.TitleRequired)
    ensures !ApiVariant.RuleFails(b, 0)
  {
  }

  /** A number where a title belongs: the backend wants a string; the variant
      only looks for a length, which a number does not have. */
  lemma NumericTitle(b: RequestBody, x: real)
    requires b.title == Num(x) && x != 0.0
    ensures Validation.TitleError(b.title) == Some(Validation.TitleRequired)
    ensures !ApiVariant.RuleFails(b, 0)
  {
  }

  /** A capacity sent as text without digits: the backend refuses every string;
      the variant lets it through, since `Number` reads it as NaN, and stores NaN. */
  lemma TextCapacity(s: string)
    requires s != [] && StringToNumber(s) == NaN
    requires forall i :: 0 <= i < |s| ==> DigitValue(s[i], 10).None?
    ensures Validation.MaxParticipantsError(Str(s)) == Some(Validation.MaxNotInteger)
    ensures !ApiVariant.MaxTooLow(Str(s))
    ensures ApiVariant.ParseIntValue(Str(s)).None?
  {
    ApiVariant.NonNumericCapacity(s);
  }

  /** An attendance the client supplied is kept by the backend and replaced by
      0 in the variant. */
  lemma AttendanceKeptOrZeroed(b: RequestBody, now: int, parseDate: string -> Option<int>, id: string, createdAt: string)
    requires Validation.Errors(b, now, parseDate) == [] && ApiVariant.FirstError(b).None?
    requires b.currentParticipants.Num?
    ensures EventController.WellTyped(b)
    ensures EventController.NewEvent(EventController.ToDto(b), id, createdAt).currentParticipants
              == b.currentParticipants.x.Floor
    ensures ApiVariant.NewApiEvent(b, id, createdAt).currentParticipants == 0
  {
    EventController.CreatedIsWellFormed(b, now, parseDate, id, createdAt);
  }

  /** A whitespace-only query value is ignored by the backend and applied
      verbatim by the variant; an empty one is ignored by both. */
  lemma BlankQueryValue(q: string)
    requires IsBlank(q)
    ensures !EventController.Supplied(Some(q))
    ensures ApiVariant.Given(Some(q)) <==> q != []
  {
  }

  /** The variant's date filter keeps an event whose date text starts with the
      filter text even when the two fall on different UTC days, and drops one
      on the same UTC day written differently; the backend does the opposite
      in both cases. */
  lemma DateFilters(q: string, e: Event, a: ApiVariant.ApiEvent, parseDate: string -> Option<int>)
    requires a.date == Str(e.date)
    requires parseDate(q).Some? && parseDate(e.date).Some?
    ensures StartsWith(e.date, q) && EventController.UtcDay(parseDate(q).value) != EventController.UtcDay(parseDate(e.date).value)
            ==> ApiVariant.DateTest(q)(a) == Ok(true)
                && !EventController.OnDay(e, EventController.UtcDay(parseDate(q).value), parseDate)
    ensures !StartsWith(e.date, q) && EventController.UtcDay(parseDate(q).value) == EventController.UtcDay(parseDate(e.date).value)
            ==> ApiVariant.DateTest(q)(a) == Ok(false)
                && EventController.OnDay(e, EventController.UtcDay(parseDate(q).value), parseDate)
  {
  }

  /** Both deployments answer an unknown id with 404 "Event not found". */
  lemma UnknownIdAgrees(s: EventStorage.Store, a: ApiVariant.ApiStore, id: string)
    requires !IsBlank(id)
    requires EventStorage.GetById(s, id).None? && JsMap.Get(a, id).None?
    ensures EventController.GetEventRoute(s, id).status == 404
    ensures ApiVariant.GetApiEvent(a, id).status == 404
    ensures EventController.GetEventRoute(s, id).error == ApiVariant.GetApiEvent(a, id).error
  {
  }
}

=== FILE: event_controller.dfy ===
/** The backend's route handlers: building and storing a new event, the
    filter-and-sort pipeline of the list route, and lookup by id. */
module EventController {
  import opened Wrappers
  import opened Text
  import opened Seqs
  import opened JsMap
  import opened JsValues
  import opened Events
  import opened EventStorage
  import opened Validation

  const CreatedMessage := "Event created successfully"
  const CreateFailed := "Failed to create event"
  const FetchEventsFailed := "Failed to fetch events"
  const EventNotFound := "Event not found"

  /** Milliseconds in a UTC day. */
  const MsPerDay := 86400000

  // ---------------------------------------------------------------------------
  // POST /api/events
  // ---------------------------------------------------------------------------

  /** The field types `createEvent` reads once validation has passed. */
  predicate WellTyped(b: RequestBody) {
    && b.title.Str? && b.description.Str? && b.location.Str? && b.date.Str?
    && IsInteger(b.maxParticipants)
    && (b.currentParticipants.Undefined? || IsInteger(b.currentParticipants))
  }

  /** A body that passes validation has the types the handler relies on. */
  lemma ValidatedIsWellTyped(b: RequestBody, now: int, parseDate: string -> Option<int>)
    requires ValidateCreateEvent(b, now, parseDate).Next?
    ensures WellTyped(b)
  {
    var xs := FieldErrors(b, now, parseDate);
    assert xs[0].None? && xs[1].None? && xs[2].None? && xs[3].None? && xs[4].None? && xs[5].None?;
  }

  /** The body read as a `CreateEventDTO`. */
  function ToDto(b: RequestBody): CreateEventDTO
    requires WellTyped(b)
  {
    CreateEventDTO(
      b.title.s, b.description.s, b.location.s, b.date.s,
      b.maxParticipants.x.Floor,
      if b.currentParticipants.Undefined? then None else Some(b.currentParticipants.x.Floor))
  }

  /** The record `createEvent` builds: text fields trimmed, date and capacity
      copied, `currentParticipants || 0`, and the given id and timestamp. */
  function NewEvent(dto: CreateEventDTO, id: string, createdAt: string): (e: Event)
    ensures e.id == id && e.createdAt == createdAt
    ensures e.date == dto.date && e.maxParticipants == dto.maxParticipants
    ensures e.currentParticipants == if dto.currentParticipants.Some? then dto.currentParticipants.value else 0
    ensures e.title == Trim(dto.title) && e.description == Trim(dto.description) && e.location == Trim(dto.location)
    ensures |e.title| <= |dto.title| && |e.description| <= |dto.description| && |e.location| <= |dto.location|
    ensures e.title == [] || (!IsWhitespace(e.title[0]) && !IsWhitespace(e.title[|e.title| - 1]))
  {
    Event(id, Trim(dto.title), Trim(dto.description), Trim(dto.location), dto.date,
          dto.maxParticipants, dto.currentParticipants.GetOr(0), createdAt)
  }

  /** `createEvent`: stores the new record and answers 201 with it. */
  function CreateEvent(s: Store, dto: CreateEventDTO, id: string, createdAt: string): (r: (Store, Reply<Event>))
    requires s.Valid()
    ensures r.0.Valid()
    ensures r.1.status == 201 && r.1.success && r.1.message == Some(CreatedMessage)
    ensures r.1.data == Some(NewEvent(dto, id, createdAt))
    ensures GetById(r.0, id) == r.1.data
    ensures forall other :: other != id ==> GetById(r.0, other) == GetById(s, other)
  {
    var (s', e) := EventStorage.Create(s, NewEvent(dto, id, createdAt));
    (s', Reply(201, true, Some(e), Some(CreatedMessage), None, []))
  }

  /** The invariant every event created through the API satisfies. */
  predicate WellFormed(e: Event, now: int, parseDate: string -> Option<int>) {
    && !IsBlank(e.title) && |e.title| <= MaxTitleLength
    && !IsBlank(e.description) && |e.description| <= MaxDescriptionLength
    && !IsBlank(e.location)
    && parseDate(e.date).Some? && parseDate(e.date).value >= now
    && 1 <= e.maxParticipants <= MaxCapacity
    && 0 <= e.currentParticipants <= e.maxParticipants
  }

  /** `POST /api/events`: the validation middleware followed by `createEvent`.
      `id` is the fresh value `uuidv4()` returns, `createdAt` the ISO text of
      the current time. */
  function PostEvent(s: Store, b: RequestBody, now: int, parseDate: string -> Option<int>,
                     id: string, createdAt: string): (r: (Store, Reply<Event>))
    requires s.Valid()
    ensures r.0.Valid()
    ensures Errors(b, now, parseDate) != [] ==>
              && r.0 == s
              && r.1.status == 400 && !r.1.success && r.1.data.None?
              && r.1.error == Some(ValidationFailed)
              && r.1.details == Errors(b, now, parseDate)
    ensures Errors(b, now, parseDate) == [] ==>
              && r.1.status == 201 && r.1.success && r.1.message == Some(CreatedMessage)
              && WellTyped(b) && r.1.data == Some(NewEvent(ToDto(b), id, createdAt))
              && GetById(r.0, id) == r.1.data
              && (forall other :: other != id ==> GetById(r.0, other) == GetById(s, other))
              && r.1.data.value.id == id
              && WellFormed(r.1.data.value, now, parseDate)
              && Count(r.0) == Count(s) + (if GetById(s, id).None? then 1 else 0)
  {
    match ValidateCreateEvent(b, now, parseDate)
    case Reject(status, error, details) => (s, Reply(status, false, None, None, Some(error), details))
    case Next =>
      ValidatedIsWellTyped(b, now, parseDate);
      var dto := ToDto(b);
      CreatedIsWellFormed(b, now, parseDate, id, createdAt);
      CreateEvent(s, dto, id, createdAt)
  }

  /** Trimming keeps a non-blank text non-blank. */
  lemma TrimKeepsNonBlank(s: string)
    requires !IsBlank(s)
    ensures !IsBlank(Trim(s))
  {
    TrimEmptyIffBlank(s);
  }

  /** Validation followed by record construction yields a well-formed event. */
  lemma CreatedIsWellFormed(b: RequestBody, now: int, parseDate: string -> Option<int>, id: string, createdAt: string)
    requires ValidateCreateEvent(b, now, parseDate).Next?
    ensures WellTyped(b)
    ensures WellFormed(NewEvent(ToDto(b), id, createdAt), now, parseDate)
  {
    ValidatedIsWellTyped(b, now, parseDate);
    var xs := FieldErrors(b, now, parseDate);
    assert xs[0].None? && xs[1].None? && xs[2].None? && xs[3].None? && xs[4].None? && xs[5].None?;
    TrimKeepsNonBlank(b.title.s);
    TrimKeepsNonBlank(b.description.s);
    TrimKeepsNonBlank(b.location.s);
    var m := b.maxParticipants.x;
    assert m.Floor as real == m;
    if b.currentParticipants.Num? {
      var c := b.currentParticipants.x;
      assert c.Floor as real == c;
      assert 0.0 <= c <= m;
    }
  }

  // ---------------------------------------------------------------------------
  // GET /api/events
  // ---------------------------------------------------------------------------

  /** `filter && filter.trim().length > 0`: a filter counts only when it has a
      non-whitespace character. */
  predicate Supplied(filter: Option<string>) {
    filter.Some? && !IsBlank(filter.value)
  }

  /** The UTC calendar day of a time value, which is what the date part of
      `toISOString()` names. */
  function UtcDay(t: int): int {
    t / MsPerDay
  }

  /** The event's date parses and falls on UTC day `day`. */
  predicate OnDay(e: Event, day: int, parseDate: string -> Option<int>) {
    parseDate(e.date).Some? && UtcDay(parseDate(e.date).value) == day
  }

  /** The sort key: `new Date(e.date).getTime()`, with `None` for NaN. */
  function DateKey(parseDate: string -> Option<int>): Event -> Option<int> {
    (e: Event) => parseDate(e.date)
  }

  function LocationFilter(q: string): Event -> bool {
    (e: Event) => LocationMatches(e, q)
  }

  function SearchFilter(q: string): Event -> bool {
    (e: Event) => SearchMatches(e, q)
  }

  function DayFilter(day: int, parseDate: string -> Option<int>): Event -> bool {
    (e: Event) => OnDay(e, day, parseDate)
  }

  predicate AllDatesParse(es: seq<Event>, parseDate: string -> Option<int>) {
    forall i :: 0 <= i < |es| ==> parseDate(es[i].date).Some?
  }

  /** The events left after the location and search filters, in store order. */
  function TextFiltered(all: seq<Event>, q: EventQuery): seq<Event> {
    var byLocation := if Supplied(q.location) then Filter(all, LocationFilter(q.location.value)) else all;
    if Supplied(q.search) then Filter(byLocation, SearchFilter(q.search.value)) else byLocation
  }

  /** The date filter. Converting an unparseable date with `toISOString()`
      throws, whether it is the filter's or a remaining event's. */
  function DateFiltered(es: seq<Event>, date: string, parseDate: string -> Option<int>): Result<seq<Event>> {
    match parseDate(date)
    case None => Fault
    case Some(t) =>
      if AllDatesParse(es, parseDate) then Ok(Filter(es, DayFilter(UtcDay(t), parseDate))) else Fault
  }

  /** The list pipeline of `getAllEvents`: location, then search, then date,
      then a stable sort by date. */
  function ListEvents(s: Store, q: EventQuery, parseDate: string -> Option<int>): Result<seq<Event>>
    requires s.Valid()
  {
    var es := TextFiltered(GetAll(s), q);
    var filtered := if Supplied(q.date) then DateFiltered(es, q.date.value, parseDate) else Ok(es);
    match filtered
    case Fault => Fault
    case Ok(kept) => Ok(SortByKey(kept, DateKey(parseDate)))
  }

  /** `getAllEvents`: 200 with the list and a count message, or 500. */
  function GetAllEvents(s: Store, q: EventQuery, parseDate: string -> Option<int>): (r: Reply<seq<Event>>)
    requires s.Valid()
    ensures r.success <==> ListEvents(s, q, parseDate).Ok?
    ensures r.success ==> r.status == 200 && r.data == Some(ListEvents(s, q, parseDate).value)
    ensures r.success ==> r.message == Some("Found " + IntToString(|r.data.value|) + " event(s)")
    ensures !r.success ==> r.status == 500 && r.error == Some(FetchEventsFailed)
  {
    match ListEvents(s, q, parseDate)
    case Fault => ErrorReply(500, FetchEventsFailed)
    case Ok(es) =>
      Reply(200, true, Some(es), Some("Found " + IntToString(|es|) + " event(s)"), None, [])
  }

  /** One event against every supplied filter, judged on its own. */
  predicate PassesFilters(e: Event, q: EventQuery, parseDate: string -> Option<int>) {
    && (Supplied(q.location) ==> LocationMatches(e, q.location.value))
    && (Supplied(q.search) ==> SearchMatches(e, q.search.value))
    && (Supplied(q.date) ==> parseDate(q.date.value).Some?
                             && OnDay(e, UtcDay(parseDate(q.date.value).value), parseDate))
  }

  function PassesFiltersFn(q: EventQuery, parseDate: string -> Option<int>): Event -> bool {
    (e: Event) => PassesFilters(e, q, parseDate)
  }

  /** The pipeline fails exactly when a date filter is supplied and either it or
      the date of an event that survived the text filters does not parse. */
  lemma ListEventsFails(s: Store, q: EventQuery, parseDate: string -> Option<int>)
    requires s.Valid()
    ensures ListEvents(s, q, parseDate).Fault? <==>
              Supplied(q.date) &&
              (parseDate(q.date.value).None? || !AllDatesParse(TextFiltered(GetAll(s), q), parseDate))
  {
  }

  /** The text filters, applied one after the other, keep what both keep. */
  lemma TextFilteredConjunction(all: seq<Event>, q: EventQuery)
    ensures TextFiltered(all, q) == Filter(all, TextFilterFn(q))
  {
    var loc := if Supplied(q.location) then LocationFilter(q.location.value) else (e: Event) => true;
    var byLocation := if Supplied(q.location) then Filter(all, LocationFilter(q.location.value)) else all;
    if !Supplied(q.location) {
      FilterAll(all, loc);
    }
    assert byLocation == Filter(all, loc);
    if Supplied(q.search) {
      FilterFilter(all, loc, SearchFilter(q.search.value), TextFilterFn(q));
    } else {
      FilterCongruent(all, loc, TextFilterFn(q));
    }
  }

  /** An event passes the text filters when it passes each supplied one. */
  predicate PassesText(e: Event, q: EventQuery) {
    && (Supplied(q.location) ==> LocationMatches(e, q.location.value))
    && (Supplied(q.search) ==> SearchMatches(e, q.search.value))
  }

  function TextFilterFn(q: EventQuery): Event -> bool {
    (e: Event) => PassesText(e, q)
  }

  /** When the pipeline succeeds, its output is the events of the store that
      pass every supplied filter, each judged independently. */
  lemma ListEventsIsConjunction(s: Store, q: EventQuery, parseDate: string -> Option<int>)
    requires s.Valid() && ListEvents(s, q, parseDate).Ok?
    ensures var kept := Filter(GetAll(s), PassesFiltersFn(q, parseDate));
            multiset(ListEvents(s, q, parseDate).value) == multiset(kept)
  {
    var all := GetAll(s);
    var es := TextFiltered(all, q);
    TextFilteredConjunction(all, q);
    if Supplied(q.date) {
      var t := parseDate(q.date.value).value;
      FilterFilter(all, TextFilterFn(q), DayFilter(UtcDay(t), parseDate), PassesFiltersFn(q, parseDate));
    } else {
      FilterCongruent(all, TextFilterFn(q), PassesFiltersFn(q, parseDate));
    }
  }

  /** Membership form of the conjunction: an event is listed exactly when it is
      stored and passes every supplied filter. */
  lemma ListEventsMembership(s: Store, q: EventQuery, parseDate: string -> Option<int>, e: Event)
    requires s.Valid() && ListEvents(s, q, parseDate).Ok?
    ensures e in ListEvents(s, q, parseDate).value <==> e in GetAll(s) && PassesFilters(e, q, parseDate)
  {
    ListEventsIsConjunction(s, q, parseDate);
    var kept := Filter(GetAll(s), PassesFiltersFn(q, parseDate));
    FilterMembership(GetAll(s), PassesFiltersFn(q, parseDate), e);
    assert e in ListEvents(s, q, parseDate).value <==> e in multiset(kept);
  }

  /** The listing is ordered by date: no event is listed after one whose date
      is strictly later. */
  lemma ListEventsSorted(s: Store, q: EventQuery, parseDate: string -> Option<int>)
    requires s.Valid() && ListEvents(s, q, parseDate).Ok?
    ensures var r := ListEvents(s, q, parseDate).value;
            forall i, j :: 0 <= i < j < |r| && parseDate(r[i].date).Some? && parseDate(r[j].date).Some?
                           ==> parseDate(r[i].date).value <= parseDate(r[j].date).value
  {
    var kept := match (if Supplied(q.date) then DateFiltered(TextFiltered(GetAll(s), q), q.date.value, parseDate)
                       else Ok(TextFiltered(GetAll(s), q)))
                case Ok(k) => k case Fault => [];
    SortByKeySorted(kept, DateKey(parseDate));
  }

  /** The sort is stable: events with the same time keep their store order. */
  lemma ListEventsStable(s: Store, q: EventQuery, parseDate: string -> Option<int>)
    requires s.Valid() && ListEvents(s, q, parseDate).Ok?
    ensures StableFor(Filter(GetAll(s), PassesFiltersFn(q, parseDate)), ListEvents(s, q, parseDate).value, DateKey(parseDate))
  {
    var all := GetAll(s);
    var es := TextFiltered(all, q);
    TextFilteredConjunction(all, q);
    var kept := if Supplied(q.date) then DateFiltered(es, q.date.value, parseDate).value else es;
    if Supplied(q.date) {
      var t := parseDate(q.date.value).value;
      FilterFilter(all, TextFilterFn(q), DayFilter(UtcDay(t), parseDate), PassesFiltersFn(q, parseDate));
    } else {
      FilterCongruent(all, TextFilterFn(q), PassesFiltersFn(q, parseDate));
    }
    assert kept == Filter(all, PassesFiltersFn(q, parseDate));
    SortByKeyStable(kept, DateKey(parseDate));
  }

  /** A blank filter is the same as no filter. */
  lemma BlankFiltersIgnored(s: Store, q: EventQuery, parseDate: string -> Option<int>)
    requires s.Valid()
    requires q.location.Some? ==> IsBlank(q.location.value)
    requires q.search.Some? ==> IsBlank(q.search.value)
    requires q.date.Some? ==> IsBlank(q.date.value)
    ensures ListEvents(s, q, parseDate) == Ok(SortByKey(GetAll(s), DateKey(parseDate)))
  {
  }

  /** With a date filter that parses, an event survives exactly when its own
      date parses to the same UTC calendar day. */
  lemma DateFilterSameDay(es: seq<Event>, date: string, parseDate: string -> Option<int>, e: Event)
    requires DateFiltered(es, date, parseDate).Ok?
    ensures e in DateFiltered(es, date, parseDate).value <==>
              e in es && UtcDay(parseDate(e.date).value) == UtcDay(parseDate(date).value)
  {
    var t := parseDate(date).value;
    FilterMembership(es, DayFilter(UtcDay(t), parseDate), e);
    if e in es {
      var i :| 0 <= i < |es| && es[i] == e;
      assert parseDate(e.date).Some?;
    }
  }

  /** Two instants on the same UTC day are less than a day apart, and an
      instant exactly one day later is on the next day. */
  lemma UtcDayWindow(t: int, u: int)
    ensures UtcDay(t) == UtcDay(u) ==> -MsPerDay < t - u < MsPerDay
    ensures UtcDay(t + MsPerDay) == UtcDay(t) + 1
  {
  }

  // ---------------------------------------------------------------------------
  // GET /api/events/:id
  // ---------------------------------------------------------------------------

  /** `getEventById`: 200 with the event, or 404 "Event not found". */
  function GetEventById(s: Store, id: string): (r: Reply<Event>)
    ensures r.status == 404 <==> GetById(s, id).None?
    ensures r.status == 404 ==> !r.success && r.data.None? && r.error == Some(EventNotFound)
    ensures r.status != 404 ==> r.status == 200 && r.success && r.data == GetById(s, id)
  {
    match GetById(s, id)
    case None => ErrorReply(404, EventNotFound)
    case Some(e) => Reply(200, true, Some(e), None, None, [])
  }

  /** `GET /api/events/:id`: `validateEventId` and then `getEventById`. */
  function GetEventRoute(s: Store, id: string): (r: Reply<Event>)
    ensures IsBlank(id) ==> r.status == 400 && r.error == Some(InvalidEventId) && r.data.None?
    ensures !IsBlank(id) ==> r == GetEventById(s, id)
  {
    match ValidateEventId(id)
    case Reject(status, error, details) => Reply(status, false, None, None, Some(error), details)
    case Next => GetEventById(s, id)
  }

  /** What `POST` stores, `GET /:id` returns. */
  lemma PostThenGet(s: Store, b: RequestBody, now: int, parseDate: string -> Option<int>, id: string, createdAt: string)
    requires s.Valid() && Errors(b, now, parseDate) == []
    ensures var (s', reply) := PostEvent(s, b, now, parseDate, id, createdAt);
            GetEventById(s', id).status == 200 && GetEventById(s', id).data == reply.data
  {
  }
}

=== FILE: event_storage.dfy ===
/** The in-memory event store: a JavaScript `Map` from id to event, with the
    two linear-scan queries it offers. */
module EventStorage {
  import opened Wrappers
  import opened Text
  import opened Seqs
  import opened JsMap
  import opened Events

  type Store = OrderedMap<Event>

  /** A fresh, empty store. */
  function NewStore(): (s: Store)
    ensures s.Valid() && GetAll(s) == []
  {
    Empty()
  }

  /** `getAll()`: every stored event, in the order its id was first inserted. */
  function GetAll(s: Store): seq<Event>
    requires s.Valid()
  {
    Values(s)
  }

  /** `getById(id)`, with `None` for `undefined`. */
  function GetById(s: Store, id: string): Option<Event> {
    Get(s, id)
  }

  /** The number of stored events. */
  function Count(s: Store): nat {
    Size(s)
  }

  /** `create(event)`: stores the event under its own id and returns it. An
      event whose id is already present replaces the old one in place. */
  function Create(s: Store, e: Event): (r: (Store, Event))
    requires s.Valid()
    ensures r.0.Valid() && r.1 == e
    ensures GetById(r.0, e.id) == Some(e)
    ensures forall id :: id != e.id ==> GetById(r.0, id) == GetById(s, id)
    ensures Count(r.0) == if GetById(s, e.id).Some? then Count(s) else Count(s) + 1
  {
    (Set(s, e.id, e), e)
  }

  /** `update(id, partial)`: merges the partial record into the stored one. */
  function Update(s: Store, id: string, p: EventPatch): (r: (Store, Option<Event>))
    requires s.Valid()
    ensures r.0.Valid()
    ensures GetById(s, id).None? ==> r.0 == s && r.1 == None
    ensures GetById(s, id).Some? ==> r.1 == Some(Merge(GetById(s, id).value, p))
                                     && GetById(r.0, id) == r.1
                                     && Count(r.0) == Count(s)
    ensures forall other :: other != id ==> GetById(r.0, other) == GetById(s, other)
  {
    match GetById(s, id)
    case None => (s, None)
    case Some(e) =>
      var updated := Merge(e, p);
      (Set(s, id, updated), Some(updated))
  }

  /** `delete(id)`: reports whether an event was removed. */
  function Delete(s: Store, id: string): (r: (Store, bool))
    requires s.Valid()
    ensures r.0.Valid()
    ensures r.1 <==> GetById(s, id).Some?
    ensures GetById(r.0, id) == None
    ensures forall other :: other != id ==> GetById(r.0, other) == GetById(s, other)
    ensures Count(r.0) == if r.1 then Count(s) - 1 else Count(s)
  {
    JsMap.Delete(s, id)
  }

  /** `clear()`. */
  function Clear(s: Store): (r: Store)
    ensures r.Valid() && GetAll(r) == []
    ensures forall id :: GetById(r, id) == None
  {
    JsMap.Clear(s)
  }

  /** The event's location contains the query, both lower-cased. */
  predicate LocationMatches(e: Event, query: string) {
    Contains(ToLower(e.location), ToLower(query))
  }

  /** The event's title or description contains the query, all lower-cased. */
  predicate SearchMatches(e: Event, query: string) {
    || Contains(ToLower(e.title), ToLower(query))
    || Contains(ToLower(e.description), ToLower(query))
  }

  function MatchesLocation(location: string): Event -> bool {
    e => LocationMatches(e, location)
  }

  function MatchesSearch(query: string): Event -> bool {
    e => SearchMatches(e, query)
  }

  /** `filterByLocation(location)`. */
  function FilterByLocation(s: Store, location: string): (r: seq<Event>)
    requires s.Valid()
    ensures forall e :: e in r <==> e in GetAll(s) && LocationMatches(e, location)
    ensures forall e :: multiset(r)[e] == if LocationMatches(e, location) then multiset(GetAll(s))[e] else 0
  {
    FilterSpec(GetAll(s), MatchesLocation(location));
    Filter(GetAll(s), MatchesLocation(location))
  }

  /** `search(query)`. */
  function Search(s: Store, query: string): (r: seq<Event>)
    requires s.Valid()
    ensures forall e :: e in r <==> e in GetAll(s) && SearchMatches(e, query)
    ensures forall e :: multiset(r)[e] == if SearchMatches(e, query) then multiset(GetAll(s))[e] else 0
  {
    FilterSpec(GetAll(s), MatchesSearch(query));
    Filter(GetAll(s), MatchesSearch(query))
  }

  // ---------------------------------------------------------------------------
  // Properties relating several operations
  // ---------------------------------------------------------------------------

  /** Creating an event with a new id appends it to `getAll()`; the events
      already there keep their order. */
  lemma CreateFreshAppends(s: Store, e: Event)
    requires s.Valid() && GetById(s, e.id).None?
    ensures GetAll(Create(s, e).0) == GetAll(s) + [e]
  {
    SetFreshValues(s, e.id, e);
  }

  /** Creating an event with an id already present replaces the old event at
      its position in `getAll()`, so the listing neither grows nor reorders. */
  lemma CreateExistingReplaces(s: Store, e: Event)
    requires s.Valid() && GetById(s, e.id).Some?
    ensures exists i :: 0 <= i < Count(s) && s.keys[i] == e.id
                        && GetAll(Create(s, e).0) == GetAll(s)[i := e]
  {
    SetExistingValues(s, e.id, e);
    var i :| 0 <= i < Size(s) && s.keys[i] == e.id && Values(Set(s, e.id, e)) == Values(s)[i := e];
    assert GetAll(Create(s, e).0) == GetAll(s)[i := e];
  }

  /** Each field of an updated event is the partial's value where the partial
      has one, and the old value otherwise. */
  lemma UpdateOverridesFields(s: Store, id: string, p: EventPatch)
    requires s.Valid() && GetById(s, id).Some?
    ensures var old_ := GetById(s, id).value;
            var new_ := Update(s, id, p).1.value;
            && new_.id == (if p.id.Some? then p.id.value else old_.id)
            && new_.title == (if p.title.Some? then p.title.value else old_.title)
            && new_.description == (if p.description.Some? then p.description.value else old_.description)
            && new_.location == (if p.location.Some? then p.location.value else old_.location)
            && new_.date == (if p.date.Some? then p.date.value else old_.date)
            && new_.maxParticipants == (if p.maxParticipants.Some? then p.maxParticipants.value else old_.maxParticipants)
            && new_.currentParticipants == (if p.currentParticipants.Some? then p.currentParticipants.value else old_.currentParticipants)
            && new_.createdAt == (if p.createdAt.Some? then p.createdAt.value else old_.createdAt)
  {
  }

  /** An event found by `getById` is among `getAll()`, and every event of
      `getAll()` is found under some id. */
  lemma GetByIdInGetAll(s: Store, id: string)
    requires s.Valid()
    ensures GetById(s, id).Some? ==> GetById(s, id).value in GetAll(s)
    ensures forall e :: e in GetAll(s) ==> exists k :: GetById(s, k) == Some(e)
  {
    var all := Values(s);
    forall e | e in GetAll(s)
      ensures exists k :: GetById(s, k) == Some(e)
    {
      var i :| 0 <= i < |all| && all[i] == e;
      var k :| Get(s, k) == Some(all[i]);
      assert GetById(s, k) == Some(e);
    }
  }

  /** Deleting an id that was just created gives back the store's contents
      before the creation, when the id was new. */
  lemma CreateThenDelete(s: Store, e: Event, id: string)
    requires s.Valid() && GetById(s, e.id).None?
    ensures GetById(Delete(Create(s, e).0, e.id).0, id) == GetById(s, id)
  {
  }

  /** The location filter keeps store order: an event created under a new id
      comes last in its output, exactly when it matches. */
  lemma FilterByLocationCreateFresh(s: Store, e: Event, location: string)
    requires s.Valid() && GetById(s, e.id).None?
    ensures FilterByLocation(Create(s, e).0, location)
            == FilterByLocation(s, location) + (if LocationMatches(e, location) then [e] else [])
  {
    CreateFreshAppends(s, e);
    FilterSnoc(GetAll(s), e, MatchesLocation(location));
  }

  /** The search keeps store order: an event created under a new id comes last
      in its output, exactly when it matches. */
  lemma SearchCreateFresh(s: Store, e: Event, query: string)
    requires s.Valid() && GetById(s, e.id).None?
    ensures Search(Create(s, e).0, query)
            == Search(s, query) + (if SearchMatches(e, query) then [e] else [])
  {
    CreateFreshAppends(s, e);
    FilterSnoc(GetAll(s), e, MatchesSearch(query));
  }
}

=== FILE: events.dfy ===
/** The records the event API stores and exchanges. */
module Events {
  import opened Wrappers
  import opened JsValues

  /** A stored event. `date` and `createdAt` are ISO 8601 strings as the
      client sent them or as `toISOString` wrote them. */
  datatype Event = Event(
    id: string,
    title: string,
    description: string,
    location: string,
    date: string,
    maxParticipants: int,
    currentParticipants: int,
    createdAt: string)

  /** A creation payload once validation has vouched for its field types. */
  datatype CreateEventDTO = CreateEventDTO(
    title: string,
    description: string,
    location: string,
    date: string,
    maxParticipants: int,
    currentParticipants: Option<int>)

  /** The raw JSON body of a creation request, field by field. */
  datatype RequestBody = RequestBody(
    title: Value,
    description: Value,
    location: Value,
    date: Value,
    maxParticipants: Value,
    currentParticipants: Value)

  /** The optional query-string filters of the list route. */
  datatype EventQuery = EventQuery(location: Option<string>, search: Option<string>, date: Option<string>)

  /** A `Partial<Event>`: the fields present in an update. */
  datatype EventPatch = EventPatch(
    id: Option<string>,
    title: Option<string>,
    description: Option<string>,
    location: Option<string>,
    date: Option<string>,
    maxParticipants: Option<int>,
    currentParticipants: Option<int>,
    createdAt: Option<string>)

  /** `{ ...e, ...p }`: every field present in the patch overrides the record's. */
  function Merge(e: Event, p: EventPatch): Event {
    Event(
      p.id.GetOr(e.id),
      p.title.GetOr(e.title),
      p.description.GetOr(e.description),
      p.location.GetOr(e.location),
      p.date.GetOr(e.date),
      p.maxParticipants.GetOr(e.maxParticipants),
      p.currentParticipants.GetOr(e.currentParticipants),
      p.createdAt.GetOr(e.createdAt))
  }

  /** The uniform response envelope `{ success, data?, message?, error?, details? }`
      together with its HTTP status. */
  datatype Reply<T> = Reply(
    status: int,
    success: bool,
    data: Option<T>,
    message: Option<string>,
    error: Option<string>,
    details: seq<string>)

  /** `res.status(status).json({ success: false, error })`. */
  function ErrorReply<T>(status: int, error: string): (r: Reply<T>)
    ensures !r.success && r.data.None? && r.error == Some(error) && r.status == status
  {
    Reply(status, false, None, None, Some(error), [])
  }
}

=== FILE: helpers.dfy ===
/** The pure helpers of the web client: capacity checks, the city lookup
    behind the map view, and the value layout of a `datetime-local` input. */
module Helpers {
  import opened Wrappers
  import opened Text
  import opened JsValues

  // ---------------------------------------------------------------------------
  // Capacity
  // ---------------------------------------------------------------------------

  /** `isEventFull(c, m)`: no seat is left. */
  predicate IsEventFull(c: int, m: int) {
    c >= m
  }

  /** `Math.round(x)`: the nearest integer, halves rounded up. */
  function Round(x: real): (r: int)
    ensures x - 0.5 < r as real <= x + 0.5
  {
    (x + 0.5).Floor
  }

  /** `Math.round(c / m * 100)`. Dividing by a zero capacity gives an infinity
      of the sign of `c`, or NaN for 0 / 0, and rounding keeps those. */
  function AvailabilityPercentage(c: int, m: int): (r: Number)
    ensures m != 0 <==> r.Finite?
    ensures m == 0 ==> (r == PosInf <==> c > 0) && (r == NegInf <==> c < 0) && (r == NaN <==> c == 0)
    ensures m != 0 ==> -0.5 < r.x - (c as real) * 100.0 / (m as real) <= 0.5
    ensures m != 0 ==> r.x == r.x.Floor as real
  {
    if m == 0 then (if c > 0 then PosInf else if c < 0 then NegInf else NaN)
    else
      var q := (c as real) / (m as real) * 100.0;
      assert q == (c as real) * 100.0 / (m as real);
      Finite(Round(q) as real)
  }

  /** The exact ratio as a percentage. */
  function Ratio(c: int, m: int): real
    requires m > 0
  {
    (c as real) * 100.0 / (m as real)
  }

  lemma RatioBounds(c: int, m: int)
    requires 0 <= c <= m && m >= 1
    ensures 0.0 <= Ratio(c, m) <= 100.0
    ensures c == 0 ==> Ratio(c, m) == 0.0
    ensures c == m ==> Ratio(c, m) == 100.0
  {
    var mr := m as real;
    assert Ratio(c, m) * mr == (c as real) * 100.0;
    assert (c as real) * 100.0 <= mr * 100.0;
  }

  lemma RatioMonotone(c1: int, c2: int, m: int)
    requires c1 <= c2 && m >= 1
    ensures Ratio(c1, m) <= Ratio(c2, m)
  {
    var mr := m as real;
    assert Ratio(c1, m) * mr == (c1 as real) * 100.0;
    assert Ratio(c2, m) * mr == (c2 as real) * 100.0;
    assert (c1 as real) * 100.0 <= (c2 as real) * 100.0;
  }

  lemma FloorMonotone(x: real, y: real)
    requires x <= y
    ensures x.Floor <= y.Floor
  {
  }

  /** For an attendance within capacity the percentage is a whole number from
      0 to 100; it is 0 for an empty event, 100 for a full one, and never
      drops as attendance grows. */
  lemma PercentageInRange(c: int, c2: int, m: int)
    requires 0 <= c <= c2 <= m && m >= 1
    ensures var r := AvailabilityPercentage(c, m);
            r.Finite? && 0.0 <= r.x <= 100.0 && r.x == r.x.Floor as real
    ensures c == 0 ==> AvailabilityPercentage(c, m) == Finite(0.0)
    ensures c == m ==> AvailabilityPercentage(c, m) == Finite(100.0)
    ensures AvailabilityPercentage(c, m).x <= AvailabilityPercentage(c2, m).x
  {
    RatioBounds(c, m);
    RatioMonotone(c, c2, m);
    var q1 := (c as real) / (m as real) * 100.0;
    var q2 := (c2 as real) / (m as real) * 100.0;
    assert q1 == Ratio(c, m) && q2 == Ratio(c2, m);
    FloorMonotone(q1 + 0.5, q2 + 0.5);
    FloorMonotone(q1 + 0.5, 100.5);
    FloorMonotone(0.5, q1 + 0.5);
  }

  /** A full event always shows at least 100 percent. */
  lemma FullShowsHundred(c: int, m: int)
    requires m >= 1 && IsEventFull(c, m)
    ensures AvailabilityPercentage(c, m).x >= 100.0
  {
    var q := (c as real) / (m as real) * 100.0;
    assert q == Ratio(c, m);
    RatioMonotone(m, c, m);
    RatioBounds(m, m);
    FloorMonotone(100.5, q + 0.5);
  }

  /** The converse fails: 199 of 200 seats rounds to 100 percent while a seat
      is still free. */
  lemma HundredPercentNotFull()
    ensures AvailabilityPercentage(199, 200) == Finite(100.0)
    ensures !IsEventFull(199, 200)
  {
    var q := (199 as real) / (200 as real) * 100.0;
    assert q == 99.5;
  }

  // ---------------------------------------------------------------------------
  // City lookup
  // ---------------------------------------------------------------------------

  /** The keys of the city table, in declaration order. */
  const CityKeys: seq<string> := [
    "new york", "los angeles", "chicago", "san francisco", "seattle", "boston",
    "austin", "denver", "miami", "portland",
    "mumbai", "new delhi", "delhi", "bengaluru", "bangalore", "hyderabad",
    "chennai", "kolkata", "pune"]

  /** The index of the first key, from `from` on, that occurs in `text`. */
  function FirstMatch(keys: seq<string>, text: string, from: nat): (r: Option<nat>)
    requires from <= |keys|
    ensures r.Some? ==> from <= r.value < |keys| && Contains(text, keys[r.value])
    ensures r.Some? ==> forall j :: from <= j < r.value ==> !Contains(text, keys[j])
    ensures r.None? ==> forall j :: from <= j < |keys| ==> !Contains(text, keys[j])
    decreases |keys| - from
  {
    if from == |keys| then None
    else if Contains(text, keys[from]) then Some(from)
    else FirstMatch(keys, text, from + 1)
  }

  /** `geocodeLocation(location)`, reduced to the table key it resolves to:
      the first key contained in the lower-cased, trimmed input, or none. */
  function GeocodeLocation(location: string): (r: Option<string>)
    ensures r.Some? <==> SomeKeyOccurs(CityKeys, Trim(ToLower(location)))
    ensures r.Some? ==> IsFirstKey(CityKeys, Trim(ToLower(location)), r.value)
  {
    FirstKey(CityKeys, Trim(ToLower(location)))
  }

  /** Some key of the table occurs in `text`. */
  predicate SomeKeyOccurs(keys: seq<string>, text: string) {
    exists j :: 0 <= j < |keys| && Contains(text, keys[j])
  }

  /** `k` is the first key, in table order, that occurs in `text`. */
  predicate IsFirstKey(keys: seq<string>, text: string, k: string) {
    exists j :: 0 <= j < |keys| && k == keys[j] && Contains(text, keys[j])
                && forall i :: 0 <= i < j ==> !Contains(text, keys[i])
  }

  /** The first of `keys` that occurs in `text`, if any. */
  function FirstKey(keys: seq<string>, text: string): (r: Option<string>)
    ensures r.Some? <==> SomeKeyOccurs(keys, text)
    ensures r.Some? ==> IsFirstKey(keys, text, r.value)
  {
    match FirstMatch(keys, text, 0)
    case None =>
      assert forall j :: 0 <= j < |keys| ==> !Contains(text, keys[j]);
      None
    case Some(j) =>
      assert 0 <= j < |keys| && Contains(text, keys[j]);
      Some(keys[j])
  }

  /** A key that occurs bounds the index of the first match. */
  lemma FirstMatchAtMost(keys: seq<string>, text: string, from: nat, k: nat)
    requires from <= k < |keys| && Contains(text, keys[k])
    ensures FirstMatch(keys, text, from).Some? && FirstMatch(keys, text, from).value <= k
  {
  }

  /** "delhi" sits at index 12 and nowhere before it. */
  lemma DelhiIndex(j: nat)
    requires j < |CityKeys| && CityKeys[j] == "delhi"
    ensures j >= 12
  {
  }

  lemma NewDelhiIndex()
    ensures |CityKeys| == 19 && CityKeys[11] == "new delhi"
  {
  }

  /** An input naming "new delhi" never resolves to the later, shorter
      "delhi" key: the lookup stops at "new delhi" or at an earlier city. */
  lemma NewDelhiShadowsDelhi(location: string)
    requires Contains(Trim(ToLower(location)), "new delhi")
    ensures GeocodeLocation(location).Some?
    ensures GeocodeLocation(location) != Some("delhi")
  {
    var text := Trim(ToLower(location));
    NewDelhiIndex();
    FirstMatchAtMost(CityKeys, text, 0, 11);
    var j := FirstMatch(CityKeys, text, 0).value;
    assert GeocodeLocation(location) == Some(CityKeys[j]);
    if CityKeys[j] == "delhi" {
      DelhiIndex(j);
    }
  }

  /** Any later key is shadowed by an earlier one it contains: "delhi" is
      reported only when "new delhi" does not occur. */
  lemma DelhiOnlyWithoutNewDelhi(location: string)
    requires GeocodeLocation(location) == Some("delhi")
    ensures !Contains(Trim(ToLower(location)), "new delhi")
  {
    if Contains(Trim(ToLower(location)), "new delhi") {
      NewDelhiShadowsDelhi(location);
    }
  }

  // ---------------------------------------------------------------------------
  // datetime-local values
  // ---------------------------------------------------------------------------

  /** The local calendar fields `getFullYear`, `getMonth`, `getDate`,
      `getHours` and `getMinutes` read from a valid `Date`. */
  datatype LocalTime = LocalTime(year: int, month: nat, day: nat, hours: nat, minutes: nat)

  predicate InRange(t: LocalTime) {
    t.month < 12 && 1 <= t.day <= 31 && t.hours < 24 && t.minutes < 60
  }

  /** The text an Invalid Date produces: every getter is NaN, and "NaN" is
      already longer than the padding width. */
  const InvalidInput := "NaN-NaN-NaNTNaN:NaN"

  /** `YYYY-MM-DDTHH:mm` from valid local fields. */
  function Layout(t: LocalTime): (r: string)
    requires InRange(t)
    ensures |r| == |IntToString(t.year)| + 12
  {
    IntToString(t.year) + "-" + PadTwo(t.month + 1) + "-" + PadTwo(t.day)
      + "T" + PadTwo(t.hours) + ":" + PadTwo(t.minutes)
  }

  /** `formatDateForInput(dateString)`: an empty or missing argument means the
      current time `now`; otherwise `localTime` reads the argument's local
      fields, `None` standing for an Invalid Date. */
  function FormatDateForInput(dateString: Option<string>, now: LocalTime,
                              localTime: string -> Option<LocalTime>): (r: string)
    requires InRange(now)
    requires forall s :: localTime(s).Some? ==> InRange(localTime(s).value)
    ensures (dateString.None? || dateString.value == []) ==> r == Layout(now)
    ensures dateString.Some? && dateString.value != [] && localTime(dateString.value).None? ==> r == InvalidInput
    ensures dateString.Some? && dateString.value != [] && localTime(dateString.value).Some? ==>
              r == Layout(localTime(dateString.value).value)
  {
    if dateString.None? || dateString.value == [] then Layout(now)
    else
      match localTime(dateString.value)
      case None => InvalidInput
      case Some(t) => Layout(t)
  }

  /** The fixed-width tail of the layout, for any year text. */
  lemma LayoutSlices(r: string, y: string, mo: string, d: string, h: string, mi: string)
    requires |mo| == 2 && |d| == 2 && |h| == 2 && |mi| == 2
    requires r == y + "-" + mo + "-" + d + "T" + h + ":" + mi
    ensures var n := |r|;
            && n == |y| + 12
            && r[..n - 12] == y && r[n - 12] == '-' && r[n - 11..n - 9] == mo
            && r[n - 9] == '-' && r[n - 8..n - 6] == d && r[n - 6] == 'T'
            && r[n - 5..n - 3] == h && r[n - 3] == ':' && r[n - 2..] == mi
  {
  }

  /** Reading the layout back: the year is the text before the last twelve
      characters, and each two-digit field, at its fixed offset from the end,
      holds the value it was built from. */
  lemma LayoutDecodes(t: LocalTime)
    requires InRange(t)
    ensures var r := Layout(t);
            var n := |r|;
            && ParseInt(r[..n - 12]) == Some(t.year)
            && r[n - 12] == '-' && r[n - 9] == '-' && r[n - 6] == 'T' && r[n - 3] == ':'
            && AllDigits(r[n - 11..n - 9], 10) && DigitsValue(r[n - 11..n - 9], 10) == t.month + 1
            && AllDigits(r[n - 8..n - 6], 10) && DigitsValue(r[n - 8..n - 6], 10) == t.day
            && AllDigits(r[n - 5..n - 3], 10) && DigitsValue(r[n - 5..n - 3], 10) == t.hours
            && AllDigits(r[n - 2..], 10) && DigitsValue(r[n - 2..], 10) == t.minutes
  {
    var r := Layout(t);
    var y, mo, d, h, mi := IntToString(t.year), PadTwo(t.month + 1), PadTwo(t.day), PadTwo(t.hours), PadTwo(t.minutes);
    LayoutSlices(r, y, mo, d, h, mi);
    ParseIntOfIntToString(t.year);
    assert AllDigits(mo, 10) && DigitsValue(mo, 10) == t.month + 1;
    assert AllDigits(d, 10) && DigitsValue(d, 10) == t.day;
    assert AllDigits(h, 10) && DigitsValue(h, 10) == t.hours;
    assert AllDigits(mi, 10) && DigitsValue(mi, 10) == t.minutes;
  }
}

=== FILE: jsmap.dfy ===
/** A JavaScript `Map<string, V>`: a finite map that remembers the order in
    which its keys were first inserted, which is the order `values()` yields. */
module JsMap {
  import opened Wrappers

  datatype OrderedMap<V> = OrderedMap(keys: seq<string>, entries: map<string, V>) {

    /** The key list has no duplicates and lists exactly the stored keys. */
    ghost predicate Valid() {
      && (forall i, j :: 0 <= i < j < |keys| ==> keys[i] != keys[j])
      && (forall k :: k in entries <==> k in keys)
    }
  }

  /** `new Map()`. */
  function Empty<V>(): (m: OrderedMap<V>)
    ensures m.Valid() && Size(m) == 0
    ensures forall k :: Get(m, k) == None
  {
    OrderedMap([], map[])
  }

  /** `m.size`. */
  function Size<V>(m: OrderedMap<V>): nat {
    |m.keys|
  }

  /** `m.get(k)`, with `None` for `undefined`. */
  function Get<V>(m: OrderedMap<V>, k: string): Option<V> {
    if k in m.entries then Some(m.entries[k]) else None
  }

  /** `m.set(k, v)`: a new key goes to the end; an existing key keeps its place. */
  function Set<V>(m: OrderedMap<V>, k: string, v: V): (r: OrderedMap<V>)
    requires m.Valid()
    ensures r.Valid()
    ensures Get(r, k) == Some(v)
    ensures forall k' :: k' != k ==> Get(r, k') == Get(m, k')
    ensures Size(r) == if Get(m, k).Some? then Size(m) else Size(m) + 1
  {
    if k in m.entries then OrderedMap(m.keys, m.entries[k := v])
    else OrderedMap(m.keys + [k], m.entries[k := v])
  }

  /** The key list with `k` removed. */
  function RemoveKey(keys: seq<string>, k: string): (r: seq<string>)
    ensures forall x :: x in r <==> x in keys && x != k
    ensures |r| <= |keys|
  {
    if |keys| == 0 then []
    else if keys[0] == k then RemoveKey(keys[1..], k)
    else [keys[0]] + RemoveKey(keys[1..], k)
  }

  lemma {:induction false} RemoveKeyDistinct(keys: seq<string>, k: string)
    requires forall i, j :: 0 <= i < j < |keys| ==> keys[i] != keys[j]
    ensures var r := RemoveKey(keys, k);
            && (forall i, j :: 0 <= i < j < |r| ==> r[i] != r[j])
            && |r| == if k in keys then |keys| - 1 else |keys|
  {
    if |keys| > 0 {
      assert forall x :: x in keys[1..] ==> x != keys[0];
      RemoveKeyDistinct(keys[1..], k);
      var rest := RemoveKey(keys[1..], k);
      assert keys[0] !in rest;
    }
  }

  /** `m.delete(k)`: reports whether `k` was present and removes it. */
  function Delete<V>(m: OrderedMap<V>, k: string): (r: (OrderedMap<V>, bool))
    requires m.Valid()
    ensures r.0.Valid()
    ensures r.1 <==> Get(m, k).Some?
    ensures Get(r.0, k) == None
    ensures forall k' :: k' != k ==> Get(r.0, k') == Get(m, k')
    ensures Size(r.0) == if r.1 then Size(m) - 1 else Size(m)
  {
    RemoveKeyDistinct(m.keys, k);
    (OrderedMap(RemoveKey(m.keys, k), m.entries - {k}), k in m.entries)
  }

  /** `Array.from(m.values())`: the stored values in key-insertion order. */
  function Values<V>(m: OrderedMap<V>): (r: seq<V>)
    requires m.Valid()
    ensures |r| == Size(m)
    ensures forall k :: Get(m, k).Some? ==> Get(m, k).value in r
    ensures forall i :: 0 <= i < |r| ==> exists k :: Get(m, k) == Some(r[i])
  {
    var r := seq(|m.keys|, i requires 0 <= i < |m.keys| => m.entries[m.keys[i]]);
    assert forall k :: k in m.entries ==> exists i :: 0 <= i < |m.keys| && m.keys[i] == k;
    assert forall i :: 0 <= i < |r| ==> Get(m, m.keys[i]) == Some(r[i]);
    r
  }

  /** `m.clear()`. */
  function Clear<V>(m: OrderedMap<V>): (r: OrderedMap<V>)
    ensures r.Valid() && Size(r) == 0
    ensures forall k :: Get(r, k) == None
  {
    Empty()
  }

  /** Setting a new key appends its value to `values()`; the others keep their order. */
  lemma SetFreshValues<V>(m: OrderedMap<V>, k: string, v: V)
    requires m.Valid() && Get(m, k) == None
    ensures Values(Set(m, k, v)) == Values(m) + [v]
  {
  }

  /** Setting an existing key replaces its value in place in `values()`. */
  lemma SetExistingValues<V>(m: OrderedMap<V>, k: string, v: V)
    requires m.Valid() && Get(m, k).Some?
    ensures exists i :: 0 <= i < Size(m) && m.keys[i] == k
                        && Values(Set(m, k, v)) == Values(m)[i := v]
  {
    var i :| 0 <= i < |m.keys| && m.keys[i] == k;
    assert Values(Set(m, k, v)) == Values(m)[i := v];
  }

  /** Setting a sequence of distinct new keys one after another appends their
      values in that order. */
  lemma {:induction false} SetAllFreshValues<V>(m: OrderedMap<V>, ks: seq<string>, vs: seq<V>)
    requires m.Valid() && |ks| == |vs|
    requires forall i :: 0 <= i < |ks| ==> Get(m, ks[i]) == None
    requires forall i, j :: 0 <= i < j < |ks| ==> ks[i] != ks[j]
    ensures SetAll(m, ks, vs).Valid()
    ensures Values(SetAll(m, ks, vs)) == Values(m) + vs
    decreases |ks|
  {
    if |ks| > 0 {
      var m1 := Set(m, ks[0], vs[0]);
      SetFreshValues(m, ks[0], vs[0]);
      var ks', vs' := ks[1..], vs[1..];
      forall i | 0 <= i < |ks'|
        ensures Get(m1, ks'[i]) == None
      {
        assert ks'[i] == ks[i + 1] && ks[i + 1] != ks[0];
      }
      forall i, j | 0 <= i < j < |ks'|
        ensures ks'[i] != ks'[j]
      {
        assert ks'[i] == ks[i + 1] && ks'[j] == ks[j + 1];
      }
      SetAllFreshValues(m1, ks', vs');
      assert SetAll(m, ks, vs) == SetAll(m1, ks', vs');
      assert vs == [vs[0]] + vs';
      assert Values(m) + [vs[0]] + vs[1..] == Values(m) + vs;
    }
  }

  /** Filling an empty map with distinct keys lists exactly the given values. */
  lemma SetAllEmptyValues<V>(m: OrderedMap<V>, ks: seq<string>, vs: seq<V>)
    requires m.Valid() && Size(m) == 0 && |ks| == |vs|
    requires forall i, j :: 0 <= i < j < |ks| ==> ks[i] != ks[j]
    ensures Values(SetAll(m, ks, vs)) == vs
  {
    assert m.keys == [];
    assert forall k :: Get(m, k) == None;
    SetAllFreshValues(m, ks, vs);
    assert Values(m) == [];
  }

  /** `ks.forEach((k, i) => m.set(k, vs[i]))`. */
  function SetAll<V>(m: OrderedMap<V>, ks: seq<string>, vs: seq<V>): (r: OrderedMap<V>)
    requires m.Valid() && |ks| == |vs|
    ensures r.Valid()
    ensures Size(r) >= Size(m)
    ensures |ks| > 0 ==> Size(r) > 0
    decreases |ks|
  {
    if |ks| == 0 then m else SetAll(Set(m, ks[0], vs[0]), ks[1..], vs[1..])
  }
}

=== FILE: jsvalues.dfy ===
/** The JavaScript values a JSON request body can carry, and the numeric
    conversions the event code applies to them: truthiness, `Number(v)`,
    `Number.isInteger`, `parseInt`, and the decimal text of an integer. */
module JsValues {
  import opened Wrappers
  import opened Text

  /** A field of a parsed JSON body. `Undefined` is a missing field; `Object`
      stands for any non-array object. Numbers are exact reals. */
  datatype Value = Undefined | Null | Bool(b: bool) | Num(x: real) | Str(s: string) | Object

  /** A JavaScript number, with its three non-finite values. */
  datatype Number = NaN | PosInf | NegInf | Finite(x: real)

  /** `!!v`. */
  predicate Truthy(v: Value) {
    match v
    case Undefined => false
    case Null => false
    case Bool(b) => b
    case Num(x) => x != 0.0
    case Str(s) => s != []
    case Object => true
  }

  /** `Number.isInteger(v)`. */
  predicate IsInteger(v: Value) {
    v.Num? && v.x == v.x.Floor as real
  }

  /** `a < b` on numbers: false whenever either side is NaN. */
  predicate Less(a: Number, b: Number) {
    match (a, b)
    case (Finite(x), Finite(y)) => x < y
    case (NegInf, Finite(_)) => true
    case (NegInf, PosInf) => true
    case (Finite(_), PosInf) => true
    case _ => false
  }

  /** `Number(v)`, the conversion `<` and `>` apply when one side is a number.
      An object converts through its string form "[object Object]", which is NaN. */
  function ToNumber(v: Value): Number {
    match v
    case Undefined => NaN
    case Null => Finite(0.0)
    case Bool(b) => Finite(if b then 1.0 else 0.0)
    case Num(x) => Finite(x)
    case Str(s) => StringToNumber(s)
    case Object => NaN
  }

  // ---------------------------------------------------------------------------
  // Digits
  // ---------------------------------------------------------------------------

  /** The value of `c` as a digit in `base` (2, 8, 10 or 16), if it is one. */
  function DigitValue(c: char, base: nat): Option<nat> {
    var d :=
      if '0' <= c <= '9' then (c as int - '0' as int)
      else if 'a' <= c <= 'z' then (c as int - 'a' as int + 10)
      else if 'A' <= c <= 'Z' then (c as int - 'A' as int + 10)
      else 99;
    if d < base then Some(d as nat) else None
  }

  predicate AllDigits(s: string, base: nat) {
    forall i :: 0 <= i < |s| ==> DigitValue(s[i], base).Some?
  }

  /** The number of leading characters of `s` that are digits in `base`. */
  function DigitSpan(s: string, base: nat): (n: nat)
    ensures n <= |s| && AllDigits(s[..n], base)
    ensures n < |s| ==> DigitValue(s[n], base).None?
  {
    if |s| == 0 || DigitValue(s[0], base).None? then 0
    else
      var n := 1 + DigitSpan(s[1..], base);
      assert forall i :: 1 <= i < n ==> s[..n][i] == s[1..][..n - 1][i - 1];
      n
  }

  /** The value of a string of digits in `base`, most significant first. */
  function DigitsValue(s: string, base: nat): nat
    requires AllDigits(s, base)
  {
    if |s| == 0 then 0
    else DigitsValue(s[..|s| - 1], base) * base + DigitValue(s[|s| - 1], base).value
  }

  function Pow10(n: nat): (r: nat)
    ensures r >= 1
  {
    if n == 0 then 1 else 10 * Pow10(n - 1)
  }

  // ---------------------------------------------------------------------------
  // Number(string)
  // ---------------------------------------------------------------------------

  /** `Number(s)`: whitespace around the literal is ignored, a blank string is 0,
      and anything that is not a whole numeric literal is NaN. */
  function StringToNumber(s: string): Number {
    LiteralValue(Trim(s))
  }

  /** The value of a trimmed StringNumericLiteral. */
  function LiteralValue(t: string): Number {
    if t == [] then Finite(0.0)
    else if |t| > 2 && t[0] == '0' && t[1] in "xXoObB" then
      var base := if t[1] in "xX" then 16 else if t[1] in "oO" then 8 else 2;
      if AllDigits(t[2..], base) then Finite(DigitsValue(t[2..], base) as real) else NaN
    else
      var neg := t[0] == '-';
      var u := if t[0] == '-' || t[0] == '+' then t[1..] else t;
      match UnsignedDecimal(u)
      case None => NaN
      case Some(n) => if neg then Negate(n) else n
  }

  function Negate(n: Number): Number {
    match n
    case NaN => NaN
    case PosInf => NegInf
    case NegInf => PosInf
    case Finite(x) => Finite(-x)
  }

  /** A StrUnsignedDecimalLiteral: "Infinity", or digits with an optional
      fraction and an optional exponent, with at least one digit before the exponent. */
  function UnsignedDecimal(u: string): Option<Number> {
    if u == "Infinity" then Some(PosInf)
    else
      var a := DigitSpan(u, 10);
      FractionAndExponent(u[..a], u[a..])
  }

  /** The part of a decimal literal after its integer digits. */
  function FractionAndExponent(intDigits: string, tail: string): Option<Number>
    requires AllDigits(intDigits, 10)
  {
    var hasDot := |tail| > 0 && tail[0] == '.';
    var afterDot := if hasDot then tail[1..] else tail;
    var f := if hasDot then DigitSpan(afterDot, 10) else 0;
    if |intDigits| + f == 0 then None
    else
      match Exponent(afterDot[f..])
      case None => None
      case Some(e) => Some(Finite(Scale(Mantissa(intDigits, afterDot[..f]), e)))
  }

  /** The value of `intDigits.fracDigits`. */
  function Mantissa(intDigits: string, fracDigits: string): real
    requires AllDigits(intDigits, 10) && AllDigits(fracDigits, 10)
  {
    DigitsValue(intDigits, 10) as real + DigitsValue(fracDigits, 10) as real / Pow10(|fracDigits|) as real
  }

  /** `m * 10^e`. */
  function Scale(m: real, e: int): real {
    if e >= 0 then m * Pow10(e) as real else m / Pow10(-e) as real
  }

  /** An optional ExponentPart that must consume the rest of the literal. */
  function Exponent(rest: string): Option<int> {
    if rest == [] then Some(0)
    else if rest[0] != 'e' && rest[0] != 'E' then None
    else
      var r := rest[1..];
      var neg := |r| > 0 && r[0] == '-';
      var ds := if |r| > 0 && (r[0] == '-' || r[0] == '+') then r[1..] else r;
      if ds == [] || !AllDigits(ds, 10) then None
      else
        var e: int := DigitsValue(ds, 10);
        Some(if neg then -e else e)
  }

  // ---------------------------------------------------------------------------
  // parseInt(string)
  // ---------------------------------------------------------------------------

  /** `parseInt(s)` with no radix: leading whitespace and one sign are skipped, a
      "0x" prefix selects base 16, and the longest run of digits is read; no
      digit at all gives NaN (`None`). */
  function ParseInt(s: string): Option<int> {
    var t := TrimStart(s);
    if |t| > 0 && t[0] == '-' then
      match ParseUnsigned(t[1..])
      case None => None
      case Some(v) => Some(-v)
    else if |t| > 0 && t[0] == '+' then ParseUnsigned(t[1..])
    else ParseUnsigned(t)
  }

  /** The digits after the sign: base 16 after "0x", base 10 otherwise. */
  function ParseUnsigned(u: string): Option<int> {
    if |u| >= 2 && u[0] == '0' && (u[1] == 'x' || u[1] == 'X') then LeadingNumber(u[2..], 16)
    else LeadingNumber(u, 10)
  }

  /** The value of the longest run of leading digits, or NaN when there is none. */
  function LeadingNumber(body: string, base: nat): Option<int> {
    var n := DigitSpan(body, base);
    if n == 0 then None else Some(DigitsValue(body[..n], base))
  }

  // ---------------------------------------------------------------------------
  // The decimal text of an integer (`String(n)` for |n| < 10^21)
  // ---------------------------------------------------------------------------

  function DigitChar(d: nat): (c: char)
    requires d < 10
    ensures DigitValue(c, 10) == Some(d)
  {
    ('0' as int + d) as char
  }

  /** The decimal digits of `n`, with no leading zero. */
  function NatToString(n: nat): (r: string)
    ensures |r| > 0 && AllDigits(r, 10)
    ensures |r| > 1 ==> r[0] != '0'
    ensures n < 10 ==> |r| == 1
    ensures 10 <= n < 100 ==> |r| == 2
  {
    if n < 10 then [DigitChar(n)]
    else
      var r := NatToString(n / 10) + [DigitChar(n % 10)];
      assert r[0] == NatToString(n / 10)[0];
      r
  }

  /** The decimal text of an integer `n`: what `String(n)` writes for |n| < 10^21,
      which covers every year, month, day and count the event code formats. */
  function IntToString(n: int): string {
    if n < 0 then "-" + NatToString(-n) else NatToString(n)
  }

  lemma {:induction false} NatToStringValue(n: nat)
    ensures DigitsValue(NatToString(n), 10) == n
  {
    if n >= 10 {
      var r := NatToString(n);
      NatToStringValue(n / 10);
      assert r[..|r| - 1] == NatToString(n / 10);
    }
  }

  /** The decimal digits of `|n|`, which the decimal text has after an optional minus. */
  function Magnitude(n: int): string {
    NatToString(if n < 0 then -n else n)
  }

  lemma IntToStringShape(n: int)
    ensures var s := IntToString(n);
            && |s| > 0 && !IsWhitespace(s[0]) && !IsWhitespace(s[|s| - 1])
            && s == (if n < 0 then "-" else "") + Magnitude(n)
  {
  }

  /** A string of decimal digits cannot start with a radix prefix such as "0x". */
  lemma NoRadixPrefix(d: string)
    requires |d| >= 2 && AllDigits(d, 10)
    ensures d[1] !in "xXoObB"
  {
    assert DigitValue(d[1], 10).Some?;
  }

  /** A run of digits is read whole. */
  lemma LeadingNumberAll(d: string, base: nat)
    requires |d| > 0 && AllDigits(d, base)
    ensures LeadingNumber(d, base) == Some(DigitsValue(d, base))
  {
    DigitSpanAll(d, base);
    assert d[..|d|] == d;
  }

  /** A digit string starts and ends with a digit, which is neither whitespace nor a sign. */
  lemma DigitEnds(d: string)
    requires |d| > 0 && AllDigits(d, 10)
    ensures !IsWhitespace(d[0]) && d[0] != '-' && d[0] != '+'
    ensures !IsWhitespace(d[|d| - 1])
  {
    assert DigitValue(d[0], 10).Some?;
    assert DigitValue(d[|d| - 1], 10).Some?;
  }

  lemma TrimUnchanged(s: string)
    requires |s| > 0 && !IsWhitespace(s[0]) && !IsWhitespace(s[|s| - 1])
    ensures TrimStart(s) == s && Trim(s) == s
  {
    assert TrimStart(s) == s;
    assert TrimEnd(s) == s;
  }

  /** `parseInt` of an integer's decimal text gives the integer back. */
  lemma ParseIntOfIntToString(n: int)
    ensures ParseInt(IntToString(n)) == Some(n)
  {
    if n < 0 {
      ParseIntNegative(-n);
    } else {
      ParseIntNonNegative(n);
    }
  }

  lemma ParseIntNegative(m: nat)
    requires m > 0
    ensures ParseInt("-" + NatToString(m)) == Some(-(m as int))
  {
    var d := NatToString(m);
    DigitEnds(d);
    TrimUnchanged("-" + d);
    assert ("-" + d)[1..] == d;
    ParseUnsignedDigits(m);
  }

  lemma ParseIntNonNegative(m: nat)
    ensures ParseInt(NatToString(m)) == Some(m)
  {
    NatToStringValue(m);
    ParseIntDigits(NatToString(m));
  }

  lemma ParseIntDigits(d: string)
    requires |d| > 0 && AllDigits(d, 10)
    ensures ParseInt(d) == Some(DigitsValue(d, 10))
  {
    DigitEnds(d);
    TrimUnchanged(d);
    ParseUnsignedOfDigits(d);
  }

  lemma ParseUnsignedOfDigits(d: string)
    requires |d| > 0 && AllDigits(d, 10)
    ensures ParseUnsigned(d) == Some(DigitsValue(d, 10))
  {
    if |d| >= 2 {
      NoRadixPrefix(d);
    }
    LeadingNumberAll(d, 10);
  }

  lemma ParseUnsignedDigits(m: nat)
    ensures ParseUnsigned(NatToString(m)) == Some(m)
  {
    NatToStringValue(m);
    ParseUnsignedOfDigits(NatToString(m));
  }

  /** `Number` of an integer's decimal text gives the integer back. */
  lemma StringToNumberOfIntToString(n: int)
    ensures StringToNumber(IntToString(n)) == Finite(n as real)
  {
    if n < 0 {
      var m: nat := -n;
      assert IntToString(n) == "-" + NatToString(m);
      NumberNegative(m);
      assert -(m as real) == n as real;
    } else {
      assert IntToString(n) == NatToString(n);
      NumberNonNegative(n);
    }
  }

  lemma NumberNegative(m: nat)
    requires m > 0
    ensures StringToNumber("-" + NatToString(m)) == Finite(-(m as real))
  {
    var d := NatToString(m);
    var s := "-" + d;
    NatToStringValue(m);
    SignedHasVisibleEnds(d, s);
    TrimUnchanged(s);
    assert StringToNumber(s) == LiteralValue(s);
    SignedDecimalOfDigits(s, d);
  }

  lemma SignedHasVisibleEnds(d: string, s: string)
    requires |d| > 0 && AllDigits(d, 10) && s == "-" + d
    ensures |s| > 0 && !IsWhitespace(s[0]) && !IsWhitespace(s[|s| - 1])
  {
    DigitEnds(d);
    assert s[|s| - 1] == d[|d| - 1];
  }

  lemma SignedDecimalOfDigits(s: string, d: string)
    requires |d| > 0 && AllDigits(d, 10) && s == "-" + d
    ensures LiteralValue(s) == Finite(-(DigitsValue(d, 10) as real))
  {
    DecimalOfDigits(d);
    assert s[1..] == d;
  }

  lemma NumberNonNegative(m: nat)
    ensures StringToNumber(NatToString(m)) == Finite(m as real)
  {
    NatToStringValue(m);
    NumberOfDigits(NatToString(m));
  }

  lemma NumberOfDigits(d: string)
    requires |d| > 0 && AllDigits(d, 10)
    ensures StringToNumber(d) == Finite(DigitsValue(d, 10) as real)
  {
    DigitEnds(d);
    TrimUnchanged(d);
    LiteralOfDigits(d);
  }

  lemma LiteralOfDigits(d: string)
    requires |d| > 0 && AllDigits(d, 10) && d[0] != '-' && d[0] != '+'
    ensures LiteralValue(d) == Finite(DigitsValue(d, 10) as real)
  {
    DecimalOfDigits(d);
    if |d| > 2 {
      NoRadixPrefix(d);
    }
  }

  /** A plain run of decimal digits reads as its integer value. */
  lemma DecimalOfDigits(d: string)
    requires |d| > 0 && AllDigits(d, 10)
    ensures UnsignedDecimal(d) == Some(Finite(DigitsValue(d, 10) as real))
  {
    DecimalIsIntegerPart(d);
    IntegerPartValue(d);
  }

  lemma DecimalIsIntegerPart(d: string)
    requires |d| > 0 && AllDigits(d, 10)
    ensures UnsignedDecimal(d) == FractionAndExponent(d, [])
  {
    assert d != "Infinity" by {
      assert DigitValue(d[0], 10).Some?;
      assert DigitValue('I', 10).None?;
    }
    DigitSpanAll(d, 10);
    assert d[..|d|] == d && d[|d|..] == [];
  }

  lemma IntegerPartValue(d: string)
    requires |d| > 0 && AllDigits(d, 10)
    ensures FractionAndExponent(d, []) == Some(Finite(DigitsValue(d, 10) as real))
  {
    var empty: string := [];
    assert empty[0..] == [] && empty[..0] == [];
    assert Exponent([]) == Some(0);
    assert FractionAndExponent(d, []) == Some(Finite(Scale(Mantissa(d, []), 0)));
    assert DigitsValue([], 10) == 0;
  }

  /** Text with no decimal digit parses to NaN, as `parseInt("abc")` does. */
  lemma ParseIntNoDigits(s: string)
    requires forall i :: 0 <= i < |s| ==> DigitValue(s[i], 10).None?
    ensures ParseInt(s) == None
  {
    var t := TrimStart(s);
    NoDigitsInSuffix(s, |s| - |t|);
    if |t| > 0 && (t[0] == '-' || t[0] == '+') {
      UnsignedNoDigits(t[1..]);
    } else {
      UnsignedNoDigits(t);
    }
  }

  lemma NoDigitsInSuffix(s: string, k: nat)
    requires k <= |s|
    requires forall i :: 0 <= i < |s| ==> DigitValue(s[i], 10).None?
    ensures forall i :: 0 <= i < |s[k..]| ==> DigitValue(s[k..][i], 10).None?
  {
    forall i | 0 <= i < |s[k..]|
      ensures DigitValue(s[k..][i], 10).None?
    {
      assert s[k..][i] == s[k + i];
    }
  }

  lemma UnsignedNoDigits(u: string)
    requires forall i :: 0 <= i < |u| ==> DigitValue(u[i], 10).None?
    ensures ParseUnsigned(u) == None
  {
    if |u| > 0 {
      assert u[0] != '0' by {
        assert DigitValue('0', 10).Some?;
      }
    }
  }

  lemma {:induction false} DigitSpanAll(s: string, base: nat)
    requires AllDigits(s, base)
    ensures DigitSpan(s, base) == |s|
  {
    if |s| > 0 {
      assert AllDigits(s[1..], base) by {
        assert forall i :: 0 <= i < |s| - 1 ==> s[1..][i] == s[i + 1];
      }
      DigitSpanAll(s[1..], base);
    }
  }

  /** `String(n).padStart(2, '0')` for a non-negative `n`. */
  function PadTwo(n: nat): (r: string)
    ensures |r| >= 2
    ensures n < 100 ==> |r| == 2 && AllDigits(r, 10) && DigitsValue(r, 10) == n
  {
    var s := NatToString(n);
    NatToStringValue(n);
    if |s| >= 2 then s
    else
      var r := "0" + s;
      assert r[..1] == "0" && r[1] == s[0];
      NatToStringValue(n);
      assert DigitsValue(s, 10) == n;
      r
  }
}

=== FILE: seed.dfy ===
/** The sample data `seedEvents` loads into an empty store at start-up. */
module Seed {
  import opened Wrappers
  import opened Text
  import opened Seqs
  import opened JsMap
  import opened Events
  import opened EventStorage
  import opened Validation
  import opened EventController

  /** One entry of the seed table: an event without id, date and timestamp,
      and how many days ahead of today it takes place. */
  datatype SeedSpec = SeedSpec(
    title: string,
    description: string,
    location: string,
    days: int,
    maxParticipants: int,
    currentParticipants: int)

  /** The seven seeds, in the order they are created. */
  const Seeds: seq<SeedSpec> := [
    SeedSpec("Mumbai Tech Meetup",
      "Join developers across Mumbai for lightning talks, networking, and chai. All levels welcome.",
      "Mumbai, India", 7, 150, 45),
    SeedSpec("Delhi Startup Pitch Night",
      "Early-stage founders pitch to mentors and VCs. Feedback, connections, and pizza included.",
      "New Delhi, India", 10, 120, 60),
    SeedSpec("Bengaluru AI & ML Forum",
      "Hands-on sessions on LLMs, MLOps, and productionizing models. Bring your laptop!",
      "Bengaluru, India", 14, 200, 150),
    SeedSpec("Hyderabad Cloud Day",
      "Workshops on AWS, Azure, and GCP best practices. Live demos and labs throughout the day.",
      "Hyderabad, India", 5, 180, 80),
    SeedSpec("Chennai Design Systems Workshop",
      "Designers and frontend engineers collaborate to build scalable UI systems and patterns.",
      "Chennai, India", 21, 90, 30),
    SeedSpec("Kolkata Open Source Sprint",
      "Contribute to open-source projects. Maintainers will guide issues for first-time contributors.",
      "Kolkata, India", 12, 100, 20),
    SeedSpec("Pune DevOps Camp",
      "CI/CD pipelines, IaC, and observability deep dives with real-world case studies.",
      "Pune, India", 17, 140, 70)
  ]

  /** The event built from a seed: `{ ...e, createdAt }` with the id `uuidv4()`
      returned and the date `addDays(days)` returned. */
  function SeedEvent(spec: SeedSpec, id: string, addDays: int -> string, createdAt: string): (e: Event)
    ensures e.id == id && e.date == addDays(spec.days) && e.createdAt == createdAt
    ensures e.title == spec.title && e.description == spec.description && e.location == spec.location
    ensures e.maxParticipants == spec.maxParticipants && e.currentParticipants == spec.currentParticipants
  {
    Event(id, spec.title, spec.description, spec.location, addDays(spec.days),
          spec.maxParticipants, spec.currentParticipants, createdAt)
  }

  /** The seven records, in seed order. */
  function SeedRecords(ids: seq<string>, addDays: int -> string, stamps: seq<string>): (es: seq<Event>)
    requires |ids| == |Seeds| && |stamps| == |Seeds|
    ensures |es| == |Seeds|
    ensures forall i :: 0 <= i < |es| ==> es[i] == SeedEvent(Seeds[i], ids[i], addDays, stamps[i])
  {
    seq(|Seeds|, i requires 0 <= i < |Seeds| => SeedEvent(Seeds[i], ids[i], addDays, stamps[i]))
  }

  /** `es.forEach(e => eventStorage.create(e))`. */
  function CreateAll(s: Store, es: seq<Event>): (r: Store)
    requires s.Valid()
    ensures r.Valid()
    ensures Count(r) >= Count(s)
    ensures |es| > 0 ==> Count(r) > 0
    decreases |es|
  {
    if |es| == 0 then s else CreateAll(EventStorage.Create(s, es[0]).0, es[1..])
  }

  /** Creating events whose ids are fresh and pairwise distinct appends them to
      the listing in order. */
  lemma {:induction false} CreateAllFresh(s: Store, es: seq<Event>)
    requires s.Valid()
    requires forall i :: 0 <= i < |es| ==> GetById(s, es[i].id).None?
    requires forall i, j :: 0 <= i < j < |es| ==> es[i].id != es[j].id
    ensures GetAll(CreateAll(s, es)) == GetAll(s) + es
    decreases |es|
  {
    if |es| > 0 {
      var s1 := EventStorage.Create(s, es[0]).0;
      var rest := es[1..];
      CreateFreshAppends(s, es[0]);
      assert GetAll(s1) == GetAll(s) + [es[0]];
      RestStillFresh(s, s1, es);
      CreateAllFresh(s1, rest);
      assert CreateAll(s, es) == CreateAll(s1, rest);
      AppendHead(GetAll(s), es);
    }
  }

  lemma RestStillFresh(s: Store, s1: Store, es: seq<Event>)
    requires s.Valid() && |es| > 0
    requires s1 == EventStorage.Create(s, es[0]).0
    requires forall i :: 0 <= i < |es| ==> GetById(s, es[i].id).None?
    requires forall i, j :: 0 <= i < j < |es| ==> es[i].id != es[j].id
    ensures forall i :: 0 <= i < |es[1..]| ==> GetById(s1, es[1..][i].id).None?
    ensures forall i, j :: 0 <= i < j < |es[1..]| ==> es[1..][i].id != es[1..][j].id
  {
    var rest := es[1..];
    forall i | 0 <= i < |rest|
      ensures GetById(s1, rest[i].id).None?
    {
      assert rest[i] == es[i + 1];
      assert es[0].id != es[i + 1].id;
    }
    forall i, j | 0 <= i < j < |rest|
      ensures rest[i].id != rest[j].id
    {
      assert rest[i] == es[i + 1] && rest[j] == es[j + 1];
    }
  }

  lemma AppendHead<T>(xs: seq<T>, es: seq<T>)
    requires |es| > 0
    ensures xs + [es[0]] + es[1..] == xs + es
  {
    assert es == [es[0]] + es[1..];
  }

  /** `seedEvents()`: a store that already lists events is left alone; an empty
      one receives the seven seeds. `ids` are the values `uuidv4()` returns,
      `stamps` the creation timestamps, in seed order. */
  function SeedEvents(s: Store, ids: seq<string>, addDays: int -> string, stamps: seq<string>): (r: Store)
    requires s.Valid() && |ids| == |Seeds| && |stamps| == |Seeds|
    ensures r.Valid()
    ensures |GetAll(s)| > 0 ==> r == s
    ensures |GetAll(s)| == 0 ==> |GetAll(r)| > 0
  {
    if |GetAll(s)| > 0 then s else CreateAll(s, SeedRecords(ids, addDays, stamps))
  }

  /** Seeding twice is seeding once: the second call finds events and returns. */
  lemma SeedIdempotent(s: Store, ids: seq<string>, ids': seq<string>, addDays: int -> string,
                       stamps: seq<string>, stamps': seq<string>)
    requires s.Valid() && |ids| == |Seeds| && |stamps| == |Seeds| && |ids'| == |Seeds| && |stamps'| == |Seeds|
    ensures var once := SeedEvents(s, ids, addDays, stamps);
            SeedEvents(once, ids', addDays, stamps') == once
  {
  }

  predicate DistinctIds(ids: seq<string>) {
    forall i, j :: 0 <= i < j < |ids| ==> ids[i] != ids[j]
  }

  /** Seeding an empty store with distinct ids lists exactly the seven seeds, in
      seed order. */
  lemma SeedFillsEmptyStore(s: Store, ids: seq<string>, addDays: int -> string, stamps: seq<string>)
    requires s.Valid() && |GetAll(s)| == 0
    requires |ids| == |Seeds| && |stamps| == |Seeds| && DistinctIds(ids)
    ensures GetAll(SeedEvents(s, ids, addDays, stamps)) == SeedRecords(ids, addDays, stamps)
    ensures Count(SeedEvents(s, ids, addDays, stamps)) == 7
  {
    var es := SeedRecords(ids, addDays, stamps);
    forall i | 0 <= i < |es|
      ensures GetById(s, es[i].id).None?
    {
      if GetById(s, es[i].id).Some? {
        GetByIdInGetAll(s, es[i].id);
      }
    }
    CreateAllFresh(s, es);
  }

  /** Every seed stays inside the limits the validation middleware enforces on
      clients: non-blank text within its length bound, a capacity between 1 and
      10000, and an attendance between 0 and the capacity. */
  lemma SeedsWithinLimits()
    ensures forall i :: 0 <= i < |Seeds| ==>
              && !IsBlank(Seeds[i].title) && |Seeds[i].title| <= MaxTitleLength
              && !IsBlank(Seeds[i].description) && |Seeds[i].description| <= MaxDescriptionLength
              && !IsBlank(Seeds[i].location)
              && 1 <= Seeds[i].maxParticipants <= MaxCapacity
              && 0 <= Seeds[i].currentParticipants <= Seeds[i].maxParticipants
  {
    forall i | 0 <= i < |Seeds|
      ensures !IsBlank(Seeds[i].title) && !IsBlank(Seeds[i].description) && !IsBlank(Seeds[i].location)
    {
      SeedTextNotBlank(Seeds[i]);
    }
  }

  /** A seed's texts all end with a letter or a full stop. */
  lemma SeedTextNotBlank(spec: SeedSpec)
    requires spec in Seeds
    ensures !IsBlank(spec.title) && !IsBlank(spec.description) && !IsBlank(spec.location)
  {
    NotBlankWithVisibleEnd(spec.title);
    NotBlankWithVisibleEnd(spec.description);
    NotBlankWithVisibleEnd(spec.location);
  }

  lemma NotBlankWithVisibleEnd(s: string)
    requires |s| > 0 && ('a' <= s[|s| - 1] <= 'z' || s[|s| - 1] == '.' || s[|s| - 1] == '!')
    ensures !IsBlank(s)
  {
    assert !IsWhitespace(s[|s| - 1]);
  }

  /** `addDays` yields dates that parse and that grow with the day count. */
  ghost predicate Chronological(addDays: int -> string, parseDate: string -> Option<int>) {
    forall a: int, b: int ::
      0 <= a < b ==> parseDate(addDays(a)).Some? && parseDate(addDays(b)).Some?
                      && parseDate(addDays(a)).value < parseDate(addDays(b)).value
  }

  /** The seeds in date order: Hyderabad (5 days), Mumbai (7), Delhi (10),
      Kolkata (12), Bengaluru (14), Pune (17), Chennai (21). */
  const ByDate: seq<nat> := [3, 0, 1, 5, 2, 6, 4]

  /** The unfiltered listing of a freshly seeded store is the seven seeds in
      date order. */
  lemma SeededListingOrder(s: Store, ids: seq<string>, addDays: int -> string, stamps: seq<string>,
                           parseDate: string -> Option<int>)
    requires s.Valid() && |GetAll(s)| == 0
    requires |ids| == |Seeds| && |stamps| == |Seeds| && DistinctIds(ids)
    requires Chronological(addDays, parseDate)
    ensures var es := SeedRecords(ids, addDays, stamps);
            ListEvents(SeedEvents(s, ids, addDays, stamps), EventQuery(None, None, None), parseDate)
              == Ok(seq(7, k requires 0 <= k < 7 => es[ByDate[k]]))
  {
    var es := SeedRecords(ids, addDays, stamps);
    var seeded := SeedEvents(s, ids, addDays, stamps);
    SeedFillsEmptyStore(s, ids, addDays, stamps);
    BlankFiltersIgnored(seeded, EventQuery(None, None, None), parseDate);
    SeedRecordsSort(es, ids, addDays, stamps, parseDate);
  }

  /** Sorting the seed records by date gives the `ByDate` order. */
  lemma SeedRecordsSort(es: seq<Event>, ids: seq<string>, addDays: int -> string, stamps: seq<string>,
                        parseDate: string -> Option<int>)
    requires |ids| == |Seeds| && |stamps| == |Seeds|
    requires es == SeedRecords(ids, addDays, stamps)
    requires Chronological(addDays, parseDate)
    ensures SortByKey(es, DateKey(parseDate)) == seq(7, k requires 0 <= k < 7 => es[ByDate[k]])
  {
    SeedKeysIncrease(es, ids, addDays, stamps, parseDate);
    SortFollowsByDate(es, DateKey(parseDate));
  }

  /** Chronological dates put the seed keys in the `ByDate` order. */
  lemma SeedKeysIncrease(es: seq<Event>, ids: seq<string>, addDays: int -> string, stamps: seq<string>,
                         parseDate: string -> Option<int>)
    requires |ids| == |Seeds| && |stamps| == |Seeds|
    requires es == SeedRecords(ids, addDays, stamps)
    requires Chronological(addDays, parseDate)
    ensures |es| == 7
    ensures forall i :: 0 <= i < 7 ==> DateKey(parseDate)(es[i]).Some?
    ensures var key := DateKey(parseDate);
            key(es[3]).value < key(es[0]).value < key(es[1]).value < key(es[5]).value
            < key(es[2]).value < key(es[6]).value < key(es[4]).value
  {
    var key := DateKey(parseDate);
    assert Seeds[3].days == 5 && Seeds[0].days == 7 && Seeds[1].days == 10 && Seeds[5].days == 12;
    assert Seeds[2].days == 14 && Seeds[6].days == 17 && Seeds[4].days == 21;
    forall i | 0 <= i < 7
      ensures key(es[i]) == parseDate(addDays(Seeds[i].days)) && key(es[i]).Some?
    {
      assert es[i].date == addDays(Seeds[i].days);
      ChronologicalBefore(addDays, parseDate, Seeds[i].days, Seeds[i].days + 1);
    }
    ChronologicalBefore(addDays, parseDate, 5, 7);
    ChronologicalBefore(addDays, parseDate, 7, 10);
    ChronologicalBefore(addDays, parseDate, 10, 12);
    ChronologicalBefore(addDays, parseDate, 12, 14);
    ChronologicalBefore(addDays, parseDate, 14, 17);
    ChronologicalBefore(addDays, parseDate, 17, 21);
  }

  /** `Chronological` at one explicit pair of day counts. */
  lemma ChronologicalBefore(addDays: int -> string, parseDate: string -> Option<int>, a: int, b: int)
    requires Chronological(addDays, parseDate) && 0 <= a < b
    ensures parseDate(addDays(a)).Some? && parseDate(addDays(b)).Some?
    ensures parseDate(addDays(a)).value < parseDate(addDays(b)).value
  {
  }

  /** Seven elements whose keys increase along `ByDate` sort into that order. */
  lemma SortFollowsByDate<T>(es: seq<T>, key: T -> Option<int>)
    requires |es| == 7
    requires forall i :: 0 <= i < 7 ==> key(es[i]).Some?
    requires key(es[3]).value < key(es[0]).value < key(es[1]).value < key(es[5]).value
             < key(es[2]).value < key(es[6]).value < key(es[4]).value
    ensures SortByKey(es, key) == seq(7, k requires 0 <= k < 7 => es[ByDate[k]])
  {
    var sorted := SortByKey(es, key);
    var expected := ExpectedIncreasing(es, key);
    assert SortedBy(sorted, key) by {
      SortByKeySorted(es, key);
    }
    assert KeysDistinct(expected, key) && SortedBy(expected, key) by {
      ExpectedDistinct(expected, key);
      ExpectedSorted(expected, key);
    }
    assert multiset(expected) == multiset(sorted) by {
      ExpectedPermutation(es, expected);
    }
    SortedUnique(expected, sorted, key);
  }

  /** Listing the records in `ByDate` order lists their keys in increasing order. */
  lemma ExpectedIncreasing<T>(es: seq<T>, key: T -> Option<int>) returns (expected: seq<T>)
    requires |es| == 7
    requires forall i :: 0 <= i < 7 ==> key(es[i]).Some?
    requires key(es[3]).value < key(es[0]).value < key(es[1]).value < key(es[5]).value
             < key(es[2]).value < key(es[6]).value < key(es[4]).value
    ensures expected == seq(7, k requires 0 <= k < 7 => es[ByDate[k]])
    ensures |expected| == 7 && forall i :: 0 <= i < 7 ==> key(expected[i]).Some?
    ensures forall i, j :: 0 <= i < j < 7 ==> key(expected[i]).value < key(expected[j]).value
  {
    expected := seq(7, k requires 0 <= k < 7 => es[ByDate[k]]);
    assert expected == [es[3], es[0], es[1], es[5], es[2], es[6], es[4]];
  }

  lemma ExpectedDistinct<T>(expected: seq<T>, key: T -> Option<int>)
    requires |expected| == 7
    requires forall i :: 0 <= i < 7 ==> key(expected[i]).Some?
    requires forall i, j :: 0 <= i < j < 7 ==> key(expected[i]).value < key(expected[j]).value
    ensures KeysDistinct(expected, key)
  {
    forall i, j | 0 <= i < 7 && 0 <= j < 7 && expected[i] != expected[j]
      ensures key(expected[i]) != key(expected[j])
    {
      assert i != j;
    }
  }

  lemma ExpectedSorted<T>(expected: seq<T>, key: T -> Option<int>)
    requires |expected| == 7
    requires forall i :: 0 <= i < 7 ==> key(expected[i]).Some?
    requires forall i, j :: 0 <= i < j < 7 ==> key(expected[i]).value < key(expected[j]).value
    ensures SortedBy(expected, key)
  {
  }

  lemma ExpectedPermutation<T>(es: seq<T>, expected: seq<T>)
    requires |es| == 7 && |expected| == 7
    requires forall k :: 0 <= k < 7 ==> expected[k] == es[ByDate[k]]
    ensures multiset(expected) == multiset(es)
  {
    ReorderKeepsElements(es);
    ReorderIsByDate(es, expected);
  }

  /** The `ByDate` order as six exchanges of neighbours: es[3] bubbles to the
      front, then es[5] moves in front of es[2], then es[6] in front of es[4]. */
  function Reorder<T>(es: seq<T>): seq<T>
    requires |es| == 7
  {
    Swap(Swap(Swap(Swap(Swap(Swap(es, 2), 1), 0), 4), 3), 5)
  }

  lemma ReorderKeepsElements<T>(es: seq<T>)
    requires |es| == 7
    ensures multiset(Reorder(es)) == multiset(es)
  {
    var s1 := Swap(es, 2);
    var s2 := Swap(s1, 1);
    var s3 := Swap(s2, 0);
    var s4 := Swap(s3, 4);
    var s5 := Swap(s4, 3);
    SwapKeepsElements(es, 2);
    SwapKeepsElements(s1, 1);
    SwapKeepsElements(s2, 0);
    SwapKeepsElements(s3, 4);
    SwapKeepsElements(s4, 3);
    SwapKeepsElements(s5, 5);
  }

  lemma ReorderIsByDate<T>(es: seq<T>, expected: seq<T>)
    requires |es| == 7 && |expected| == 7
    requires forall k :: 0 <= k < 7 ==> expected[k] == es[ByDate[k]]
    ensures Reorder(es) == expected
  {
    var s1 := Swap(es, 2);
    assert s1 == [es[0], es[1], es[3], es[2], es[4], es[5], es[6]];
    var s2 := Swap(s1, 1);
    assert s2 == [es[0], es[3], es[1], es[2], es[4], es[5], es[6]];
    var s3 := Swap(s2, 0);
    assert s3 == [es[3], es[0], es[1], es[2], es[4], es[5], es[6]];
    var s4 := Swap(s3, 4);
    assert s4 == [es[3], es[0], es[1], es[2], es[5], es[4], es[6]];
    var s5 := Swap(s4, 3);
    assert s5 == [es[3], es[0], es[1], es[5], es[2], es[4], es[6]];
    var s6 := Swap(s5, 5);
    assert s6 == [es[3], es[0], es[1], es[5], es[2], es[6], es[4]];
    SameByDate(es, s6, expected);
  }

  lemma SameByDate<T>(es: seq<T>, s: seq<T>, expected: seq<T>)
    requires |es| == 7 && |s| == 7 && |expected| == 7
    requires forall k :: 0 <= k < 7 ==> expected[k] == es[ByDate[k]]
    requires s[0] == es[3] && s[1] == es[0] && s[2] == es[1] && s[3] == es[5]
    requires s[4] == es[2] && s[5] == es[6] && s[6] == es[4]
    ensures s == expected
  {
    assert expected[0] == es[3] && expected[1] == es[0] && expected[2] == es[1] && expected[3] == es[5];
    assert expected[4] == es[2] && expected[5] == es[6] && expected[6] == es[4];
  }

  /** `xs` with the neighbours at `i` and `i + 1` exchanged. */
  function Swap<T>(xs: seq<T>, i: nat): (r: seq<T>)
    requires i + 1 < |xs|
    ensures |r| == |xs| && r[i] == xs[i + 1] && r[i + 1] == xs[i]
    ensures forall k :: 0 <= k < |xs| && k != i && k != i + 1 ==> r[k] == xs[k]
  {
    xs[i := xs[i + 1]][i + 1 := xs[i]]
  }

  /** Exchanging two neighbours keeps the multiset. */
  lemma SwapKeepsElements<T>(xs: seq<T>, i: nat)
    requires i + 1 < |xs|
    ensures multiset(Swap(xs, i)) == multiset(xs)
  {
    var r := Swap(xs, i);
    assert xs == xs[..i] + [xs[i], xs[i + 1]] + xs[i + 2..];
    assert r == xs[..i] + [xs[i + 1], xs[i]] + xs[i + 2..];
    assert multiset([xs[i], xs[i + 1]]) == multiset([xs[i + 1], xs[i]]);
  }
}

=== FILE: seqs.dfy ===
/** `Array.prototype.filter` and the stable `Array.prototype.sort` used by the
    list routes, with the facts the routes rely on. */
module Seqs {
  import opened Wrappers

  /** `xs.filter(p)`: the elements of `xs` that satisfy `p`, in their original order. */
  function Filter<T>(xs: seq<T>, p: T -> bool): (r: seq<T>)
    ensures |r| <= |xs|
    ensures forall i :: 0 <= i < |r| ==> p(r[i]) && r[i] in xs
  {
    if |xs| == 0 then []
    else if p(xs[0]) then [xs[0]] + Filter(xs[1..], p)
    else Filter(xs[1..], p)
  }

  /** An element is kept exactly when it was in the input and satisfies the predicate. */
  lemma {:induction false} FilterMembership<T>(xs: seq<T>, p: T -> bool, x: T)
    ensures x in Filter(xs, p) <==> x in xs && p(x)
  {
    if |xs| > 0 {
      FilterMembership(xs[1..], p, x);
      assert x in xs <==> x == xs[0] || x in xs[1..];
    }
  }

  /** Everything the two lemmas above say, for every element at once. */
  lemma FilterSpec<T>(xs: seq<T>, p: T -> bool)
    ensures forall x :: x in Filter(xs, p) <==> x in xs && p(x)
    ensures forall x :: multiset(Filter(xs, p))[x] == if p(x) then multiset(xs)[x] else 0
  {
    forall x
      ensures x in Filter(xs, p) <==> x in xs && p(x)
      ensures multiset(Filter(xs, p))[x] == if p(x) then multiset(xs)[x] else 0
    {
      FilterMembership(xs, p, x);
      FilterMultiset(xs, p, x);
    }
  }

  /** Filtering distributes over concatenation, so it keeps relative order:
      what came first in the input still comes first in the output. */
  lemma {:induction false} FilterConcat<T>(a: seq<T>, b: seq<T>, p: T -> bool)
    ensures Filter(a + b, p) == Filter(a, p) + Filter(b, p)
  {
    if |a| > 0 {
      assert (a + b)[0] == a[0];
      assert (a + b)[1..] == a[1..] + b;
      FilterConcat(a[1..], b, p);
    } else {
      assert a + b == b;
    }
  }

  /** Filtering keeps every copy of a passing element and no copy of a failing one. */
  lemma {:induction false} FilterMultiset<T>(xs: seq<T>, p: T -> bool, x: T)
    ensures multiset(Filter(xs, p))[x] == if p(x) then multiset(xs)[x] else 0
  {
    if |xs| > 0 {
      assert xs == [xs[0]] + xs[1..];
      FilterMultiset(xs[1..], p, x);
    }
  }

  /** Two filters applied one after the other keep what their conjunction keeps. */
  lemma {:induction false} FilterFilter<T>(xs: seq<T>, p: T -> bool, q: T -> bool, both: T -> bool)
    requires forall x :: both(x) == (p(x) && q(x))
    ensures Filter(Filter(xs, p), q) == Filter(xs, both)
  {
    if |xs| > 0 {
      FilterFilter(xs[1..], p, q, both);
    }
  }

  /** A filter that every element passes changes nothing. */
  lemma {:induction false} FilterAll<T>(xs: seq<T>, p: T -> bool)
    requires forall i :: 0 <= i < |xs| ==> p(xs[i])
    ensures Filter(xs, p) == xs
  {
    if |xs| > 0 {
      FilterAll(xs[1..], p);
    }
  }

  /** Filters that agree on every element of the input give the same output. */
  lemma {:induction false} FilterCongruent<T>(xs: seq<T>, p: T -> bool, q: T -> bool)
    requires forall i :: 0 <= i < |xs| ==> p(xs[i]) == q(xs[i])
    ensures Filter(xs, p) == Filter(xs, q)
  {
    if |xs| > 0 {
      FilterCongruent(xs[1..], p, q);
    }
  }

  // ---------------------------------------------------------------------------
  // Sorting by a numeric key that may be NaN
  // ---------------------------------------------------------------------------

  /** The comparator `(a, b) => key(a) - key(b)` reports "a goes first" only
      when both keys are numbers and a's is smaller; a NaN difference counts
      as "equal". */
  predicate Before(a: Option<int>, b: Option<int>) {
    a.Some? && b.Some? && a.value < b.value
  }

  /** No element is strictly before one that precedes it: the numeric keys
      never decrease along the sequence. */
  ghost predicate SortedBy<T>(xs: seq<T>, key: T -> Option<int>) {
    forall i, j :: 0 <= i < j < |xs| ==> !Before(key(xs[j]), key(xs[i]))
  }

  /** The predicate "has key k", named so that both sides of a stability
      statement use the same function value. */
  function HasKey<T>(key: T -> Option<int>, k: Option<int>): T -> bool {
    x => key(x) == k
  }

  /** Stability: for every key, the elements carrying that key appear in the
      same relative order in `ys` as in `xs`. */
  ghost predicate StableFor<T>(xs: seq<T>, ys: seq<T>, key: T -> Option<int>) {
    forall k :: Filter(ys, HasKey(key, k)) == Filter(xs, HasKey(key, k))
  }

  /** Inserts `x` into sorted `ys` just before the first element it goes before. */
  function Insert<T>(x: T, ys: seq<T>, key: T -> Option<int>): (r: seq<T>)
    ensures multiset(r) == multiset(ys) + multiset{x}
    ensures |r| == |ys| + 1
  {
    if |ys| == 0 then [x]
    else if Before(key(x), key(ys[0])) then [x] + ys
    else
      assert ys == [ys[0]] + ys[1..];
      [ys[0]] + Insert(x, ys[1..], key)
  }

  /** A stable insertion sort: `xs.sort(comparator)` for the comparator of `Before`. */
  function SortByKey<T>(xs: seq<T>, key: T -> Option<int>): (r: seq<T>)
    ensures multiset(r) == multiset(xs)
    ensures |r| == |xs|
  {
    if |xs| == 0 then []
    else
      assert xs == xs[..|xs| - 1] + [xs[|xs| - 1]];
      Insert(xs[|xs| - 1], SortByKey(xs[..|xs| - 1], key), key)
  }

  lemma {:induction false} InsertSorted<T>(x: T, ys: seq<T>, key: T -> Option<int>)
    requires SortedBy(ys, key)
    ensures SortedBy(Insert(x, ys, key), key)
    decreases |ys|
  {
    if |ys| > 0 && !Before(key(x), key(ys[0])) {
      var rest := Insert(x, ys[1..], key);
      InsertSorted(x, ys[1..], key);
      var r := [ys[0]] + rest;
      assert multiset(rest) == multiset(ys[1..]) + multiset{x};
      forall j | 0 < j < |r|
        ensures !Before(key(r[j]), key(r[0]))
      {
        assert r[j] in multiset(rest);
        if r[j] != x {
          assert r[j] in multiset(ys[1..]);
          var m :| 0 <= m < |ys[1..]| && ys[1..][m] == r[j];
          assert ys[m + 1] == r[j];
        }
      }
      assert forall i, j :: 0 < i < j < |r| ==> r[i] == rest[i - 1] && r[j] == rest[j - 1];
    }
  }

  /** The sort's output never has a later element strictly before an earlier one. */
  lemma {:induction false} SortByKeySorted<T>(xs: seq<T>, key: T -> Option<int>)
    ensures SortedBy(SortByKey(xs, key), key)
  {
    if |xs| > 0 {
      SortByKeySorted(xs[..|xs| - 1], key);
      InsertSorted(xs[|xs| - 1], SortByKey(xs[..|xs| - 1], key), key);
    }
  }

  /** In a sorted sequence, an element inserted with key `k` lands after every
      element already carrying `k`. */
  lemma {:induction false} InsertStable<T>(x: T, ys: seq<T>, key: T -> Option<int>, k: Option<int>)
    requires SortedBy(ys, key)
    ensures Filter(Insert(x, ys, key), HasKey(key, k))
            == Filter(ys, HasKey(key, k)) + (if key(x) == k then [x] else [])
    decreases |ys|
  {
    var p := HasKey(key, k);
    if |ys| == 0 {
      assert Insert(x, ys, key) == [x];
    } else if Before(key(x), key(ys[0])) {
      assert Insert(x, ys, key) == [x] + ys;
      if key(x) == k {
        // every element of ys is strictly after x, so none carries k
        forall i | 0 <= i < |ys|
          ensures !p(ys[i])
        {
          if i > 0 {
            assert !Before(key(ys[i]), key(ys[0]));
          }
        }
        FilterNone(ys, p);
      }
    } else {
      assert ys == [ys[0]] + ys[1..];
      assert SortedBy(ys[1..], key) by {
        forall i, j | 0 <= i < j < |ys[1..]|
          ensures !Before(key(ys[1..][j]), key(ys[1..][i]))
        {
          assert ys[1..][i] == ys[i + 1] && ys[1..][j] == ys[j + 1];
        }
      }
      InsertStable(x, ys[1..], key, k);
    }
  }

  lemma {:induction false} FilterNone<T>(xs: seq<T>, p: T -> bool)
    requires forall i :: 0 <= i < |xs| ==> !p(xs[i])
    ensures Filter(xs, p) == []
  {
    if |xs| > 0 {
      FilterNone(xs[1..], p);
    }
  }

  /** The sort is stable: elements with equal keys keep their input order. */
  lemma {:induction false} SortByKeyStable<T>(xs: seq<T>, key: T -> Option<int>)
    ensures StableFor(xs, SortByKey(xs, key), key)
  {
    forall k
      ensures Filter(SortByKey(xs, key), HasKey(key, k)) == Filter(xs, HasKey(key, k))
    {
      SortByKeyStableAt(xs, key, k);
    }
  }

  lemma {:induction false} SortByKeyStableAt<T>(xs: seq<T>, key: T -> Option<int>, k: Option<int>)
    ensures Filter(SortByKey(xs, key), HasKey(key, k)) == Filter(xs, HasKey(key, k))
  {
    if |xs| > 0 {
      var init, last := xs[..|xs| - 1], xs[|xs| - 1];
      var p := HasKey(key, k);
      SplitLast(xs);
      FilterSnoc(init, last, p);
      SortByKeyStableAt(init, key, k);
      SortByKeySorted(init, key);
      InsertStable(last, SortByKey(init, key), key, k);
      assert SortByKey(xs, key) == Insert(last, SortByKey(init, key), key);
    }
  }

  lemma SplitLast<T>(xs: seq<T>)
    requires |xs| > 0
    ensures xs == xs[..|xs| - 1] + [xs[|xs| - 1]]
  {
  }

  lemma FilterSnoc<T>(xs: seq<T>, x: T, p: T -> bool)
    ensures Filter(xs + [x], p) == Filter(xs, p) + (if p(x) then [x] else [])
  {
    assert [x][1..] == [];
    FilterConcat(xs, [x], p);
  }

  lemma TailSorted<T>(xs: seq<T>, key: T -> Option<int>)
    requires |xs| > 0 && SortedBy(xs, key)
    ensures SortedBy(xs[1..], key)
  {
    forall i, j | 0 <= i < j < |xs| - 1
      ensures !Before(key(xs[1..][j]), key(xs[1..][i]))
    {
      assert xs[1..][i] == xs[i + 1] && xs[1..][j] == xs[j + 1];
    }
  }

  lemma TailMultiset<T>(xs: seq<T>)
    requires |xs| > 0
    ensures multiset(xs[1..]) == multiset(xs) - multiset{xs[0]}
  {
    assert xs == [xs[0]] + xs[1..];
  }

  /** Every element has a numeric key, and distinct elements have distinct keys. */
  ghost predicate KeysDistinct<T>(xs: seq<T>, key: T -> Option<int>) {
    && (forall i :: 0 <= i < |xs| ==> key(xs[i]).Some?)
    && (forall i, j :: 0 <= i < |xs| && 0 <= j < |xs| && xs[i] != xs[j] ==> key(xs[i]) != key(xs[j]))
  }

  lemma SortedHeads<T>(xs: seq<T>, ys: seq<T>, key: T -> Option<int>)
    requires |xs| > 0 && |ys| > 0
    requires SortedBy(xs, key) && SortedBy(ys, key)
    requires multiset(xs) == multiset(ys)
    requires KeysDistinct(xs, key)
    ensures xs[0] == ys[0]
  {
    assert xs[0] in multiset(ys) && ys[0] in multiset(xs);
    var a :| 0 <= a < |ys| && ys[a] == xs[0];
    var b :| 0 <= b < |xs| && xs[b] == ys[0];
    // the two heads carry the least key of the common multiset
    assert b == 0 || !Before(key(xs[b]), key(xs[0]));
    assert a == 0 || !Before(key(ys[a]), key(ys[0]));
    assert key(xs[b]) == key(xs[0]);
  }

  lemma TailKeysDistinct<T>(xs: seq<T>, key: T -> Option<int>)
    requires |xs| > 0 && KeysDistinct(xs, key)
    ensures KeysDistinct(xs[1..], key)
  {
    assert forall i :: 0 <= i < |xs| - 1 ==> xs[1..][i] == xs[i + 1];
  }

  /** Two sequences sorted by a key that tells distinct elements apart are equal
      as soon as they hold the same elements: the sorted order is unique. */
  lemma {:induction false} SortedUnique<T>(xs: seq<T>, ys: seq<T>, key: T -> Option<int>)
    requires SortedBy(xs, key) && SortedBy(ys, key)
    requires multiset(xs) == multiset(ys)
    requires KeysDistinct(xs, key)
    ensures xs == ys
    decreases |xs|
  {
    assert |xs| == |multiset(xs)| == |ys|;
    if |xs| > 0 {
      SortedHeads(xs, ys, key);
      TailMultiset(xs);
      TailMultiset(ys);
      TailSorted(xs, key);
      TailSorted(ys, key);
      TailKeysDistinct(xs, key);
      SortedUnique(xs[1..], ys[1..], key);
      HeadTailEqual(xs, ys);
    }
  }

  lemma HeadTailEqual<T>(xs: seq<T>, ys: seq<T>)
    requires |xs| > 0 && |ys| > 0 && xs[0] == ys[0] && xs[1..] == ys[1..]
    ensures xs == ys
  {
    assert xs == [xs[0]] + xs[1..] && ys == [ys[0]] + ys[1..];
  }
}

=== FILE: text.dfy ===
/** The string operations the event code relies on: `trim`, `toLowerCase`,
    `includes` and `startsWith`, over strings seen as sequences of code units. */
module Text {

  /** JavaScript's WhiteSpace and LineTerminator code points, the set that
      `String.prototype.trim` removes from both ends. */
  predicate IsWhitespace(c: char) {
    || c == '\t' || c == '\n' || c == '\U{000B}' || c == '\U{000C}' || c == '\r'
    || c == ' ' || c == '\U{00A0}' || c == '\U{1680}'
    || ('\U{2000}' <= c <= '\U{200A}')
    || c == '\U{2028}' || c == '\U{2029}' || c == '\U{202F}' || c == '\U{205F}'
    || c == '\U{3000}' || c == '\U{FEFF}'
  }

  /** A string is blank when it is empty or holds only whitespace. */
  predicate IsBlank(s: string) {
    forall i :: 0 <= i < |s| ==> IsWhitespace(s[i])
  }

  /** `s.trimStart()`: the suffix of `s` left once leading whitespace is dropped. */
  function TrimStart(s: string): (r: string)
    ensures |r| <= |s| && r == s[|s| - |r|..]
    ensures r == [] || !IsWhitespace(r[0])
  {
    if |s| > 0 && IsWhitespace(s[0]) then TrimStart(s[1..]) else s
  }

  /** What `trimStart` drops is all whitespace, so the suffix it keeps is the longest one. */
  lemma {:induction false} TrimStartDropsBlank(s: string)
    ensures IsBlank(s[..|s| - |TrimStart(s)|])
  {
    if |s| > 0 && IsWhitespace(s[0]) {
      TrimStartDropsBlank(s[1..]);
      var k := |s| - |TrimStart(s)|;
      forall j | 0 <= j < k
        ensures IsWhitespace(s[..k][j])
      {
        if j > 0 {
          assert s[..k][j] == s[1..][..k - 1][j - 1];
        }
      }
    }
  }

  /** `s.trimEnd()`: the prefix of `s` left once trailing whitespace is dropped. */
  function TrimEnd(s: string): (r: string)
    ensures |r| <= |s| && r == s[..|r|]
    ensures r == [] || !IsWhitespace(r[|r| - 1])
  {
    if |s| > 0 && IsWhitespace(s[|s| - 1]) then TrimEnd(s[..|s| - 1]) else s
  }

  /** What `trimEnd` drops is all whitespace, so the prefix it keeps is the longest one. */
  lemma {:induction false} TrimEndDropsBlank(s: string)
    ensures IsBlank(s[|TrimEnd(s)|..])
  {
    if |s| > 0 && IsWhitespace(s[|s| - 1]) {
      var p := s[..|s| - 1];
      TrimEndDropsBlank(p);
      var k := |TrimEnd(s)|;
      forall j | 0 <= j < |s| - k
        ensures IsWhitespace(s[k..][j])
      {
        if k + j < |s| - 1 {
          assert s[k..][j] == p[k..][j];
        }
      }
    }
  }

  /** `s.trim()`: `s` without its leading and trailing whitespace. */
  function Trim(s: string): (r: string)
    ensures |r| <= |s|
    ensures r == [] || (!IsWhitespace(r[0]) && !IsWhitespace(r[|r| - 1]))
  {
    var t := TrimStart(s);
    var r := TrimEnd(t);
    assert r != [] ==> r[0] == t[0];
    r
  }

  /** The trimmed text is the slice of `s` at some offset `i`, and all that
      trimming removed on either side of it is whitespace. */
  lemma TrimSlice(s: string) returns (i: nat)
    ensures i + |Trim(s)| <= |s| && Trim(s) == s[i..i + |Trim(s)|]
    ensures IsBlank(s[..i]) && IsBlank(s[i + |Trim(s)|..])
  {
    var t := TrimStart(s);
    var r := TrimEnd(t);
    i := |s| - |t|;
    assert Trim(s) == r;
    assert IsBlank(s[..i]) by {
      TrimStartDropsBlank(s);
    }
    assert IsBlank(t[|r|..]) by {
      TrimEndDropsBlank(t);
    }
    SliceParts(s, t, r);
  }

  /** Cutting a blank prefix and then a blank suffix from `s` leaves a slice of
      `s` with blank pieces on either side. */
  lemma SliceParts(s: string, t: string, r: string)
    requires |t| <= |s| && t == s[|s| - |t|..] && IsBlank(s[..|s| - |t|])
    requires |r| <= |t| && r == t[..|r|] && IsBlank(t[|r|..])
    ensures r == s[|s| - |t|..|s| - |t| + |r|]
    ensures IsBlank(s[|s| - |t| + |r|..])
  {
    assert t[|r|..] == s[|s| - |t| + |r|..];
  }

  /** A string trims to the empty string exactly when it is blank, so
      `s.trim().length === 0` is the model's blank test. */
  lemma TrimEmptyIffBlank(s: string)
    ensures Trim(s) == [] <==> IsBlank(s)
  {
    var r := Trim(s);
    var i := TrimSlice(s);
    if r == [] {
      assert s == s[..i] + s[i..];
      BlankConcat(s[..i], s[i..]);
    } else {
      assert s[i] == r[0];
    }
  }

  lemma BlankConcat(a: string, b: string)
    requires IsBlank(a) && IsBlank(b)
    ensures IsBlank(a + b)
  {
    forall k | 0 <= k < |a + b|
      ensures IsWhitespace((a + b)[k])
    {
      if k < |a| {
        assert (a + b)[k] == a[k];
      } else {
        assert (a + b)[k] == b[k - |a|];
      }
    }
  }

  /** Trimming removes nothing from a string that has no whitespace at its ends. */
  lemma TrimIdempotent(s: string)
    ensures Trim(Trim(s)) == Trim(s)
  {
    var r := Trim(s);
    assert TrimStart(r) == r;
    assert TrimEnd(r) == r;
  }

  /** ASCII lower-casing of one character: 'A'..'Z' map to 'a'..'z'. */
  function LowerChar(c: char): char {
    if 'A' <= c <= 'Z' then (c as int + 32) as char else c
  }

  /** `s.toLowerCase()`, restricted to the ASCII letters. */
  function ToLower(s: string): (r: string)
    ensures |r| == |s|
    ensures forall i :: 0 <= i < |s| ==> r[i] == LowerChar(s[i])
  {
    seq(|s|, i requires 0 <= i < |s| => LowerChar(s[i]))
  }

  /** Lower-cased text holds no ASCII capital, and lower-casing it again changes nothing. */
  lemma ToLowerIdempotent(s: string)
    ensures forall i :: 0 <= i < |s| ==> !('A' <= ToLower(s)[i] <= 'Z')
    ensures ToLower(ToLower(s)) == ToLower(s)
  {
  }

  /** `s.startsWith(p)`. */
  predicate StartsWith(s: string, p: string) {
    |p| <= |s| && s[..|p|] == p
  }

  /** `hay.includes(needle)`, computed by trying every start position in turn. */
  predicate Contains(hay: string, needle: string)
    decreases |hay|
  {
    StartsWith(hay, needle) || (|hay| > 0 && Contains(hay[1..], needle))
  }

  /** The window of `hay` of `needle`'s length at position `i` is `needle`. */
  predicate OccursAt(hay: string, needle: string, i: int) {
    0 <= i <= |hay| - |needle| && hay[i..i + |needle|] == needle
  }

  /** `Contains` finds exactly the needles that occur somewhere in the text. */
  lemma {:induction false} ContainsIffOccurs(hay: string, needle: string)
    ensures Contains(hay, needle) <==> exists i :: OccursAt(hay, needle, i)
    decreases |hay|
  {
    if StartsWith(hay, needle) {
      assert OccursAt(hay, needle, 0);
    } else if |hay| == 0 {
      assert forall i :: !OccursAt(hay, needle, i);
    } else {
      ContainsIffOccurs(hay[1..], needle);
      if Contains(hay[1..], needle) {
        var i :| OccursAt(hay[1..], needle, i);
        assert hay[1..][i..i + |needle|] == hay[i + 1..i + 1 + |needle|];
        assert OccursAt(hay, needle, i + 1);
      } else {
        forall i | OccursAt(hay, needle, i)
          ensures false
        {
          assert i != 0;
          assert hay[1..][i - 1..i - 1 + |needle|] == hay[i..i + |needle|];
          assert OccursAt(hay[1..], needle, i - 1);
        }
      }
    }
  }

  /** Every string contains the empty string, as `"x".includes("")` is true. */
  lemma {:induction false} ContainsEmpty(hay: string)
    ensures Contains(hay, [])
  {
    assert StartsWith(hay, []);
  }

  /** A string that starts with `p` contains `p`. */
  lemma StartsWithContains(s: string, p: string)
    requires StartsWith(s, p)
    ensures Contains(s, p)
  {
  }

  /** Containment is transitive through a longer needle: if `hay` contains
      `big` and `big` contains `small`, then `hay` contains `small`. */
  lemma ContainsTransitive(hay: string, big: string, small: string)
    requires Contains(hay, big) && Contains(big, small)
    ensures Contains(hay, small)
  {
    ContainsIffOccurs(hay, big);
    ContainsIffOccurs(big, small);
    var i :| OccursAt(hay, big, i);
    var j :| OccursAt(big, small, j);
    forall k | 0 <= k < |small|
      ensures hay[i + j + k] == small[k]
    {
      assert hay[i..i + |big|][j + k] == big[j + k];
      assert big[j..j + |small|][k] == small[k];
    }
    assert hay[i + j..i + j + |small|] == small;
    assert OccursAt(hay, small, i + j);
    ContainsIffOccurs(hay, small);
  }
}

=== FILE: validation.dfy ===
/** The request-validation middleware of the backend: `validateCreateEvent`
    checks every field of a creation body and reports every failure at once;
    `validateEventId` rejects a blank id. */
module Validation {
  import opened Wrappers
  import opened Text
  import opened JsValues
  import opened Events

  const TitleRequired := "Title is required and must be a non-empty string"
  const TitleTooLong := "Title must be less than 200 characters"
  const DescriptionRequired := "Description is required and must be a non-empty string"
  const DescriptionTooLong := "Description must be less than 1000 characters"
  const LocationRequired := "Location is required and must be a non-empty string"
  const DateRequired := "Date is required and must be a valid ISO 8601 date string"
  const DateInvalid := "Date must be a valid ISO 8601 date string"
  const DatePast := "Event date cannot be in the past"
  const MaxRequired := "maxParticipants is required"
  const MaxNotInteger := "maxParticipants must be an integer"
  const MaxTooSmall := "maxParticipants must be at least 1"
  const MaxTooLarge := "maxParticipants cannot exceed 10,000"
  const CurrentNotInteger := "currentParticipants must be an integer"
  const CurrentNegative := "currentParticipants cannot be negative"
  const CurrentTooLarge := "currentParticipants cannot exceed maxParticipants"
  const ValidationFailed := "Validation failed"
  const InvalidEventId := "Invalid event ID"

  const MaxTitleLength := 200
  const MaxDescriptionLength := 1000
  const MaxCapacity := 10000

  /** What the middleware does with a request: pass it to the next handler,
      or answer it itself. */
  datatype Gate = Next | Reject(status: int, error: string, details: seq<string>)

  /** A string field that must be present and not blank, with an optional
      upper bound on its length. The length is checked on the untrimmed text. */
  function TextFieldError(v: Value, limit: Option<nat>, required: string, tooLong: string): (r: Option<string>)
    ensures r.None? <==> v.Str? && !IsBlank(v.s) && (limit.None? || |v.s| <= limit.value)
    ensures !(v.Str? && !IsBlank(v.s)) ==> r == Some(required)
    ensures v.Str? && !IsBlank(v.s) && r.Some? ==> r == Some(tooLong)
  {
    if !Truthy(v) || !v.Str? || |Trim(v.s)| == 0 then
      assert v.Str? ==> IsBlank(v.s) by {
        if v.Str? && v.s != [] { TrimEmptyIffBlank(v.s); }
      }
      Some(required)
    else
      assert !IsBlank(v.s) by { TrimEmptyIffBlank(v.s); }
      if limit.Some? && |v.s| > limit.value then Some(tooLong) else None
  }

  function TitleError(v: Value): Option<string> {
    TextFieldError(v, Some(MaxTitleLength), TitleRequired, TitleTooLong)
  }

  function DescriptionError(v: Value): Option<string> {
    TextFieldError(v, Some(MaxDescriptionLength), DescriptionRequired, DescriptionTooLong)
  }

  function LocationError(v: Value): Option<string> {
    TextFieldError(v, None, LocationRequired, LocationRequired)
  }

  /** The date must be a non-empty string that parses to an instant no earlier
      than `now`. `parseDate` is `new Date(s).getTime()`, with `None` for NaN. */
  function DateError(v: Value, now: int, parseDate: string -> Option<int>): (r: Option<string>)
    ensures r.None? <==> v.Str? && v.s != [] && parseDate(v.s).Some? && parseDate(v.s).value >= now
    ensures r == Some(DateRequired) <==> !(v.Str? && v.s != [])
    ensures r == Some(DateInvalid) <==> v.Str? && v.s != [] && parseDate(v.s).None?
    ensures r == Some(DatePast) <==> v.Str? && v.s != [] && parseDate(v.s).Some? && parseDate(v.s).value < now
  {
    if !Truthy(v) || !v.Str? then Some(DateRequired)
    else
      match parseDate(v.s)
      case None => Some(DateInvalid)
      case Some(t) => if t < now then Some(DatePast) else None
  }

  /** `maxParticipants` must be present and an integer between 1 and 10000. */
  function MaxParticipantsError(v: Value): (r: Option<string>)
    ensures r.None? <==> IsInteger(v) && 1.0 <= v.x <= MaxCapacity as real
    ensures r == Some(MaxRequired) <==> v.Undefined? || v.Null?
    ensures r == Some(MaxNotInteger) <==> !(v.Undefined? || v.Null?) && !IsInteger(v)
    ensures r == Some(MaxTooSmall) <==> IsInteger(v) && v.x < 1.0
    ensures r == Some(MaxTooLarge) <==> IsInteger(v) && v.x > MaxCapacity as real
  {
    if v.Undefined? || v.Null? then Some(MaxRequired)
    else if !v.Num? || !IsInteger(v) then Some(MaxNotInteger)
    else if v.x < 1.0 then Some(MaxTooSmall)
    else if v.x > MaxCapacity as real then Some(MaxTooLarge)
    else None
  }

  /** `currentParticipants`, when present (`null` counts as present), must be
      a non-negative integer that `maxParticipants` does not fall below. */
  function CurrentParticipantsError(c: Value, max: Value): (r: Option<string>)
    ensures c.Undefined? ==> r.None?
    ensures IsInteger(max) ==> (r.None? <==> c.Undefined? || (IsInteger(c) && 0.0 <= c.x <= max.x))
    ensures r == Some(CurrentNotInteger) <==> !c.Undefined? && !IsInteger(c)
    ensures r == Some(CurrentNegative) <==> IsInteger(c) && c.x < 0.0
    ensures IsInteger(c) && c.x >= 0.0 ==> (r == Some(CurrentTooLarge) <==> Less(ToNumber(max), Finite(c.x)))
  {
    if c.Undefined? then None
    else if !c.Num? || !IsInteger(c) then Some(CurrentNotInteger)
    else if c.x < 0.0 then Some(CurrentNegative)
    else if Less(ToNumber(max), Finite(c.x)) then Some(CurrentTooLarge)
    else None
  }

  /** The six field checks, in the order the middleware runs them. */
  function FieldErrors(b: RequestBody, now: int, parseDate: string -> Option<int>): (r: seq<Option<string>>)
    ensures |r| == 6
  {
    [ TitleError(b.title),
      DescriptionError(b.description),
      LocationError(b.location),
      DateError(b.date, now, parseDate),
      MaxParticipantsError(b.maxParticipants),
      CurrentParticipantsError(b.currentParticipants, b.maxParticipants) ]
  }

  /** The messages of the checks that failed, in check order. */
  function Present(xs: seq<Option<string>>): (r: seq<string>)
    ensures |r| <= |xs|
    ensures r == [] <==> forall i :: 0 <= i < |xs| ==> xs[i].None?
    ensures forall m :: m in r <==> Some(m) in xs
  {
    if |xs| == 0 then []
    else
      var rest := Present(xs[1..]);
      assert forall m :: Some(m) in xs <==> Some(m) == xs[0] || Some(m) in xs[1..];
      if xs[0].Some? then [xs[0].value] + rest else rest
  }

  /** The number of failed checks. */
  function Failures(xs: seq<Option<string>>): nat {
    if |xs| == 0 then 0 else (if xs[0].Some? then 1 else 0) + Failures(xs[1..])
  }

  /** The error list `validateCreateEvent` builds. */
  function Errors(b: RequestBody, now: int, parseDate: string -> Option<int>): seq<string> {
    Present(FieldErrors(b, now, parseDate))
  }

  /** `validateCreateEvent`: the request proceeds exactly when no check failed;
      otherwise the answer is 400 with the complete error list. */
  function ValidateCreateEvent(b: RequestBody, now: int, parseDate: string -> Option<int>): (r: Gate)
    ensures r.Next? <==> forall i :: 0 <= i < 6 ==> FieldErrors(b, now, parseDate)[i].None?
    ensures r.Reject? ==> r.status == 400 && r.error == ValidationFailed
                          && r.details == Errors(b, now, parseDate) && |r.details| > 0
  {
    var errors := Errors(b, now, parseDate);
    if |errors| > 0 then Reject(400, ValidationFailed, errors) else Next
  }

  /** `validateEventId`: a blank id is answered with 400. */
  function ValidateEventId(id: string): (r: Gate)
    ensures r.Next? <==> !IsBlank(id)
    ensures r.Reject? ==> r.status == 400 && r.error == InvalidEventId && r.details == []
  {
    TrimEmptyIffBlank(id);
    if |Trim(id)| == 0 then Reject(400, InvalidEventId, []) else Next
  }

  // ---------------------------------------------------------------------------
  // Properties of the error list
  // ---------------------------------------------------------------------------

  /** The field a message belongs to, by its position among the six checks. */
  function FieldOf(m: string): int {
    if m == TitleRequired || m == TitleTooLong then 0
    else if m == DescriptionRequired || m == DescriptionTooLong then 1
    else if m == LocationRequired then 2
    else if m == DateRequired || m == DateInvalid || m == DatePast then 3
    else if m == MaxRequired || m == MaxNotInteger || m == MaxTooSmall || m == MaxTooLarge then 4
    else if m == CurrentNotInteger || m == CurrentNegative || m == CurrentTooLarge then 5
    else -1
  }

  lemma TitleMessages()
    ensures FieldOf(TitleRequired) == 0 && FieldOf(TitleTooLong) == 0
  {
  }

  lemma DescriptionMessages()
    ensures FieldOf(DescriptionRequired) == 1 && FieldOf(DescriptionTooLong) == 1
  {
  }

  lemma LocationMessages()
    ensures FieldOf(LocationRequired) == 2
  {
  }

  lemma DateMessages()
    ensures FieldOf(DateRequired) == 3 && FieldOf(DateInvalid) == 3 && FieldOf(DatePast) == 3
  {
  }

  lemma MaxMessages()
    ensures FieldOf(MaxRequired) == 4 && FieldOf(MaxNotInteger) == 4
    ensures FieldOf(MaxTooSmall) == 4 && FieldOf(MaxTooLarge) == 4
  {
  }

  lemma CurrentMessages()
    ensures FieldOf(CurrentNotInteger) == 5 && FieldOf(CurrentNegative) == 5
    ensures FieldOf(CurrentTooLarge) == 5
  {
  }

  /** Every failed check reports a message of its own field. */
  lemma FieldErrorsTagged(b: RequestBody, now: int, parseDate: string -> Option<int>)
    ensures var xs := FieldErrors(b, now, parseDate);
            forall i :: 0 <= i < 6 && xs[i].Some? ==> FieldOf(xs[i].value) == i
  {
    TitleMessages();
    DescriptionMessages();
    LocationMessages();
    DateMessages();
    MaxMessages();
    CurrentMessages();
  }

  /** Messages drawn from checks whose fields strictly increase come out with
      strictly increasing fields. */
  lemma {:induction false} PresentOrdered(xs: seq<Option<string>>, offset: int)
    requires forall i :: 0 <= i < |xs| && xs[i].Some? ==> FieldOf(xs[i].value) == offset + i
    ensures var r := Present(xs);
            && |r| == Failures(xs)
            && (forall i :: 0 <= i < |r| ==> offset <= FieldOf(r[i]) < offset + |xs|)
            && (forall i, j :: 0 <= i < j < |r| ==> FieldOf(r[i]) < FieldOf(r[j]))
  {
    if |xs| > 0 {
      PresentOrdered(xs[1..], offset + 1);
    }
  }

  /** The error list holds one message per failed check and never two for the
      same field, so it has at most six entries and no repeats; a body with N
      failing fields yields exactly N distinct messages. */
  lemma ErrorsOnePerField(b: RequestBody, now: int, parseDate: string -> Option<int>)
    ensures var r := Errors(b, now, parseDate);
            && |r| == Failures(FieldErrors(b, now, parseDate)) <= 6
            && (forall i, j :: 0 <= i < j < |r| ==> FieldOf(r[i]) < FieldOf(r[j]))
            && (forall i, j :: 0 <= i < j < |r| ==> r[i] != r[j])
  {
    FieldErrorsTagged(b, now, parseDate);
    PresentOrdered(FieldErrors(b, now, parseDate), 0);
  }

  /** A title is rejected as required exactly when it is blank or not a string;
      a string of exactly 200 characters is accepted and one of 201 is not. */
  lemma TitleBoundary(s: string)
    requires !IsBlank(s)
    ensures |s| == MaxTitleLength ==> TitleError(Str(s)).None?
    ensures |s| == MaxTitleLength + 1 ==> TitleError(Str(s)) == Some(TitleTooLong)
    ensures TitleError(Str(s + [' '])).Some? <==> |s| >= MaxTitleLength
  {
    assert !IsBlank(s + [' ']) by {
      var i :| 0 <= i < |s| && !IsWhitespace(s[i]);
      assert (s + [' '])[i] == s[i];
    }
  }

  /** The capacity bounds are inclusive: 1 and 10000 pass, 0 and 10001 fail,
      and `currentParticipants` equal to the capacity passes while one more fails. */
  lemma CapacityBoundaries()
    ensures MaxParticipantsError(Num(10000.0)).None?
    ensures MaxParticipantsError(Num(10001.0)) == Some(MaxTooLarge)
    ensures MaxParticipantsError(Num(1.0)).None?
    ensures MaxParticipantsError(Num(0.0)) == Some(MaxTooSmall)
    ensures MaxParticipantsError(Num(2.5)) == Some(MaxNotInteger)
    ensures MaxParticipantsError(Str("10")) == Some(MaxNotInteger)
    ensures CurrentParticipantsError(Num(50.0), Num(50.0)).None?
    ensures CurrentParticipantsError(Num(51.0), Num(50.0)) == Some(CurrentTooLarge)
    ensures CurrentParticipantsError(Null, Num(50.0)) == Some(CurrentNotInteger)
    ensures CurrentParticipantsError(Num(3.0), Num(2.5)) == Some(CurrentTooLarge)
    ensures CurrentParticipantsError(Num(2.0), Num(2.5)).None?
  {
    assert (2.5).Floor == 2;
  }
}

=== FILE: wrappers.dfy ===
/** Failure-compatible wrappers shared by every module of the model. */
module Wrappers {

  /** An optional value: `None` stands for JavaScript's `undefined` (a missing
      map entry, a missing field) or, for numbers, for `NaN`. */
  datatype Option<+T> = None | Some(value: T) {

    /** Returns the wrapped value, or `default` when there is none. */
    function GetOr(default: T): T {
      match this
      case Some(v) => v
      case None => default
    }
  }

  /** The outcome of a computation that can throw: `Fault` stands for an
      exception that the route's `catch` block turns into an HTTP 500. */
  datatype Result<+T> = Ok(value: T) | Fault
}
